=== FILE: README.md ===
# GradeUFLA scheduling core in Dafny

GradeUFLA helps a UFLA student plan a semester. The student picks a course, a
curriculum matrix and a current semester, and marks the subjects already passed. Then
they drag subject sections onto a weekly calendar and export that calendar as an
iCalendar (.ics) file. This project models the logic behind that flow and proves what
it guarantees:

- **Calendar** (`calendar.dfy`, `calendar_export.dfy`):
  - weekday normalisation;
  - the hour-by-hour conflict check over `[inicio, fim)` slots, with the calendar as
    an ordered map from subject code to placed subject;
  - cell occupancy, and the section under a cell while a subject is dragged;
  - the drag-start and drop gating (`Calendar.Arrasto`, a class over the drag state);
  - the split of subjects into those available to place, and the credit total;
  - hour labels, `parseHour`, `escapeICSText` and the `.ics` document.
- **Data layer** (`data_index.dfy`):
  - the detailed and flat prerequisite checks;
  - grouping of subject rows into course → matrix → semester (`AgruparPorCurso`);
  - the getters over the grouped data;
  - the course and matrix orderings, and course search.
- **CSV loader** (`csv_loader.dfy`, `csv_cursos.dfy`, `csv_materias.dfy`):
  - the prerequisite-field grammar and matrix-id normalisation;
  - the course list with deduplicated, sorted matrices;
  - the per-matrix semester totals (`computeTotalSemestres`, in place on an array of courses);
  - subject rows with their sections, covering JSON slot normalisation in place and the compact `d-h` notation.
- **Static catalogue** (`materias.dfy`, `cursos.dfy`):
  - `criarTurmas`, the SI fallbacks and the legacy prerequisite check;
  - `getNomeMateria` and the course lookups over the fixed course list.
- **App shell** (`app.dfy`):
  - `AppState` holds the approved list and the calendar map;
  - unchecking a subject cascades removal by fixed-point iteration;
  - add and remove on the calendar map, and approved-list initialisation at setup completion.
- **State machines**:
  - the `Stepper` class (step counter, validation gating, backward-only indicator
    clicks, completed state at `totalSteps + 1`);
  - the setup wizard's `Assistente` class (validation, resetting of dependent
    selections, completion only with a full choice);
  - the `Historico` check gate.
- **Shared modules**: `base.dfy` (Option, subsequences, filters), `text.dfy` (trim, case,
  `Number()`, integer printing, split, join), `ordered_map.dfy` (JavaScript objects with
  their key order), `sorting.dfy` (a stable sort by a comparator) and `catalog.dfy` (the data
  model: slots, sections, subjects, courses, matrices).

Modelling conventions:

- JavaScript's `null`/`undefined` becomes an `Option`, or `""` for text and `0` for a
  semester where the source only tests truthiness.
- Callbacks (`onStepChange`, `onToggleMateria`, `onAddMateria`, toasts) become
  returned values or an event log (`Stepper.avisos`).
- The clock, `JSON.parse` and the date formatting become parameters.

## Model

| member | source | states |
|---|---|---|
| Calendar.IndiceDiaSpec | src/components/Calendar/Calendar.jsx:78 | `findIndex` over the three-letter day prefixes: -1 iff no prefix matches, otherwise the lowest matching index |
| Calendar.PrefixosDosDias | src/components/Calendar/Calendar.jsx:8 | the lowercase three-letter prefixes of `DIAS_SEMANA` are the table searched by name |
| Calendar.NormalizeDiaNumeros | src/components/Calendar/Calendar.jsx:66-74 | numbers 0..6 are kept, 7 becomes 6, numbers outside 0..7 are returned unchanged |
| Calendar.NormalizeDiaIdempotente | src/components/Calendar/Calendar.jsx:65-80 | normalising a normalised day changes nothing |
| Calendar.NormalizeDiaTexto | src/components/Calendar/Calendar.jsx:67-79 | a numeric string behaves as its number; otherwise the result is the index of a day whose prefix equals the string's, or the string unchanged when no day matches |
| Calendar.NormalizeDiaNome | src/components/Calendar/Calendar.jsx:77-79 | a non-numeric string maps to the first day with the same three-letter lowercase prefix, else stays unchanged |
| Calendar.NormalizeDiaNomes | src/components/Calendar/Calendar.jsx:77-79 | each of the seven day names maps back to its own index |
| Calendar.NomeNaoNumerico | src/components/Calendar/Calendar.jsx:67-68 | a three-letter name starting with a non-digit, non-sign letter is NaN to `Number()` |
| Calendar.SabadoPorExtenso | src/components/Calendar/Calendar.jsx:77-79 | example: "SÁBADO" is read as Saturday (6) |
| Calendar.SabadoNaoNumerico | src/components/Calendar/Calendar.jsx:67-68 | example: "SÁBADO" is not a number |
| Calendar.PrefixoSabado | src/components/Calendar/Calendar.jsx:77-78 | example: the prefix of "SÁBADO" is found at index 6 |
| Calendar.PrefixoSab | src/components/Calendar/Calendar.jsx:77-78 | example: "sab" without the accent matches no day |
| Calendar.SabSemAcento | src/components/Calendar/Calendar.jsx:79 | example: "SAB" is returned unchanged, because the comparison is accent-sensitive |
| Calendar.CruzamSeHoraComum | src/components/Calendar/Calendar.jsx:142-146 | two slots overlap iff some hour of the first lies in the second on the same normalised day |
| Calendar.PrimeiroOcupanteSpec | src/components/Calendar/Calendar.jsx:143-148 | the search over placed subjects finds none iff none occupies the hour, else the first in map order that does |
| Calendar.ConflitoNasHorasSpec | src/components/Calendar/Calendar.jsx:142-150 | scanning the hours from `hora` to `fim` finds none iff no placed subject occupies any of them; a found subject is placed and occupies one |
| Calendar.HorasLivresSeSemSobreposicao | src/components/Calendar/Calendar.jsx:140-151 | one slot's hour-by-hour scan finds a conflict iff some placed subject overlaps it |
| Calendar.ConflitoEmSpec | src/components/Calendar/Calendar.jsx:139-154 | no conflict iff no candidate slot overlaps any placed subject; a reported subject is placed and overlaps a candidate slot |
| Calendar.VerificarConflito | src/components/Calendar/Calendar.jsx:139-154 | the nested loops return the first conflicting subject's name, or no conflict, exactly as the specification function says |
| Calendar.ConflitoSobreposto | src/components/Calendar/Calendar.jsx:146 | example: Monday 8-10 conflicts with Monday 9-11 |
| Calendar.SemConflitoAdjacente | src/components/Calendar/Calendar.jsx:146 | example: Monday 8-10 does not conflict with Monday 10-12 (end-exclusive) |
| Calendar.NaCelulaSpec | src/components/Calendar/Calendar.jsx:122-136 | the cell lists exactly the placed entries with a slot on that day and hour, in map order, each at most once |
| Calendar.CobreCelula | src/components/Calendar/Calendar.jsx:126-133 | the inner loop with `break` answers whether some slot covers the cell |
| Calendar.GetMateriasEmCelula | src/components/Calendar/Calendar.jsx:122-136 | the loop collects exactly the entries of the cell at hour 6 + index |
| Calendar.PrimeiraTurmaSpec | src/components/Calendar/Calendar.jsx:161-170 | the section search returns -1 iff no section covers the cell, else the lowest index that does |
| Calendar.Arrasto.constructor | src/components/Calendar/Calendar.jsx:47-50 | nothing is being dragged and no section is selected |
| Calendar.Arrasto.TurmaIndexParaCelula | src/components/Calendar/Calendar.jsx:157-171 | -1 when nothing is dragged, else the lowest covering section index |
| Calendar.Arrasto.IniciarArrasto | src/components/Calendar/Calendar.jsx:174-191 | the drag starts iff the prerequisites are met and the subject is not on the calendar; a started drag has no section selected |
| Calendar.Arrasto.PassarSobreCelula | src/components/Calendar/Calendar.jsx:200-207 | hovering selects the covering section, and keeps the old selection when none covers the cell |
| Calendar.Arrasto.SoltarMouse | src/components/Calendar/Calendar.jsx:210-250 | a drop inside the calendar with a section selected adds the subject with that section's id and slots iff there is no conflict, otherwise reports the conflicting name; the drag state is always reset |
| Calendar.NaoAprovadasSpec | src/components/Calendar/Calendar.jsx:102 | the mandatory list holds the semester's unapproved subjects in order, each as many times as it occurs there, and no approved one |
| Calendar.PendentesDeSpec | src/components/Calendar/Calendar.jsx:88-93 | one earlier semester contributes its unapproved subjects, each entry occurring as often as its subject is listed, tagged with that semester |
| Calendar.PendentesDeEmOrdem | src/components/Calendar/Calendar.jsx:88-93 | the pushes keep list order: the entries are the unapproved subjects in order, each tagged with the semester |
| Calendar.PendentesDesdeSpec | src/components/Calendar/Calendar.jsx:87-94 | an entry is in the pending list iff its subject is unapproved and listed in its semester, one of 1 .. current-1 |
| Calendar.PendentesDesdeOrdem | src/components/Calendar/Calendar.jsx:87-94 | the semester never decreases along the pending list |
| Calendar.PendentesDesdeContagem | src/components/Calendar/Calendar.jsx:87-94 | each entry occurs as often as its subject is listed in that semester, so a repeated row is pending twice |
| Calendar.EletivasCumpridasSpec | src/components/Calendar/Calendar.jsx:96-99 | electives shown are those whose prerequisites are met, in order, each as many times as it is listed, and no other |
| Calendar.PendentesDoSemestre | src/components/Calendar/Calendar.jsx:88-93 | the forEach with pushes builds exactly the pending list of one semester |
| Calendar.GetMateriasDisponiveis | src/components/Calendar/Calendar.jsx:83-106 | the three lists are the unapproved mandatory subjects, the pending ones of earlier semesters, and the eligible electives only when electives are shown |
| Calendar.TotalCreditosPut | src/components/Calendar/Calendar.jsx:386 | adding a subject changes the credit total by its credits minus those of the entry it replaces |
| Calendar.TotalCreditosDelete | src/components/Calendar/Calendar.jsx:386 | removing a code lowers the credit total by exactly that entry's credits |
| CalendarExport.GerarHorarios | src/components/Calendar/Calendar.jsx:26-32 | one "HH:00" label per hour from start to end, none when end < start |
| CalendarExport.ParseHour | src/components/Calendar/Calendar.jsx:281-290 | null gives 0:00 and an integer hour h gives h:00 |
| CalendarExport.RotuloHoraParseHour | src/components/Calendar/Calendar.jsx:285-287 | parsing a generated "HH:00" label gives back its hour |
| CalendarExport.ParseHourSemMinutos | src/components/Calendar/Calendar.jsx:285-287 | a string without ':' gives its number (0 when NaN) and minute 0 |
| CalendarExport.EscaparConcat | src/components/Calendar/Calendar.jsx:355-357 | the three chained replaces, with either comma replacement, distribute over concatenation |
| CalendarExport.EscaparPorCaractere | src/components/Calendar/Calendar.jsx:355-357 | the three chained replaces act character by character |
| CalendarExport.EscapeEachSpec | src/components/Calendar/Calendar.jsx:355-357 | per-character escaping with a bare or an escaped comma is undone by unescaping and leaves no raw newline; with the escaped comma it is well-formed escaped text |
| CalendarExport.EscapeICSTextRoundTrip | src/components/Calendar/Calendar.jsx:355-357 | unescaping the escaped text gives the original, and the result is well-formed escaped text |
| CalendarExport.EscapadoSemQuebra | src/components/Calendar/Calendar.jsx:356 | well-formed escaped text holds no raw newline |
| CalendarExport.EscapeVirgulaAsWritten | src/components/Calendar/Calendar.jsx:356 | as written, "a,b" escapes to "a,b", which is not well-formed escaped text |
| CalendarExport.EscapeSemVirgula | src/components/Calendar/Calendar.jsx:356 | without commas, the written and the corrected escapes agree |
| CalendarExport.EscapeAsWrittenSpec | src/components/Calendar/Calendar.jsx:355-357 | the escape as written is undone by unescaping and leaves no raw newline, and its output is well-formed escaped text iff the input has no comma |
| CalendarExport.ReplaceCharIdentidade | src/components/Calendar/Calendar.jsx:356 | replacing a character by itself changes nothing, which is what `'\,'` does |
| CalendarExport.DiasAteSpec | src/components/Calendar/Calendar.jsx:296-299 | the day offset is 0..6, lands on the requested weekday, and is 0 iff that weekday is today |
| CalendarExport.DiaExportado | src/components/Calendar/Calendar.jsx:324-325 | an exported slot has a day 0..6 |
| CalendarExport.LinhaTextoSpec | src/components/Calendar/Calendar.jsx:344-345 | a SUMMARY or DESCRIPTION value is the as-written escape of the text: it unescapes to the text, holds no raw newline, and is well-formed iff the text has no comma |
| CalendarExport.Evento | src/components/Calendar/Calendar.jsx:338-347 | an event has nine lines, from BEGIN:VEVENT to END:VEVENT |
| CalendarExport.EventoTexto | src/components/Calendar/Calendar.jsx:318-345 | the SUMMARY line carries the subject's name and the DESCRIPTION line the code, section and credits, both recoverable and single-line; the SUMMARY is well-formed iff the name has no comma |
| CalendarExport.EventoHorario | src/components/Calendar/Calendar.jsx:330-343 | DTSTART and DTEND are the stamps of the slot's start and end hours on the next matching weekday; RRULE repeats weekly `weeks` times |
| CalendarExport.LinhasDaMateria | src/components/Calendar/Calendar.jsx:322-348 | the loop over one subject's slots emits exactly its events |
| CalendarExport.EventosDaMateriaTamanho | src/components/Calendar/Calendar.jsx:322-348 | nine lines per slot whose day is 0..6, and nothing for the others |
| CalendarExport.EventosTamanho | src/components/Calendar/Calendar.jsx:317-349 | the events of the calendar hold nine lines per exportable slot |
| CalendarExport.LinhasICS | src/components/Calendar/Calendar.jsx:311-351 | the loop produces the header, every subject's events in map order (text values escaped as written), and the footer |
| CalendarExport.BuildICS | src/components/Calendar/Calendar.jsx:309-353 | the document is those lines joined by CRLF, with SUMMARY and DESCRIPTION escaped as written |
| CalendarExport.ExportToICS | src/components/Calendar/Calendar.jsx:359-366 | an empty calendar exports nothing; otherwise the built document |
| DataIndex.VerificarPreRequisitosDetalhada | src/data/index.js:222-241 | without detail, forte is the unapproved flat prerequisites; with it, each list is its group filtered to unapproved codes in order, a co-requisite also counting when on the calendar; cumprido iff all three are empty |
| DataIndex.FaltandoContagem | src/data/index.js:225-231 | each missing list keeps every occurrence of a code it keeps (a prerequisite listed twice and unapproved is reported twice) and drops every occurrence of an approved code, or, for co-requisites, of a code on the calendar |
| DataIndex.CumpridoSeSatisfeito | src/data/index.js:229-236 | cumprido iff every prerequisite is approved (co-requisites: or on the calendar) |
| DataIndex.CalendarioSoCoreq | src/data/index.js:229-231 | the calendar affects only the co-requisite list |
| DataIndex.VerificarPreRequisitos | src/data/index.js:244-248 | faltando is forte ++ minimo ++ coreq, cumprido is unchanged, and cumprido iff faltando is empty |
| DataIndex.GrupoSemestre | src/data/index.js:36-40 | a semester group holds exactly the non-elective rows of that course, matrix and semester key |
| DataIndex.GrupoEletivasMatriz | src/data/index.js:33-34 | a matrix's electives are exactly its elective rows |
| DataIndex.GrupoEletivasCurso | src/data/index.js:33-35 | a course's electives are exactly its elective rows across matrices |
| DataIndex.AdicionarLinha | src/data/index.js:25-41 | adding a row creates its course entry when it has a course, and keeps keys unique |
| DataIndex.OutroCursoIntacto | src/data/index.js:26-41 | a row leaves every other course untouched |
| DataIndex.AdicionarLinhaNoGrupo | src/data/index.js:29-41 | a row is appended to its semester list or to both elective lists, under matrix key `matriz or 'default'` |
| DataIndex.EletivaNoGrupo | src/data/index.js:33-35 | an elective row goes to the matrix's and the course's electives, not to a semester |
| DataIndex.ObrigatoriaNoGrupo | src/data/index.js:36-40 | any other row goes to `materiasPorSemestre[String(semestre or '0')]` only |
| DataIndex.ObrigatoriaMatriz | src/data/index.js:31-40 | the row's matrix entry gets the row appended at its semester key; other matrices are unchanged |
| DataIndex.AgrupadoInicio | src/data/index.js:16-23 | the initial course entries, before any row, satisfy the grouping invariant |
| DataIndex.EntradasDosCursos | src/data/index.js:17-23 | one empty entry per course with a non-empty id |
| DataIndex.AgruparPorCurso | src/data/index.js:16-42 | after all rows, every group holds exactly the rows it should |
| DataIndex.MateriasDoSemestre | src/data/index.js:78-91 | no data, an unknown course, or no course with no data gives []; no course means the first course key; no matrix means the course's first matrix key, else "default"; the result is that semester's group |
| DataIndex.MateriasDoSemestreAgrupadas | src/data/index.js:78-89 | a semester lookup after grouping lists exactly the non-elective rows of that course, matrix and semester |
| DataIndex.MapaPorSemestre | src/data/index.js:78-91 | without a semester, the whole semester map of the resolved course and matrix: no course means the first course key, no matrix the first matrix key or "default"; an unknown course gives [] |
| DataIndex.Eletivas | src/data/index.js:94-102 | no data or an unknown course gives []; otherwise the elective list of the resolved course and matrix, with the same first-key and "default" fallbacks |
| DataIndex.DigitosIniciais | src/data/index.js:137 | the maximal run of digits at the start |
| DataIndex.PrimeiroNumero | src/data/index.js:135-139 | None iff the id has no digit; otherwise the value of its first run of digits |
| DataIndex.CursoAntesTotal | src/data/index.js:134-144 | the course comparator is total |
| DataIndex.CursoAntesTransitivo | src/data/index.js:134-144 | the course comparator is transitive |
| DataIndex.GetCursos | src/data/index.js:130-145 | a permutation of the loaded courses, sorted by the course comparator; [] before loading |
| DataIndex.GetCursosOrdem | src/data/index.js:134-144 | in the result, first numbers ascend, ids without digits come last, ties go by id |
| DataIndex.SoDigitos | src/data/index.js:165 | `replace(/\D/g, '')` keeps exactly the digits: a subsequence of the input holding each digit as many times as the input does and nothing else |
| DataIndex.PontuacaoMatriz | src/data/index.js:161-167 | a matrix key has a score iff it is non-empty |
| DataIndex.MatrizAntesTotal | src/data/index.js:169-176 | the fallback matrix comparator is total |
| DataIndex.MatrizAntesTransitivo | src/data/index.js:169-176 | the fallback matrix comparator is transitive |
| DataIndex.DescendenteTotal | src/data/index.js:151 | the descending string order is total |
| DataIndex.MatrizesDoCurso | src/data/index.js:147-183 | listed matrices come back as a permutation sorted descending; otherwise the grouped matrix keys, a permutation sorted by score with tied keys ("default" and "antiga" both score 0) in their grouped order; [] for an unknown course |
| DataIndex.MatrizesFallbackOrdem | src/data/index.js:169-176 | scored keys descend, and scored keys precede unscored ones |
| DataIndex.PontuacaoExemplo | src/data/index.js:163-164 | example: "2023/1" scores 202301 |
| DataIndex.BuscarCursos | src/data/index.js:191-196 | [] before loading; otherwise exactly the courses matching the term, in order |
| CsvLoader.Campo | src/data/csvLoader.js:95-97 | the first non-empty cell among the named columns, '' when all are empty |
| CsvLoader.ProximoDigito | src/data/csvLoader.js:87 | `\D*` stops at the next digit or the end |
| CsvLoader.CasaAnoPeriodo | src/data/csvLoader.js:87 | a match is four digits and one or two digits |
| CsvLoader.CasaAnoPeriodoNenhuma | src/data/csvLoader.js:87 | `match` returns null iff the pattern matches at no position |
| CsvLoader.CasaAnoPeriodoPrimeira | src/data/csvLoader.js:87 | the match returned is the one at the leftmost matching position |
| CsvLoader.CasaAnoSeparadorPeriodo | src/data/csvLoader.js:87 | "YYYY", non-digits, "P" or "PP" matches with those groups |
| CsvLoader.NormalizeMatrizAnoPeriodo | src/data/csvLoader.js:84-90 | "YYYY<sep>P" normalises to "YYYY/PP" with the period zero-padded |
| CsvLoader.FormaNormalizada | src/data/csvLoader.js:88 | the normalised form is seven characters "DDDD/DD" and matches itself |
| CsvLoader.NormalizeMatrizFormato | src/data/csvLoader.js:84-90 | a matching id normalises to the "DDDD/DD" form |
| CsvLoader.NormalizeMatrizForma | src/data/csvLoader.js:84-90 | every normalised id is either "DDDD/DD" matching as itself or an id in which the pattern matches nowhere |
| CsvLoader.NormalizeMatrizIdempotente | src/data/csvLoader.js:84-90 | normalising twice equals normalising once |
| CsvLoader.TemRotulo | src/data/csvLoader.js:29 | the label test holds iff some Forte, Minimo or Co-requisito word stands between word boundaries |
| CsvLoader.PulaEspacos | src/data/csvLoader.js:41 | `\s*` skips exactly the whitespace run |
| CsvLoader.AteFimDaLinha | src/data/csvLoader.js:41 | `(.*)` captures up to the first line terminator |
| CsvLoader.SoCodigo | src/data/csvLoader.js:60 | only characters of `[A-Za-z0-9_-]` remain: a subsequence holding each of them as many times as the input does |
| CsvLoader.NormalizarCodigos | src/data/csvLoader.js:59-61 | every code left is non-empty, upper-case and made of code characters |
| CsvLoader.NormalizarCodigosExato | src/data/csvLoader.js:59-61 | each code becomes its cleaned, upper-cased form in order, and exactly the codes that become empty are dropped |
| CsvLoader.ParsePreRequisitosString | src/data/csvLoader.js:21-64 | the forEach with pushes builds exactly the specified three lists |
| CsvLoader.PreRequisitosVazios | src/data/csvLoader.js:22-25 | a blank field gives three empty lists |
| CsvLoader.PreRequisitosSemRotulo | src/data/csvLoader.js:31-37 | without a label, forte is the trimmed non-empty pieces of the field split at `,`, `|` and `/`, with no code clean-up: each a non-empty piece of the field holding no separator, and the whole field when it has none; minimo and coreq are empty |
| CsvLoader.PreRequisitosRotuladosNormalizados | src/data/csvLoader.js:59-61 | with a label every code in the three lists is normalised |
| CsvLoader.SemForte | src/data/csvLoader.js:41 | text without an f has no Forte capture |
| CsvLoader.PreRequisitosRotulados | src/data/csvLoader.js:21-64 | example: "Forte: A;Minimo: B" parses to forte [A], minimo [B], coreq [] |
| CsvLoader.ItemUnico | src/data/csvLoader.js:42 | an item without separators is its own single-element list |
| CsvLoader.CapturaRotuloNenhuma | src/data/csvLoader.js:41-49 | a label pattern captures nothing iff it matches at no position |
| CsvLoader.CapturaRotuloPrimeira | src/data/csvLoader.js:41-49 | a label pattern captures at the leftmost position where it matches |
| CsvLoader.ClassificarParteSpec | src/data/csvLoader.js:39-54 | a part goes to minimo iff the Forte pattern does not match and the Minimo one does, to coreq iff only the Co-requisito one does, else to forte; a part matching none goes to forte whole |
| CsvLoader.AcumularRoteia | src/data/csvLoader.js:39-55 | every item of every part lands in the list its label names, and each list holds only items of parts routed to it |
| CsvLoader.PartesRoteadas | src/data/csvLoader.js:39-55 | an item of a part is in the list of that part's label after the forEach |
| CsvCursos.PrimeiraLinha | src/data/csvLoader.js:99-100 | the first row carrying an id, or None iff no row does |
| CsvCursos.MatrizesSemLinha | src/data/csvLoader.js:114 | an id without rows has no matrices |
| CsvCursos.CursosDasLinhasGet | src/data/csvLoader.js:94-115 | each id's entry takes name, type and flag from its first row, and matrices from all its rows |
| CsvCursos.CursosDasLinhasKeys | src/data/csvLoader.js:93-115 | the map holds each non-empty id once, in first-appearance order |
| CsvCursos.ColetarCursos | src/data/csvLoader.js:93-115 | the forEach builds exactly that map |
| CsvCursos.EntradasEsperadas | src/data/csvLoader.js:93-115 | every entry of the map is the expected course of its id |
| CsvCursos.MatrizMaisRecenteTotal | src/data/csvLoader.js:121-126 | the matrix comparator is total |
| CsvCursos.MatrizMaisRecenteCiclo | src/data/csvLoader.js:121-126 | on raw ids the comparator is not transitive ("2000/1", "x1000/1" and "5" each precede the next); loadCursos never compares such ids, see MatrizMaisRecenteNormalizadas |
| CsvCursos.MatrizMaisRecenteNormalizadas | src/data/csvLoader.js:121-126 | on ids as normalizeMatriz leaves them, the comparator is exactly descending text order, so the sort in loadCursos is by a total order |
| CsvCursos.LoadCursos | src/data/csvLoader.js:93-131 | the result is the specified course list |
| CsvCursos.CursosCarregadosSpec | src/data/csvLoader.js:93-129 | one course per distinct id in first-appearance order, with its matrices a permutation of its distinct non-empty normalised matrices in strictly descending text order |
| CsvCursos.SemestreContado | src/data/csvLoader.js:140-144 | only obligatory rows with course, matrix and a positive numeric semester count |
| CsvCursos.MaximoDeSpec | src/data/csvLoader.js:139-151 | the stored value bounds every counted semester for that key and is attained when positive |
| CsvCursos.MaximosGet | src/data/csvLoader.js:146-150 | the map holds a key iff some row counted for it, with the maximum |
| CsvCursos.MaximosDasMaterias | src/data/csvLoader.js:139-151 | the forEach builds exactly the maxima map |
| CsvCursos.TotaisPorMatriz | src/data/csvLoader.js:162-170 | every listed matrix gets its computed total or 8, other entries are kept |
| CsvCursos.ComputeTotalSemestres | src/data/csvLoader.js:135-180 | every course in the array is updated in place to its totals |
| CsvCursos.CursoComTotaisSpec | src/data/csvLoader.js:154-177 | each listed matrix maps to its maximum or 8, other entries are kept, and totalSemestres is the first matrix's value |
| CsvMaterias.NormalizarHorarios | src/data/csvLoader.js:229-250 | each slot of the array is normalised in place |
| CsvMaterias.DiaNormalizadoSpec | src/data/csvLoader.js:230-240 | a day 1..7 becomes n-1, other numbers stay, NaN leaves the day alone |
| CsvMaterias.HoraNormalizadaIdempotente | src/data/csvLoader.js:242-249 | hour normalisation is idempotent; a changed string hour becomes a number 0..99 |
| CsvMaterias.HoraOitoHoras | src/data/csvLoader.js:242-245 | example: "08:00" becomes the hour 8 |
| CsvMaterias.FimDosDigitos | src/data/csvLoader.js:271 | `\d+` reads the maximal digit run |
| CsvMaterias.CasaDiaHora | src/data/csvLoader.js:271 | the day of a match is a single digit |
| CsvMaterias.CasaDiaHoraNenhuma | src/data/csvLoader.js:271 | `match` returns null iff the `d-h` pattern matches at no position |
| CsvMaterias.CasaDiaHoraPrimeira | src/data/csvLoader.js:271 | the match returned is the one at the leftmost matching position |
| CsvMaterias.LerHorarios | src/data/csvLoader.js:269-277 | the loop over the items reads exactly the specified slots |
| CsvMaterias.SlotsDosItensSpec | src/data/csvLoader.js:271-276 | each slot read lasts one hour from a non-negative start, on a day 0..9 |
| CsvMaterias.SlotSimplesDia | src/data/csvLoader.js:275 | d in 1..7 becomes d-1, other digits stay |
| CsvMaterias.LerParte | src/data/csvLoader.js:262-278 | one `key:value` part updates id, anp or slots as specified, failing where JavaScript throws |
| CsvMaterias.LerTurma | src/data/csvLoader.js:259-281 | the parts of a section item applied in order |
| CsvMaterias.HorariosSemValor | src/data/csvLoader.js:263-269 | a `horarios` part without a value throws (`v` is undefined) |
| CsvMaterias.HorariosSozinho | src/data/csvLoader.js:263-269 | example: the item "horarios" alone throws |
| CsvMaterias.SemestreDaLinha | src/data/csvLoader.js:200-203 | a semester kept as text is trimmed and not a number |
| CsvMaterias.MateriaDaLinhaCampos | src/data/csvLoader.js:189-206 | code, name and course are trimmed and the matrix is normalised |
| CsvMaterias.MateriaDaLinhaTipo | src/data/csvLoader.js:208 | the type defaults to "obrigatoria", otherwise it is trimmed |
| CsvMaterias.MateriaDaLinhaPreRequisitos | src/data/csvLoader.js:212-215 | the detail is the parsed field, and the flat list holds the union of its three lists without duplicates |
| CsvMaterias.MateriaDaLinhaFalha | src/data/csvLoader.js:218-285 | reading a row fails iff its sections cell is non-empty, not JSON, and the compact notation throws |
| Materias.Letra | src/data/materias.js:9 | index i gives the single character 65 + i |
| Materias.CriarTurmas | src/data/materias.js:7-8 | one section per configuration, in order |
| Materias.CriarTurmasSpec | src/data/materias.js:7-19 | ids 'A', 'B', … by position and distinct; an array gives its slots, an object keeps its slots and anp, anything else gives [] |
| Materias.DadosPorCurso | src/data/materias.js:394-404 | the catalogue has the keys "G014" and "si" |
| Materias.PorSemestreDe | src/data/materias.js:406-408 | a known course's semester map, else the SI one |
| Materias.EletivasDe | src/data/materias.js:410-412 | a known course's electives, else the SI ones |
| Materias.SempreSistemas | src/data/materias.js:394-412 | every course id is served the SI data |
| Materias.VerificarPreRequisitos | src/data/materias.js:414-420 | empty prerequisites give (true, []); faltando is a subsequence holding each unapproved prerequisite as many times as it is listed and no approved one; cumprido iff all are approved |
| Materias.LegadoConcordaComDetalhada | src/data/materias.js:414-420 | without detail, the legacy check equals the data-layer one for any calendar |
| Materias.Encontrar | src/data/materias.js:425 | `find`: None iff no code matches, else the first match |
| Materias.EncontrarNosSemestres | src/data/materias.js:424-427 | the search over semesters finds a subject with the code iff one exists, and finds the first in semester order and then position order |
| Materias.GetNomeMateriaObrigatoria | src/data/materias.js:424-427 | a code of a mandatory subject gives the name of the first mandatory subject with that code, in semester order and then position order |
| Materias.GetNomeMateriaEletiva | src/data/materias.js:429-430 | a code only among electives gives the first such elective's name |
| Materias.GetNomeMateriaDesconhecida | src/data/materias.js:432 | an unknown code is returned as is |
| Cursos.GetCursoById | src/data/cursos.js:45-47 | None iff no course has the id, else a course with that id |
| Cursos.MatrizesDe | src/data/cursos.js:50-52 | the listed matrices, or the single default 2023/1 |
| Cursos.GetMatrizesByCurso | src/data/cursos.js:50-52 | the same lookup over the fixed table |
| Cursos.MatrizPadraoParaIdDesconhecido | src/data/cursos.js:51 | example: an unknown id gets only 2023/1 |
| Cursos.DoTipo | src/data/cursos.js:56 | exactly the courses of the type, in order |
| Cursos.GetCursosPorTipo | src/data/cursos.js:55-57 | exactly the fixed courses of the type, in order |
| Cursos.BuscarCursos | src/data/cursos.js:60-66 | exactly the fixed courses whose lowercase name or id contains the lowercase term, in order |
| Catalog.FiltrarBusca | src/data/cursos.js:62-65 | the case-insensitive substring filter keeps exactly the matching courses, in order |
| Catalog.BuscaVaziaTudo | src/data/cursos.js:62-65 | the empty term keeps every course |
| Catalog.CursoPorId | src/data/cursos.js:46 | None iff no course has the id, else the first with it |
| Cursos.Implementados | src/data/cursos.js:70 | exactly the implemented courses, in order |
| Cursos.GetCursosImplementados | src/data/cursos.js:69-71 | exactly the implemented fixed courses, in order |
| Cursos.SoSistemasImplementado | src/data/cursos.js:6-20 | only G014 is implemented |
| App.Dependentes | src/App.jsx:104-109 | exactly the subjects that are approved, not yet removed, and list a removed code as prerequisite |
| App.Passo | src/App.jsx:104-110 | one pass only adds codes to the removal set |
| App.PassoNoUniverso | src/App.jsx:106 | only approved codes (and the unchecked one) enter the removal set |
| App.CascataSpec | src/App.jsx:101-111 | the iteration ends at a fixed point: a superset of the start, within the approved codes, and closed under dependants |
| App.CascataMinima | src/App.jsx:101-111 | the result is the least closed set containing the start, so only transitive dependants are removed |
| App.DependenteDiretoRemovido | src/App.jsx:105-110 | an approved subject listing the unchecked code is removed |
| App.PassoDaCascata | src/App.jsx:104-110 | the filter-and-add over all subjects computes one pass |
| App.Cascatear | src/App.jsx:97-111 | the while loop stops once the set stops growing and returns the cascade |
| App.AlternadaSpec | src/App.jsx:94-116 | checking appends the code; unchecking keeps, in order, exactly the approved codes outside the least closed removal set containing it |
| App.Codigos | src/App.jsx:70 | the codes of the subjects, in order |
| App.AnterioresSpec | src/App.jsx:66-71 | the initial approved list holds exactly the codes of semesters 1 .. semestre-1 |
| App.AnterioresDaPrimeiraMatriz | src/App.jsx:66-71 | setup approves from the course's first matrix (else "default") whatever matrix was chosen: a code is approved iff a subject of that matrix in a semester before the chosen one has it |
| App.EmpilharCodigos | src/App.jsx:70 | the forEach pushes the codes in order |
| App.AppState.constructor | src/App.jsx:33-39 | start at the first stage with nothing selected, approved or placed |
| App.AppState.HandleSetupComplete | src/App.jsx:60-75 | stores the choice, approves the earlier semesters' codes in order, and moves to the history stage |
| App.AppState.HandleToggleMateriaAprovada | src/App.jsx:94-117 | the approved list becomes the toggled list with the cascade; nothing else changes |
| App.AppState.HandleAddMateria | src/App.jsx:120-125 | the code now maps to the subject, other keys are unchanged, keys stay unique; the stage, choices and approved list are unchanged |
| App.AppState.HandleRemoveMateria | src/App.jsx:127-131 | the code is gone, other keys are unchanged, an absent code leaves the map equal; the stage, choices and approved list are unchanged |
| OrderedMap.Put | src/App.jsx:121-124 | after a spread-and-set the key maps to the new value, other keys are unchanged, an existing key keeps its place and a new key goes last |
| OrderedMap.Delete | src/App.jsx:128-129 | `delete` removes exactly the key: other keys keep their values and order, an absent key leaves the map equal |
| Stepper.AvisoDe | src/components/Stepper/Stepper.jsx:31-38 | a step past the last reports completion, any other reports the step change |
| Stepper.EfeitoVoltar | src/components/Stepper/Stepper.jsx:40-44 | Back moves to step-1 iff the step is above 1 |
| Stepper.EfeitoAvancar | src/components/Stepper/Stepper.jsx:46-58 | an invalid step reports an error; a valid last step does nothing; otherwise step+1 |
| Stepper.EfeitoConcluir | src/components/Stepper/Stepper.jsx:60-69 | an invalid step reports an error; otherwise totalSteps+1, which reports completion |
| Stepper.EfeitoIndicador | src/components/Stepper/Stepper.jsx:84-138 | a click moves iff the step is strictly earlier and indicators are enabled |
| Stepper.StatusDoIndicador | src/components/Stepper/Stepper.jsx:132 | active iff equal, inactive iff the current step is before, complete iff after |
| Stepper.EfeitosNoIntervalo | src/components/Stepper/Stepper.jsx:40-69 | Back, Next and indicator clicks keep the step in 1..totalSteps; Complete moves to totalSteps+1 only when valid |
| Stepper.PressionarAteConcluir | src/components/Stepper/Stepper.jsx:113 | pressing the footer button with every step valid reaches completion after exactly totalSteps-current+1 presses |
| Stepper.Stepper.constructor | src/components/Stepper/Stepper.jsx:24-27 | starts at the initial step with no reports |
| Stepper.Stepper.UpdateStep | src/components/Stepper/Stepper.jsx:31-38 | sets the step and reports completion iff it is past the last, else the change |
| Stepper.Stepper.Aplicar | src/components/Stepper/Stepper.jsx:31-69 | applies an effect: a move with its report, an error report, or nothing |
| Stepper.Stepper.HandleBack | src/components/Stepper/Stepper.jsx:40-44 | decrements only above 1, so the step never drops below 1 |
| Stepper.Stepper.HandleNext | src/components/Stepper/Stepper.jsx:46-58 | a failed validation reports an error and keeps the step; the last step does not advance; otherwise step+1 |
| Stepper.Stepper.HandleComplete | src/components/Stepper/Stepper.jsx:60-69 | a failed validation keeps the step; otherwise the stepper is completed at totalSteps+1 |
| Stepper.Stepper.ClickIndicator | src/components/Stepper/Stepper.jsx:84-138 | moves only to a strictly earlier step, when enabled; the step never increases |
| SetupWizard.ValidateStep | src/components/SetupWizard/SetupWizard.jsx:36-49 | fails iff step 1 lacks a course, step 2 a matrix or step 3 a semester |
| SetupWizard.OpcoesDeCurso | src/components/SetupWizard/SetupWizard.jsx:17-22 | the options are exactly the implemented courses' ids |
| SetupWizard.OpcoesDeMatriz | src/components/SetupWizard/SetupWizard.jsx:14-27 | none without a course; otherwise exactly the ids of its matrices |
| SetupWizard.SemestresOptions | src/components/SetupWizard/SetupWizard.jsx:29-34 | exactly 1..totalSemestres of the selected course, in order, and [] without one |
| SetupWizard.OpcoesDeSemestre | src/components/SetupWizard/SetupWizard.jsx:29-34 | [] without a course, and every option is at least 1 |
| SetupWizard.OpcoesDeSemestreExato | src/components/SetupWizard/SetupWizard.jsx:29-34 | an unknown course offers nothing; a known one offers exactly 1, 2, ..., its totalSemestres, in order |
| SetupWizard.CursosNaoNegativos | src/data/cursos.js:6-20 | every fixed course has a non-negative semester count |
| SetupWizard.Assistente.constructor | src/components/SetupWizard/SetupWizard.jsx:8-11 | starts at step 1 with nothing selected |
| SetupWizard.Assistente.SelecionarCurso | src/components/SetupWizard/SetupWizard.jsx:106-112 | picking an offered course sets only the course |
| SetupWizard.Assistente.SelecionarMatriz | src/components/SetupWizard/SetupWizard.jsx:115-124 | picking an offered matrix sets only the matrix |
| SetupWizard.Assistente.SelecionarSemestre | src/components/SetupWizard/SetupWizard.jsx:126-135 | picking an offered semester sets only the semester |
| SetupWizard.Assistente.HandleStepChange | src/components/SetupWizard/SetupWizard.jsx:68-77 | step 1 clears matrix and semester, step 2 only the semester, and the error flag is cleared |
| SetupWizard.Assistente.HandleFinalStepCompleted | src/components/SetupWizard/SetupWizard.jsx:79-87 | completion is recorded iff course, matrix and semester are all set |
| SetupWizard.Assistente.UpdateStep | src/components/SetupWizard/SetupWizard.jsx:68-87 | the Stepper's update wired to the wizard: past the last step records completion, otherwise resets dependents |
| SetupWizard.Assistente.Voltar | src/components/SetupWizard/SetupWizard.jsx:68-77 | Back keeps the wizard's selections consistent with its step |
| SetupWizard.Assistente.Avancar | src/components/SetupWizard/SetupWizard.jsx:36-66 | Next advances exactly as the Stepper rule with this validation, and the error flag is raised iff validation fails |
| SetupWizard.Assistente.Concluir | src/components/SetupWizard/SetupWizard.jsx:79-87 | Finish without a semester raises the error; otherwise completes and records the full choice |
| SetupWizard.Assistente.ClicarIndicador | src/components/SetupWizard/SetupWizard.jsx:68-77 | an indicator click moves back only, resetting dependents |
| Historico.Permite | src/components/Historico/Historico.jsx:17-24 | the toggle goes through iff the code is approved or all its prerequisites are approved |
| Historico.CoreqNoCalendarioNaoBasta | src/components/Historico/Historico.jsx:22 | the gate ignores the calendar: an unapproved co-requisite blocks checking |
| Historico.HistoricoView.constructor | src/components/Historico/Historico.jsx:14 | nothing is shaking |
| Historico.HistoricoView.HandleToggle | src/components/Historico/Historico.jsx:16-43 | toggles iff permitted; a blocked check shakes the subject and reports the non-empty missing list |
| Sorting.SortBy | src/data/index.js:134-144 | the sort returns a permutation, sorted when the comparator is total |
| Sorting.SortByEstavel | src/data/index.js:169-176 | the sort is stable: for any element, the elements tied with it keep their input order (Array.prototype.sort is stable since ES2019) |
| Base.Without | src/data/materias.js:418 | the filter keeps the elements not in the list, in order |
| Base.WithoutConta | src/data/materias.js:418 | the filter keeps every occurrence of a kept element and none of a dropped one |
| Base.WithoutEitherConta | src/data/index.js:231 | the co-requisite filter keeps every occurrence of a code in neither list and none of the others |
| Base.Dedup | src/data/csvLoader.js:215 | `[...new Set(...)]` holds exactly the elements of the input, each once |
| Base.DedupOrdem | src/data/csvLoader.js:215 | the elements come in the order of their first occurrences in the input |
| Text.TrimInfixo | src/data/csvLoader.js:24 | the trimmed text is the original with its leading and trailing whitespace runs removed |
| Text.TrimSemEspacos | src/data/csvLoader.js:24 | trimmed text neither starts nor ends with whitespace |
| Text.SplitContido | src/data/csvLoader.js:31-37 | every piece of a split occurs in the text, the first at its start |
| Text.DigitsLex | src/data/csvLoader.js:121-126 | for digit strings of equal length, numeric order is text order |
| Text.NumberOfStringDigitos | src/data/csvLoader.js:203 | `Number()` of a digit string is its value |

## Left out

- Fetching the CSV files, PapaParse and `tryLoad` are I/O and a foreign parser. A parsed row is an ordered map from header to cell text.
- The module-level asynchronous load in `src/data/index.js` and the `window.__csv*` debug hooks are side effects. The loaded data is a parameter (`None` before loading).
- `JSON.parse` of a sections cell, with its quote stripping, is a parameter. The in-place normalisation of JSON slots is modelled on the JSON value type (`CsvMaterias.NormalizarHorarios` on one section's slot array, `TurmaNormalizada` across sections as values), not composed with the parameter.
- `getNomeMateria`, `getHorariosPorDisciplina`, `getCursoInfo` and `getCursosImplementados` of `src/data/index.js` are not part of this model. Only `getNomeMateria` of the static catalogue is.
- The SI catalogue data itself (the subject tables of `src/data/materias.js`) is a parameter `si`.
- Navigation handlers that only set the stage (`handleGetStartedClick`, the `handleVoltarPara*` handlers, `handleContinuar`) are not modelled, and neither is the scroll timer.
- Toast texts, vibration, shake and error-flag timers, drag position, colours and all rendering are presentation.
- The clock in `getNextDateForWeekday` is a parameter (today's weekday), and `formatDateTimeLocal` of the resulting date is a parameter. The Blob, DOM and `window.open` steps of the export are left out.
- CalendarExport.Evento: a slot is typed `{dia, inicio, fim}`, so the fallbacks of buildICS to `start`, `hour`, `end` and an end of start+1 (Calendar.jsx:327-328) are not modelled. Every other read of a slot in Calendar.jsx uses `inicio` and `fim`.
- CalendarExport.ParseHour: fractional hours (minute rounding) are not modelled, because slot hours are integers here.
- `localeCompare` is modelled as lexicographic order of character codes. Locale-sensitive collation is not captured.
- JavaScript objects with integer-like keys enumerate those keys first. The ordered map keeps insertion order for every key.
- Materias.Letra: states the letter only below 0xD800, because `String.fromCharCode` past the surrogate range is not modelled (a section list never comes near).
- SetupWizard.SemestresOptions: requires a non-negative semester count, because `Array(n)` throws for a negative `n` and that exception is not modelled.
- SetupWizard.Assistente: the wizard carries the Stepper's step in its own field instead of holding a `Stepper.Stepper` object. The step rules are the same effect functions.
- SetupWizard.Assistente.SelecionarCurso, SelecionarMatriz, SelecionarSemestre: they require an offered option, as the dropdowns only offer those. The dropdown component is not modelled.
- Historico.HistoricoView.HandleToggle: the toast text with subject names is not modelled. The missing list it is built from is returned.
- `toLowerCase` covers ASCII and the Latin-1 upper-case range only.
- Text.NumberOfString: JavaScript's `Number()` also reads decimals ("1.5"), exponents, hexadecimal ("0x10") and "Infinity". The model reads an optional sign and decimal digits only, and reads anything else as NaN, because every number in this model is an integer. The five members below inherit the gap.
- CsvCursos.SemestreContado: a semester written with a fraction ("1.5") is not counted, where `Number` in csvLoader.js:143-144 counts it.
- CsvMaterias.SemestreDaLinha: a semester text with a fraction ("1.5") stays text, where csvLoader.js:203 stores the number 1.5.
- CsvMaterias.CreditosDaLinha: credits with a fraction ("4.5") read as 0, where csvLoader.js:207 keeps 4.5.
- Calendar.NormalizeDia: a day written as "2.0" is not read as 2 and stays unchanged.
- CsvMaterias.DiaNormalizado: a day written with a fraction ("2.5", "2.0") stays unchanged, where csvLoader.js:231 turns it into 1.5 or 1.

## Findings

| source | as written | input that shows it | evidently intended | confidence | as-written member | corrected member |
|---|---|---|---|---|---|---|
| src/components/Calendar/Calendar.jsx:356 | `.replace(/,/g, '\,')`: in a JavaScript string `'\,'` is just `','`, so commas are never escaped | the name "a,b" gives the SUMMARY value "a,b"; an iCalendar reader takes it as two values | escape each comma as `\,`, as section 3.3.11 of RFC 5545 requires for TEXT values | high, not executed | CalendarExport.EscapeVirgulaAsWritten | CalendarExport.EscapeICSTextRoundTrip |

The exported document (`CalendarExport.BuildICS`) follows the program as written. The corrected escape is `CalendarExport.EscapeICSText`, stated beside the escape as written so the two can be compared.

=== FILE: app.dfy ===
/** The application shell: which stage is shown, the setup choices, the list of
    approved subject codes and the calendar map from subject code to placed subject.
    Unchecking an approved subject also unchecks, by a fixed-point iteration, every
    approved subject that depends on it through prerequisites. */
module App {
  import opened Base
  import opened Text
  import opened OrderedMap
  import opened Catalog
  import opened DataIndex

  datatype Etapa = Inicio | Setup | Historico | Montagem

  // ---------------------------------------------------------------- the cascade

  /** An approved subject, not yet to be removed, with a prerequisite that is. */
  predicate Dependente(m: Materia, aprovadas: seq<string>, r: set<string>)
  {
    m.codigo in aprovadas && m.codigo !in r && exists pr :: pr in m.preRequisitos && pr in r
  }

  /** `todas.filter(m => ...)`: the dependants of `r`, in order. */
  function Dependentes(todas: seq<Materia>, aprovadas: seq<string>, r: set<string>): (d: seq<Materia>)
    ensures forall m :: m in d <==> m in todas && Dependente(m, aprovadas, r)
  {
    if |todas| == 0 then []
    else
      var rest := Dependentes(todas[1..], aprovadas, r);
      assert todas == [todas[0]] + todas[1..];
      if Dependente(todas[0], aprovadas, r) then [todas[0]] + rest else rest
  }

  /** One pass of the loop: `r` with the codes of its dependants added. */
  function Passo(todas: seq<Materia>, aprovadas: seq<string>, r: set<string>): (p: set<string>)
    ensures r <= p
  {
    r + set m | m in todas && Dependente(m, aprovadas, r) :: m.codigo
  }

  /** What the removal set can ever hold: the unchecked code and approved codes. */
  function Universo(todas: seq<Materia>, aprovadas: seq<string>, codigo: string): set<string>
  {
    {codigo} + set m | m in todas && m.codigo in aprovadas :: m.codigo
  }

  lemma PassoNoUniverso(todas: seq<Materia>, aprovadas: seq<string>, codigo: string, r: set<string>)
    requires r <= Universo(todas, aprovadas, codigo)
    ensures Passo(todas, aprovadas, r) <= Universo(todas, aprovadas, codigo)
  {
  }

  /** The removal set the loop ends with, starting from `r`. */
  function Cascata(todas: seq<Materia>, aprovadas: seq<string>, codigo: string, r: set<string>): set<string>
    requires r <= Universo(todas, aprovadas, codigo)
    decreases |Universo(todas, aprovadas, codigo)| - |r|
  {
    var p := Passo(todas, aprovadas, r);
    PassoNoUniverso(todas, aprovadas, codigo, r);
    SubsetCard(r, p);
    SubsetCard(p, Universo(todas, aprovadas, codigo));
    if |p| == |r| then r else Cascata(todas, aprovadas, codigo, p)
  }

  /** No approved subject with a prerequisite in `s` is left outside `s`. */
  ghost predicate Fechado(todas: seq<Materia>, aprovadas: seq<string>, s: set<string>)
  {
    forall m :: m in todas && m.codigo in aprovadas && (exists pr :: pr in m.preRequisitos && pr in s)
                ==> m.codigo in s
  }

  /** The removal set contains its start, only ever holds the unchecked code and
      approved codes, and is closed under "depends on". */
  lemma {:induction false} CascataSpec(todas: seq<Materia>, aprovadas: seq<string>, codigo: string, r: set<string>)
    requires r <= Universo(todas, aprovadas, codigo)
    ensures var f := Cascata(todas, aprovadas, codigo, r);
      r <= f && f <= Universo(todas, aprovadas, codigo)
      && Passo(todas, aprovadas, f) == f && Fechado(todas, aprovadas, f)
    decreases |Universo(todas, aprovadas, codigo)| - |r|
  {
    var p := Passo(todas, aprovadas, r);
    PassoNoUniverso(todas, aprovadas, codigo, r);
    SubsetCard(r, p);
    SubsetCard(p, Universo(todas, aprovadas, codigo));
    if |p| == |r| {
      assert p == r;
      forall m | m in todas && m.codigo in aprovadas && (exists pr :: pr in m.preRequisitos && pr in r)
        ensures m.codigo in r
      {
        assert m.codigo in r || Dependente(m, aprovadas, r);
        assert m.codigo in p;
      }
    } else {
      CascataSpec(todas, aprovadas, codigo, p);
    }
  }

  /** The removal set is the least closed set containing the start: anything that
      must go with the unchecked code is removed, and nothing else. */
  lemma {:induction false} CascataMinima(todas: seq<Materia>, aprovadas: seq<string>, codigo: string,
                                         r: set<string>, s: set<string>)
    requires r <= Universo(todas, aprovadas, codigo)
    requires r <= s && Fechado(todas, aprovadas, s)
    ensures Cascata(todas, aprovadas, codigo, r) <= s
    decreases |Universo(todas, aprovadas, codigo)| - |r|
  {
    var p := Passo(todas, aprovadas, r);
    PassoNoUniverso(todas, aprovadas, codigo, r);
    SubsetCard(r, p);
    SubsetCard(p, Universo(todas, aprovadas, codigo));
    if |p| != |r| {
      assert p <= s by {
        forall x | x in p ensures x in s {
          if x !in r {
            var m :| m in todas && Dependente(m, aprovadas, r) && m.codigo == x;
            var pr :| pr in m.preRequisitos && pr in r;
            assert pr in s;
          }
        }
      }
      CascataMinima(todas, aprovadas, codigo, p, s);
    }
  }

  /** An approved subject that lists an approved prerequisite of it is removed with it. */
  lemma DependenteDiretoRemovido(todas: seq<Materia>, aprovadas: seq<string>, codigo: string, m: Materia)
    requires codigo in aprovadas
    requires m in todas && m.codigo in aprovadas && codigo in m.preRequisitos
    ensures m.codigo in Cascata(todas, aprovadas, codigo, {codigo})
  {
    CascataSpec(todas, aprovadas, codigo, {codigo});
  }

  /** One pass of the loop: filter the dependants, then add each one's code. */
  method PassoDaCascata(todas: seq<Materia>, aprovadas: seq<string>, r: set<string>) returns (p: set<string>)
    ensures p == Passo(todas, aprovadas, r)
  {
    var dependentes := Dependentes(todas, aprovadas, r);
    p := r;
    for i := 0 to |dependentes|
      invariant p == r + set m | m in dependentes[..i] :: m.codigo
    {
      assert dependentes[..i + 1] == dependentes[..i] + [dependentes[i]];
      p := p + {dependentes[i].codigo};
    }
    assert dependentes[..|dependentes|] == dependentes;
  }

  /** The loop of handleToggleMateriaAprovada: grow the removal set until a pass
      leaves its size unchanged. */
  method Cascatear(todas: seq<Materia>, aprovadas: seq<string>, codigo: string) returns (remover: set<string>)
    ensures remover == Cascata(todas, aprovadas, codigo, {codigo})
  {
    ghost var u := Universo(todas, aprovadas, codigo);
    remover := {codigo};
    var tamanhoAnterior := 0;
    while |remover| != tamanhoAnterior
      invariant remover <= u && tamanhoAnterior <= |remover|
      invariant Cascata(todas, aprovadas, codigo, remover) == Cascata(todas, aprovadas, codigo, {codigo})
      invariant tamanhoAnterior == |remover| ==> Passo(todas, aprovadas, remover) == remover
      decreases |u| - tamanhoAnterior
    {
      SubsetCard(remover, u);
      tamanhoAnterior := |remover|;
      ghost var antes := remover;
      remover := PassoDaCascata(todas, aprovadas, remover);
      PassoNoUniverso(todas, aprovadas, codigo, antes);
      SubsetCard(antes, remover);
    }
  }

  /** `aprovadas.filter(c => !remover.has(c))` after the cascade, or the code appended. */
  function Alternada(todas: seq<Materia>, aprovadas: seq<string>, codigo: string): seq<string>
  {
    if codigo in aprovadas then KeepOutside(aprovadas, Cascata(todas, aprovadas, codigo, {codigo}))
    else aprovadas + [codigo]
  }

  /** Checking appends; unchecking drops the code and exactly the approved subjects
      that must go with it, keeping the others in order. */
  lemma AlternadaSpec(todas: seq<Materia>, aprovadas: seq<string>, codigo: string)
    ensures codigo !in aprovadas ==> Alternada(todas, aprovadas, codigo) == aprovadas + [codigo]
    ensures codigo in aprovadas ==>
      var r := Alternada(todas, aprovadas, codigo);
      var f := Cascata(todas, aprovadas, codigo, {codigo});
      codigo !in r && IsSubseq(r, aprovadas)
      && (forall c :: c in r <==> c in aprovadas && c !in f)
      && Fechado(todas, aprovadas, f)
      && (forall s :: codigo in s && Fechado(todas, aprovadas, s) ==> f <= s)
  {
    if codigo in aprovadas {
      CascataSpec(todas, aprovadas, codigo, {codigo});
      forall s | codigo in s && Fechado(todas, aprovadas, s)
        ensures Cascata(todas, aprovadas, codigo, {codigo}) <= s
      {
        CascataMinima(todas, aprovadas, codigo, {codigo}, s);
      }
    }
  }

  // ---------------------------------------------------------------- setup completion

  /** The codes of a list of subjects, in order. */
  function Codigos(ms: seq<Materia>): (cs: seq<string>)
    ensures |cs| == |ms| && forall i :: 0 <= i < |ms| ==> cs[i] == ms[i].codigo
  {
    seq(|ms|, i requires 0 <= i < |ms| => ms[i].codigo)
  }

  /** The codes of semesters 1, ..., semestre - 1, in semester order. */
  function Anteriores(porSemestre: OMap<seq<Materia>>, semestre: int): seq<string>
    decreases semestre
  {
    if semestre <= 1 then []
    else Anteriores(porSemestre, semestre - 1) + Codigos(GetOr(porSemestre, IntToString(semestre - 1), []))
  }

  lemma {:induction false} AnterioresSpec(porSemestre: OMap<seq<Materia>>, semestre: int, c: string)
    ensures c in Anteriores(porSemestre, semestre) <==>
            exists i :: 1 <= i < semestre && c in Codigos(GetOr(porSemestre, IntToString(i), []))
    decreases semestre
  {
    if semestre > 1 {
      AnterioresSpec(porSemestre, semestre - 1, c);
      var ultimo := Codigos(GetOr(porSemestre, IntToString(semestre - 1), []));
      if c in ultimo {
        assert 1 <= semestre - 1 < semestre && c in Codigos(GetOr(porSemestre, IntToString(semestre - 1), []));
      }
    }
  }

  /** Setup approves from the course's first matrix (else "default"), whatever matrix
      was chosen, since the lookup is made without one: a code is approved iff it is the
      code of a subject of that matrix in a semester before the chosen one. */
  lemma AnterioresDaPrimeiraMatriz(dados: Option<OMap<CursoDados>>, c: string, s: int, x: string)
    requires dados.Some? && c != "" && c in Keys(dados.value)
    ensures x in Anteriores(MapaPorSemestre(dados, c, ""), s) <==>
            exists i :: 1 <= i < s
              && x in Codigos(SemList(dados.value, c, PrimeiraMatriz(CursoOf(dados.value, c)), IntToString(i)))
  {
    AnterioresSpec(MapaPorSemestre(dados, c, ""), s, x);
  }

  /** `materias.forEach(m => acc.push(m.codigo))` */
  method EmpilharCodigos(acc: seq<string>, ms: seq<Materia>) returns (r: seq<string>)
    ensures r == acc + Codigos(ms)
  {
    r := acc;
    for j := 0 to |ms|
      invariant r == acc + Codigos(ms[..j])
    {
      assert Codigos(ms[..j + 1]) == Codigos(ms[..j]) + [ms[j].codigo];
      r := r + [ms[j].codigo];
    }
    assert ms[..|ms|] == ms;
  }

  /** The subjects of every course matrix of the data, flattened, then its electives:
      what handleToggleMateriaAprovada scans. No course selected means none. */
  function TodasMaterias(dados: Option<OMap<CursoDados>>, curso: string): seq<Materia>
  {
    if curso == "" then []
    else Concat(Values(MapaPorSemestre(dados, curso, ""))) + Eletivas(dados, curso, "")
  }

  class AppState {
    /** The grouped CSV data, None until loaded. */
    const dados: Option<OMap<CursoDados>>
    var etapa: Etapa
    var curso: string
    var matriz: string
    var semestre: int
    var aprovadas: seq<string>
    var noCalendario: OMap<Placed>

    /** The calendar map never holds a key twice. */
    ghost predicate Valid()
      reads this
    {
      UniqueKeys(noCalendario)
    }

    constructor (dados: Option<OMap<CursoDados>>)
      ensures Valid() && this.dados == dados && etapa == Inicio
      ensures curso == "" && matriz == "" && semestre == 0 && aprovadas == [] && noCalendario == []
    {
      this.dados := dados;
      etapa := Inicio;
      curso, matriz, semestre := "", "", 0;
      aprovadas := [];
      noCalendario := [];
    }

    /** handleSetupComplete: records the choices and approves every subject of the
        earlier semesters. */
    method HandleSetupComplete(c: string, m: string, s: int)
      modifies this
      ensures curso == c && matriz == m && semestre == s && etapa == Historico
      ensures aprovadas == Anteriores(MapaPorSemestre(dados, c, ""), s)
      ensures noCalendario == old(noCalendario)
    {
      var materiasCurso := MapaPorSemestre(dados, c, "");
      var anteriores: seq<string> := [];
      var i := 1;
      while i < s
        invariant s <= 1 ==> i == 1
        invariant s > 1 ==> 1 <= i <= s
        invariant anteriores == Anteriores(materiasCurso, i)
        invariant noCalendario == old(noCalendario)
      {
        var materias := GetOr(materiasCurso, IntToString(i), []);
        anteriores := EmpilharCodigos(anteriores, materias);
        i := i + 1;
      }
      curso, matriz, semestre := c, m, s;
      aprovadas := anteriores;
      etapa := Historico;
    }

    /** handleToggleMateriaAprovada */
    method HandleToggleMateriaAprovada(codigo: string)
      modifies this
      ensures aprovadas == Alternada(TodasMaterias(dados, curso), old(aprovadas), codigo)
      ensures noCalendario == old(noCalendario) && etapa == old(etapa)
      ensures curso == old(curso) && matriz == old(matriz) && semestre == old(semestre)
    {
      if codigo in aprovadas {
        var todas := TodasMaterias(dados, curso);
        var remover := Cascatear(todas, aprovadas, codigo);
        aprovadas := KeepOutside(aprovadas, remover);
      } else {
        aprovadas := aprovadas + [codigo];
      }
    }

    /** handleAddMateria: the subject is stored under its code, everything else kept. */
    method HandleAddMateria(p: Placed)
      requires Valid()
      modifies this
      ensures Valid()
      ensures noCalendario == Put(old(noCalendario), p.materia.codigo, p)
      ensures Get(noCalendario, p.materia.codigo) == Some(p)
      ensures forall k :: k != p.materia.codigo ==> Get(noCalendario, k) == Get(old(noCalendario), k)
      ensures aprovadas == old(aprovadas) && etapa == old(etapa)
      ensures curso == old(curso) && matriz == old(matriz) && semestre == old(semestre)
    {
      noCalendario := Put(noCalendario, p.materia.codigo, p);
    }

    /** handleRemoveMateria: only the given key goes; an absent key changes nothing. */
    method HandleRemoveMateria(codigo: string)
      requires Valid()
      modifies this
      ensures Valid()
      ensures noCalendario == Delete(old(noCalendario), codigo)
      ensures codigo !in Keys(noCalendario)
      ensures forall k :: k != codigo ==> Get(noCalendario, k) == Get(old(noCalendario), k)
      ensures codigo !in Keys(old(noCalendario)) ==> noCalendario == old(noCalendario)
      ensures aprovadas == old(aprovadas) && etapa == old(etapa)
      ensures curso == old(curso) && matriz == old(matriz) && semestre == old(semestre)
    {
      noCalendario := Delete(noCalendario, codigo);
    }
  }
}

=== FILE: base.dfy ===
/** Option and small sequence helpers shared by every module of the model. */
module Base {

  datatype Option<+T> = None | Some(value: T)

  /** `a` is `b` with some elements removed, the rest kept in their order. */
  predicate IsSubseq<T(==)>(a: seq<T>, b: seq<T>)
    decreases |b|
  {
    if |a| == 0 then true
    else if |b| == 0 then false
    else if a[0] == b[0] then IsSubseq(a[1..], b[1..])
    else IsSubseq(a, b[1..])
  }

  lemma {:induction false} SubseqMembers<T>(a: seq<T>, b: seq<T>)
    requires IsSubseq(a, b)
    ensures forall x :: x in a ==> x in b
    decreases |b|
  {
    if |a| == 0 {
    } else if a[0] == b[0] {
      SubseqMembers(a[1..], b[1..]);
      forall x | x in a ensures x in b {
        if x != a[0] { assert x in a[1..]; }
      }
    } else {
      SubseqMembers(a, b[1..]);
    }
  }

  lemma {:induction false} SubseqRefl<T>(a: seq<T>)
    ensures IsSubseq(a, a)
  {
    if |a| > 0 { SubseqRefl(a[1..]); }
  }

  /** Skipping the first element of `b` keeps a subsequence a subsequence. */
  lemma {:induction false} SubseqSkip<T>(a: seq<T>, b: seq<T>)
    requires |b| > 0 && IsSubseq(a, b[1..])
    ensures IsSubseq(a, b)
    decreases |b|, 0
  {
    if |a| > 0 && a[0] == b[0] { SubseqDropFirst(a, b[1..]); }
  }

  /** Dropping the first element of a subsequence keeps it a subsequence. */
  lemma {:induction false} SubseqDropFirst<T>(a: seq<T>, b: seq<T>)
    requires |a| > 0 && IsSubseq(a, b)
    ensures IsSubseq(a[1..], b)
    decreases |b|, 1
  {
    if a[0] == b[0] {
      SubseqSkip(a[1..], b);
    } else {
      SubseqDropFirst(a, b[1..]);
      SubseqSkip(a[1..], b);
    }
  }

  /** The elements of `xs` that are not in `drop`, in their order (`xs.filter(x => !drop.includes(x))`). */
  function Without<T(==,!new)>(xs: seq<T>, drop: seq<T>): (r: seq<T>)
    ensures forall x :: x in r <==> x in xs && x !in drop
    ensures IsSubseq(r, xs)
    ensures |r| <= |xs|
  {
    if |xs| == 0 then []
    else
      var rest := Without(xs[1..], drop);
      if xs[0] in drop then rest else [xs[0]] + rest
  }

  /** The elements of `xs` that are in neither `a` nor `b`. */
  function WithoutEither<T(==,!new)>(xs: seq<T>, a: seq<T>, b: seq<T>): (r: seq<T>)
    ensures forall x :: x in r <==> x in xs && x !in a && x !in b
    ensures IsSubseq(r, xs)
  {
    if |xs| == 0 then []
    else
      var rest := WithoutEither(xs[1..], a, b);
      if xs[0] in a || xs[0] in b then rest else [xs[0]] + rest
  }

  /** Without keeps every occurrence of the elements it keeps: `filter` drops
      nothing else. */
  lemma {:induction false} WithoutConta<T(!new)>(xs: seq<T>, drop: seq<T>)
    ensures forall x :: multiset(Without(xs, drop))[x] == if x in drop then 0 else multiset(xs)[x]
  {
    if |xs| > 0 {
      WithoutConta(xs[1..], drop);
      assert xs == [xs[0]] + xs[1..];
    }
  }

  /** WithoutEither keeps every occurrence of the elements it keeps. */
  lemma {:induction false} WithoutEitherConta<T(!new)>(xs: seq<T>, a: seq<T>, b: seq<T>)
    ensures forall x :: multiset(WithoutEither(xs, a, b))[x] == if x in a || x in b then 0 else multiset(xs)[x]
  {
    if |xs| > 0 {
      WithoutEitherConta(xs[1..], a, b);
      assert xs == [xs[0]] + xs[1..];
    }
  }

  /** Keeps the elements of `xs` that are not in the set `drop`. */
  function KeepOutside<T(==,!new)>(xs: seq<T>, drop: set<T>): (r: seq<T>)
    ensures forall x :: x in r <==> x in xs && x !in drop
    ensures IsSubseq(r, xs)
  {
    if |xs| == 0 then []
    else
      var rest := KeepOutside(xs[1..], drop);
      if xs[0] in drop then rest else [xs[0]] + rest
  }

  lemma AppendAssoc<T>(a: seq<T>, b: seq<T>, c: seq<T>)
    ensures a + b + c == a + (b + c)
  {
  }

  function Concat<T(!new)>(xss: seq<seq<T>>): (r: seq<T>)
    ensures forall i, x :: 0 <= i < |xss| && x in xss[i] ==> x in r
    ensures forall x :: x in r ==> exists i :: 0 <= i < |xss| && x in xss[i]
  {
    if |xss| == 0 then [] else xss[0] + Concat(xss[1..])
  }

  /** `Set.add`: appends `x` unless it is already there. */
  function Acrescenta<T(==)>(xs: seq<T>, x: T): (r: seq<T>)
  {
    if x in xs then xs else xs + [x]
  }

  /** `[...new Set(xs)]`: the distinct elements of `xs`, each where it first occurs. */
  function Dedup<T(==,!new)>(xs: seq<T>): (r: seq<T>)
    ensures forall x :: x in r <==> x in xs
    ensures forall i, j :: 0 <= i < j < |r| ==> r[i] != r[j]
    ensures |r| <= |xs|
  {
    if |xs| == 0 then []
    else
      var d := Dedup(xs[..|xs| - 1]);
      assert xs == xs[..|xs| - 1] + [xs[|xs| - 1]];
      Acrescenta(d, xs[|xs| - 1])
  }

  /** No two positions of `xs` hold the same element. */
  predicate Distintos<T(==)>(xs: seq<T>)
  {
    forall i, j :: 0 <= i < j < |xs| ==> xs[i] != xs[j]
  }

  /** An element occurs at most once in a sequence without repeats. */
  lemma {:induction false} DistintosConta<T>(xs: seq<T>, x: T)
    requires Distintos(xs)
    ensures multiset(xs)[x] <= 1
  {
    if |xs| > 0 {
      DistintosConta(xs[1..], x);
      assert xs == [xs[0]] + xs[1..];
      if xs[0] == x { assert x !in xs[1..]; }
    }
  }

  /** A permutation of a sequence without repeats has no repeats. */
  lemma DistintosPermutacao<T>(s: seq<T>, t: seq<T>)
    requires multiset(s) == multiset(t) && Distintos(t)
    ensures Distintos(s)
  {
    forall i, j | 0 <= i < j < |s| ensures s[i] != s[j] {
      DistintosConta(t, s[i]);
      assert s == s[..j] + s[j..];
      assert s[i] in s[..j] && s[j] in s[j..];
      assert multiset(s)[s[j]] == multiset(s[..j])[s[j]] + multiset(s[j..])[s[j]];
    }
  }

  /** The index of the first occurrence of `x` in `xs`. */
  function FirstIndex<T(==)>(xs: seq<T>, x: T): (i: nat)
    requires x in xs
    ensures i < |xs| && xs[i] == x && forall k :: 0 <= k < i ==> xs[k] != x
  {
    if xs[0] == x then 0 else 1 + FirstIndex(xs[1..], x)
  }

  /** Appending an element does not move the first occurrence of an element already there. */
  lemma FirstIndexAppend<T>(xs: seq<T>, y: T, x: T)
    requires x in xs
    ensures FirstIndex(xs + [y], x) == FirstIndex(xs, x)
  {
    var a := FirstIndex(xs + [y], x);
    var b := FirstIndex(xs, x);
    assert (xs + [y])[b] == x;
  }

  /** Dedup keeps the elements in the order of their first occurrences in `xs`. */
  lemma {:induction false} DedupOrdem<T(!new)>(xs: seq<T>)
    ensures forall i, j :: 0 <= i < j < |Dedup(xs)| ==> FirstIndex(xs, Dedup(xs)[i]) < FirstIndex(xs, Dedup(xs)[j])
  {
    if |xs| > 0 {
      var p := xs[..|xs| - 1];
      var y := xs[|xs| - 1];
      assert xs == p + [y];
      var d := Dedup(p);
      DedupOrdem(p);
      forall x | x in d ensures FirstIndex(xs, x) == FirstIndex(p, x) {
        FirstIndexAppend(p, y, x);
      }
      if y !in d {
        assert Dedup(xs) == d + [y];
        assert FirstIndex(xs, y) == |p|;
        forall i, j | 0 <= i < j < |Dedup(xs)|
          ensures FirstIndex(xs, Dedup(xs)[i]) < FirstIndex(xs, Dedup(xs)[j])
        {
          assert Dedup(xs)[i] == d[i];
          if j < |d| { assert Dedup(xs)[j] == d[j]; }
        }
      }
    }
  }

  /** `xs.map(f)` where `f` may throw (None): every result, or None when one throws. */
  function MapOpt<T, U>(xs: seq<T>, f: T -> Option<U>): (r: Option<seq<U>>)
    ensures r.Some? ==> |r.value| == |xs| && forall i :: 0 <= i < |xs| ==> f(xs[i]) == Some(r.value[i])
    ensures r.None? ==> exists i :: 0 <= i < |xs| && f(xs[i]).None?
  {
    if |xs| == 0 then Some([])
    else
      match f(xs[0])
      case None => None
      case Some(y) =>
        var resto := MapOpt(xs[1..], f);
        assert forall i :: 1 <= i < |xs| ==> xs[1..][i - 1] == xs[i];
        match resto
        case None =>
          assert exists i :: 0 <= i < |xs| && f(xs[i]).None? by {
            var i :| 0 <= i < |xs[1..]| && f(xs[1..][i]).None?;
            assert xs[1..][i] == xs[i + 1];
          }
          None
        case Some(ys) => Some([y] + ys)
  }

  /** A subset is no larger than its superset, and equally large only when equal. */
  lemma SubsetCard<T>(a: set<T>, b: set<T>)
    requires a <= b
    ensures |a| <= |b|
    ensures |a| == |b| ==> a == b
  {
    var d := b - a;
    assert b == a + d;
    assert a * d == {};
    if |a| == |b| {
      assert |d| == 0;
    }
  }

  /** The leftmost position in [i, n) where `p` holds. */
  function PrimeiraPosicao(i: nat, n: nat, p: nat -> bool): (r: Option<nat>)
    ensures r.Some? ==> i <= r.value < n && p(r.value)
    decreases n - i
  {
    if i >= n then None else if p(i) then Some(i) else PrimeiraPosicao(i + 1, n, p)
  }

  lemma {:induction false} PrimeiraPosicaoNenhuma(i: nat, n: nat, p: nat -> bool)
    ensures PrimeiraPosicao(i, n, p).None? <==> forall j :: i <= j < n ==> !p(j)
    decreases n - i
  {
    if i < n {
      PrimeiraPosicaoNenhuma(i + 1, n, p);
    }
  }

  lemma {:induction false} PrimeiraPosicaoEm(i: nat, j: nat, n: nat, p: nat -> bool)
    requires i <= j < n && p(j) && forall t :: i <= t < j ==> !p(t)
    ensures PrimeiraPosicao(i, n, p) == Some(j)
    decreases j - i
  {
    if i < j {
      PrimeiraPosicaoEm(i + 1, j, n, p);
    }
  }

  lemma {:induction false} PrimeiraPosicaoMinima(i: nat, n: nat, p: nat -> bool)
    ensures PrimeiraPosicao(i, n, p).Some? ==> forall t :: i <= t < PrimeiraPosicao(i, n, p).value ==> !p(t)
    decreases n - i
  {
    if i < n && !p(i) {
      PrimeiraPosicaoMinima(i + 1, n, p);
    }
  }
}

=== FILE: calendar.dfy ===
/** The weekly calendar: weekday normalisation, hour-by-hour conflict detection
    against the subjects already placed, cell occupancy, the section under a cell while
    a subject is dragged, the drag-and-drop gating, the list of subjects available to
    place, and the credit total. The calendar map (materiasNoCalendario) is an ordered
    map from subject code to placed subject; its rows are the hours 6 + index. */
module Calendar {
  import opened Base
  import opened Text
  import opened OrderedMap
  import opened Catalog
  import DataIndex

  const DIAS_SEMANA: seq<string> := ["Dom", "Seg", "Ter", "Qua", "Qui", "Sex", "S\U{00E1}b"]

  /** The hour of the first calendar row. */
  const BASE_HOUR := 6

  // ---------------------------------------------------------------- weekdays

  /** `String(s).toLowerCase().slice(0, 3)` */
  function Prefixo3(s: string): string
  {
    var l := ToLower(s);
    if |l| <= 3 then l else l[..3]
  }

  /** The first three lower-case letters of each day name, which findIndex compares
      against (see PrefixosDosDias). */
  const PREFIXOS_DIAS: seq<string> := ["dom", "seg", "ter", "qua", "qui", "sex", "s\U{00E1}b"]

  /** `DIAS_SEMANA.findIndex(x => x.toLowerCase().slice(0, 3) === p)`, searching from `k`. */
  function IndiceDia(p: string, k: nat): (r: int)
    requires k <= 7
    ensures r == -1 || k <= r < 7
    decreases 7 - k
  {
    if k == 7 then -1 else if PREFIXOS_DIAS[k] == p then k else IndiceDia(p, k + 1)
  }

  /** findIndex returns the first matching day from `k`, or -1 when none matches. */
  lemma {:induction false} IndiceDiaSpec(p: string, k: nat)
    requires k <= 7
    ensures IndiceDia(p, k) == -1 <==> forall j :: k <= j < 7 ==> PREFIXOS_DIAS[j] != p
    ensures IndiceDia(p, k) != -1 ==>
              k <= IndiceDia(p, k) < 7 && PREFIXOS_DIAS[IndiceDia(p, k)] == p
              && forall j :: k <= j < IndiceDia(p, k) ==> PREFIXOS_DIAS[j] != p
    decreases 7 - k
  {
    if k < 7 {
      IndiceDiaSpec(p, k + 1);
    }
  }

  /** The numeric branch of normalizeDia: 0..6 kept, 7 (Saturday when Sunday is 1)
      becomes 6 through ((n + 6) % 7 + 7) % 7, any other number is kept. */
  function NumeroDoDia(n: int): int
  {
    if 0 <= n <= 6 then n else if 1 <= n <= 7 then ((n + 6) % 7 + 7) % 7 else n
  }

  /** normalizeDia: null stays null; a number, or a string Number() reads as one, goes
      through the numeric branch; any other string becomes the index of the day name
      sharing its first three lower-case letters, or is returned unchanged. */
  function NormalizeDia(d: Dia): Dia
  {
    match d
    case DiaNull => d
    case DiaNum(n) => DiaNum(NumeroDoDia(n))
    case DiaStr(s) =>
      match NumberOfString(s)
      case Some(n) => DiaNum(NumeroDoDia(n))
      case None =>
        var idx := IndiceDia(Prefixo3(s), 0);
        if idx != -1 then DiaNum(idx) else d
  }

  /** normalizeDia on a string: one Number() reads goes through the numeric branch,
      keeping its value except 7, which becomes 6; otherwise the result is the index of
      a day name sharing its first three lower-case letters, or, when there is none,
      the string unchanged. */
  lemma NormalizeDiaTexto(s: string)
    ensures NumberOfString(s).Some? ==>
              NormalizeDia(DiaStr(s)) == DiaNum(if NumberOfString(s).value == 7 then 6 else NumberOfString(s).value)
    ensures NumberOfString(s).None? ==>
              (NormalizeDia(DiaStr(s)).DiaNum? && 0 <= NormalizeDia(DiaStr(s)).n < 7
               && Prefixo3(DIAS_SEMANA[NormalizeDia(DiaStr(s)).n]) == Prefixo3(s))
              || (NormalizeDia(DiaStr(s)) == DiaStr(s) && forall j :: 0 <= j < 7 ==> Prefixo3(DIAS_SEMANA[j]) != Prefixo3(s))
  {
    if NumberOfString(s).None? {
      IndiceDiaSpec(Prefixo3(s), 0);
      PrefixosDosDias();
      var idx := IndiceDia(Prefixo3(s), 0);
      assert NormalizeDia(DiaStr(s)) == if idx != -1 then DiaNum(idx) else DiaStr(s);
    }
  }

  lemma NormalizeDiaIdempotente(d: Dia)
    ensures NormalizeDia(NormalizeDia(d)) == NormalizeDia(d)
  {
  }

  /** Normalised days are the numbers 0..6: they, and only they among numbers, are fixed. */
  lemma NormalizeDiaNumeros(n: int)
    ensures 0 <= n <= 6 ==> NormalizeDia(DiaNum(n)) == DiaNum(n)
    ensures NormalizeDia(DiaNum(7)) == DiaNum(6)
    ensures !(0 <= n <= 7) ==> NormalizeDia(DiaNum(n)) == DiaNum(n)
  {
  }

  lemma PrefixosDosDias()
    ensures forall k :: 0 <= k < 7 ==> Prefixo3(DIAS_SEMANA[k]) == PREFIXOS_DIAS[k]
  {
    assert Prefixo3(DIAS_SEMANA[6]) == "s\U{00E1}b";
  }

  /** No day name reads as a number. */
  lemma NomeNaoNumerico(s: string)
    requires |s| == 3 && s[0] != '-' && s[0] != '+' && !IsDigit(s[0]) && !IsSpace(s[0]) && !IsSpace(s[2])
    ensures NumberOfString(s).None?
  {
    TrimNoSpace(s);
    DigitosSpec(s);
  }

  /** A string Number() rejects normalises by its three-letter prefix alone. */
  lemma NormalizeDiaNome(s: string)
    requires NumberOfString(s).None?
    ensures IndiceDia(Prefixo3(s), 0) != -1 ==> NormalizeDia(DiaStr(s)) == DiaNum(IndiceDia(Prefixo3(s), 0))
    ensures IndiceDia(Prefixo3(s), 0) == -1 ==> NormalizeDia(DiaStr(s)) == DiaStr(s)
  {
  }

  /** Each day name normalises to its own index. */
  lemma {:induction false} NormalizeDiaNomes(k: int)
    requires 0 <= k < 7
    ensures NormalizeDia(DiaStr(DIAS_SEMANA[k])) == DiaNum(k)
  {
    var nome := DIAS_SEMANA[k];
    NomeNaoNumerico(nome);
    PrefixosDosDias();
    assert IndiceDia(Prefixo3(nome), 0) == k;
  }

  lemma SabadoNaoNumerico()
    ensures NumberOfString("S\U{00C1}BADO").None?
  {
    TrimNoSpace("S\U{00C1}BADO");
    DigitosSpec("S\U{00C1}BADO");
  }

  lemma PrefixoSabado()
    ensures IndiceDia(Prefixo3("S\U{00C1}BADO"), 0) == 6
  {
    assert Prefixo3("S\U{00C1}BADO") == "s\U{00E1}b";
    assert IndiceDia("s\U{00E1}b", 0) == 6 by { PrefixosDosDias(); }
  }

  lemma PrefixoSab()
    ensures IndiceDia(Prefixo3("SAB"), 0) == -1
  {
    assert Prefixo3("SAB") == "sab";
    assert IndiceDia("sab", 0) == -1 by { PrefixosDosDias(); }
  }

  /** Only the first three letters matter and case is ignored: "SÁBADO" is Saturday. */
  lemma SabadoPorExtenso()
    ensures NormalizeDia(DiaStr("S\U{00C1}BADO")) == DiaNum(6)
  {
    SabadoNaoNumerico();
    PrefixoSabado();
    NormalizeDiaNome("S\U{00C1}BADO");
  }

  /** "SAB" without the accent is not a day name and is returned unchanged. */
  lemma SabSemAcento()
    ensures NormalizeDia(DiaStr("SAB")) == DiaStr("SAB")
  {
    NomeNaoNumerico("SAB");
    PrefixoSab();
    NormalizeDiaNome("SAB");
  }

  // ---------------------------------------------------------------- occupancy

  /** Slot `h` occupies hour `hora` of the normalised day `dia`. */
  predicate Ocupa(h: Horario, dia: Dia, hora: int)
  {
    NormalizeDia(h.dia) == dia && h.inicio <= hora < h.fim
  }

  /** Some slot of `hs` occupies hour `hora` of `dia`. */
  predicate AlgumOcupa(hs: seq<Horario>, dia: Dia, hora: int)
  {
    exists j :: 0 <= j < |hs| && Ocupa(hs[j], dia, hora)
  }

  /** Two slots share an hour: the same normalised day and overlapping, non-empty
      [inicio, fim) ranges. */
  predicate Cruzam(a: Horario, b: Horario)
  {
    NormalizeDia(a.dia) == NormalizeDia(b.dia)
    && a.inicio < a.fim && b.inicio < b.fim && a.inicio < b.fim && b.inicio < a.fim
  }

  /** A candidate slot clashes with a placed subject. */
  predicate Sobrepoe(c: Horario, p: Placed)
  {
    exists j :: 0 <= j < |p.horarios| && Cruzam(c, p.horarios[j])
  }

  /** Checking the hours of `a` one by one finds `b` exactly when the ranges overlap. */
  lemma CruzamSeHoraComum(a: Horario, b: Horario)
    ensures Cruzam(a, b) <==> exists h :: a.inicio <= h < a.fim && Ocupa(b, NormalizeDia(a.dia), h)
  {
    if Cruzam(a, b) {
      var h := if a.inicio < b.inicio then b.inicio else a.inicio;
      assert Ocupa(b, NormalizeDia(a.dia), h);
    }
  }

  /** The first placed subject, in calendar order, with a slot on hour `hora` of `dia`. */
  function PrimeiroOcupante(cal: OMap<Placed>, dia: Dia, hora: int): Option<Placed>
  {
    if |cal| == 0 then None
    else if AlgumOcupa(cal[0].value.horarios, dia, hora) then Some(cal[0].value)
    else PrimeiroOcupante(cal[1..], dia, hora)
  }

  lemma {:induction false} PrimeiroOcupanteSpec(cal: OMap<Placed>, dia: Dia, hora: int)
    ensures PrimeiroOcupante(cal, dia, hora).None? <==>
              forall k :: 0 <= k < |cal| ==> !AlgumOcupa(cal[k].value.horarios, dia, hora)
    ensures PrimeiroOcupante(cal, dia, hora).Some? ==>
              exists k :: 0 <= k < |cal| && cal[k].value == PrimeiroOcupante(cal, dia, hora).value
                          && AlgumOcupa(cal[k].value.horarios, dia, hora)
                          && forall j :: 0 <= j < k ==> !AlgumOcupa(cal[j].value.horarios, dia, hora)
  {
    if |cal| > 0 {
      PrimeiroOcupanteSpec(cal[1..], dia, hora);
      assert forall k :: 0 <= k < |cal[1..]| ==> cal[1..][k] == cal[k + 1];
      if !AlgumOcupa(cal[0].value.horarios, dia, hora) && PrimeiroOcupante(cal, dia, hora).Some? {
        var k :| 0 <= k < |cal[1..]| && cal[1..][k].value == PrimeiroOcupante(cal, dia, hora).value
                 && AlgumOcupa(cal[1..][k].value.horarios, dia, hora)
                 && forall j :: 0 <= j < k ==> !AlgumOcupa(cal[1..][j].value.horarios, dia, hora);
        assert cal[k + 1].value == PrimeiroOcupante(cal, dia, hora).value;
      }
    }
  }

  /** The first subject found while scanning the hours of `c` from `hora` on. */
  function ConflitoNasHoras(c: Horario, hora: int, cal: OMap<Placed>): Option<Placed>
    decreases c.fim - hora
  {
    if hora >= c.fim then None
    else match PrimeiroOcupante(cal, NormalizeDia(c.dia), hora)
      case Some(p) => Some(p)
      case None => ConflitoNasHoras(c, hora + 1, cal)
  }

  lemma {:induction false} ConflitoNasHorasSpec(c: Horario, hora: int, cal: OMap<Placed>)
    ensures ConflitoNasHoras(c, hora, cal).None? <==>
              forall h, k :: hora <= h < c.fim && 0 <= k < |cal| ==>
                !AlgumOcupa(cal[k].value.horarios, NormalizeDia(c.dia), h)
    ensures ConflitoNasHoras(c, hora, cal).Some? ==>
              (exists k :: 0 <= k < |cal| && cal[k].value == ConflitoNasHoras(c, hora, cal).value)
              && exists h :: hora <= h < c.fim && AlgumOcupa(ConflitoNasHoras(c, hora, cal).value.horarios, NormalizeDia(c.dia), h)
    decreases c.fim - hora
  {
    if hora < c.fim {
      PrimeiroOcupanteSpec(cal, NormalizeDia(c.dia), hora);
      ConflitoNasHorasSpec(c, hora + 1, cal);
    }
  }

  /** The hours of `c` meet no placed slot exactly when `c` clashes with no placed subject. */
  lemma {:induction false} HorasLivresSeSemSobreposicao(c: Horario, cal: OMap<Placed>)
    ensures ConflitoNasHoras(c, c.inicio, cal).None? <==> forall k :: 0 <= k < |cal| ==> !Sobrepoe(c, cal[k].value)
    ensures ConflitoNasHoras(c, c.inicio, cal).Some? ==>
              (exists k :: 0 <= k < |cal| && cal[k].value == ConflitoNasHoras(c, c.inicio, cal).value)
              && Sobrepoe(c, ConflitoNasHoras(c, c.inicio, cal).value)
  {
    ConflitoNasHorasSpec(c, c.inicio, cal);
    var r := ConflitoNasHoras(c, c.inicio, cal);
    if r.Some? {
      var h :| c.inicio <= h < c.fim && AlgumOcupa(r.value.horarios, NormalizeDia(c.dia), h);
      var j :| 0 <= j < |r.value.horarios| && Ocupa(r.value.horarios[j], NormalizeDia(c.dia), h);
      CruzamSeHoraComum(c, r.value.horarios[j]);
      var k :| 0 <= k < |cal| && cal[k].value == r.value;
      assert Sobrepoe(c, cal[k].value);
    } else {
      forall k | 0 <= k < |cal| ensures !Sobrepoe(c, cal[k].value) {
        forall j | 0 <= j < |cal[k].value.horarios| ensures !Cruzam(c, cal[k].value.horarios[j]) {
          CruzamSeHoraComum(c, cal[k].value.horarios[j]);
          forall h | c.inicio <= h < c.fim ensures !Ocupa(cal[k].value.horarios[j], NormalizeDia(c.dia), h) {
            assert !AlgumOcupa(cal[k].value.horarios, NormalizeDia(c.dia), h);
          }
        }
      }
    }
  }

  /** The subject verificarConflito reports for the candidate slots `hs`: the first found,
      slot by slot, hour by hour, in calendar order. */
  function ConflitoEm(hs: seq<Horario>, cal: OMap<Placed>): Option<Placed>
  {
    if |hs| == 0 then None
    else match ConflitoNasHoras(hs[0], hs[0].inicio, cal)
      case Some(p) => Some(p)
      case None => ConflitoEm(hs[1..], cal)
  }

  /** A conflict is reported exactly when some candidate slot shares an hour with some
      placed slot on the same normalised day, and the subject reported is a placed one
      that clashes; an empty calendar or an empty slot list never conflicts. */
  lemma {:induction false} ConflitoEmSpec(hs: seq<Horario>, cal: OMap<Placed>)
    ensures ConflitoEm(hs, cal).None? <==>
              forall i, k :: 0 <= i < |hs| && 0 <= k < |cal| ==> !Sobrepoe(hs[i], cal[k].value)
    ensures ConflitoEm(hs, cal).Some? ==>
              (exists k :: 0 <= k < |cal| && cal[k].value == ConflitoEm(hs, cal).value)
              && exists i :: 0 <= i < |hs| && Sobrepoe(hs[i], ConflitoEm(hs, cal).value)
  {
    if |hs| > 0 {
      HorasLivresSeSemSobreposicao(hs[0], cal);
      ConflitoEmSpec(hs[1..], cal);
      assert forall i :: 0 < i < |hs| ==> hs[i] == hs[1..][i - 1];
      if ConflitoNasHoras(hs[0], hs[0].inicio, cal).None? && ConflitoEm(hs, cal).Some? {
        var i :| 0 <= i < |hs[1..]| && Sobrepoe(hs[1..][i], ConflitoEm(hs, cal).value);
        assert Sobrepoe(hs[i + 1], ConflitoEm(hs, cal).value);
      }
    }
  }

  /** What verificarConflito returns. */
  datatype Conflito = SemConflito | ComConflito(materiaConflito: string)

  /** verificarConflito(horarios): the name of the subject ConflitoEm finds, if any. */
  method VerificarConflito(horarios: seq<Horario>, cal: OMap<Placed>) returns (r: Conflito)
    ensures r == match ConflitoEm(horarios, cal)
                 case None => SemConflito
                 case Some(p) => ComConflito(p.materia.nome)
  {
    for i := 0 to |horarios|
      invariant ConflitoEm(horarios, cal) == ConflitoEm(horarios[i..], cal)
    {
      var horario := horarios[i];
      var hdHorario := NormalizeDia(horario.dia);
      assert horarios[i..][0] == horario && horarios[i..][1..] == horarios[i + 1..];
      var hora := horario.inicio;
      while hora < horario.fim
        invariant ConflitoNasHoras(horario, horario.inicio, cal) == ConflitoNasHoras(horario, hora, cal)
        decreases horario.fim - hora
      {
        for k := 0 to |cal|
          invariant PrimeiroOcupante(cal, hdHorario, hora) == PrimeiroOcupante(cal[k..], hdHorario, hora)
        {
          var materia := cal[k].value;
          assert cal[k..][0] == cal[k] && cal[k..][1..] == cal[k + 1..];
          for j := 0 to |materia.horarios|
            invariant forall t :: 0 <= t < j ==> !Ocupa(materia.horarios[t], hdHorario, hora)
          {
            var h := materia.horarios[j];
            var hd := NormalizeDia(h.dia);
            if hd == hdHorario && hora >= h.inicio && hora < h.fim {
              assert Ocupa(materia.horarios[j], hdHorario, hora);
              return ComConflito(materia.materia.nome);
            }
          }
        }
        hora := hora + 1;
      }
    }
    return SemConflito;
  }

  /** Monday 8-10 against a placed Monday 9-11 conflicts. */
  lemma ConflitoSobreposto(m: Materia)
    ensures ConflitoEm([Horario(DiaNum(1), 8, 10)], [Entry(m.codigo, Placed(m, "A", [Horario(DiaNum(1), 9, 11)]))]).Some?
  {
    var cal := [Entry(m.codigo, Placed(m, "A", [Horario(DiaNum(1), 9, 11)]))];
    assert Cruzam(Horario(DiaNum(1), 8, 10), cal[0].value.horarios[0]);
    assert Sobrepoe(Horario(DiaNum(1), 8, 10), cal[0].value);
    ConflitoEmSpec([Horario(DiaNum(1), 8, 10)], cal);
  }

  /** Monday 8-10 against a placed Monday 10-12 does not: the end hour is exclusive. */
  lemma SemConflitoAdjacente(m: Materia)
    ensures ConflitoEm([Horario(DiaNum(1), 8, 10)], [Entry(m.codigo, Placed(m, "A", [Horario(DiaNum(1), 10, 12)]))]).None?
  {
    var hs := [Horario(DiaNum(1), 8, 10)];
    var cal := [Entry(m.codigo, Placed(m, "A", [Horario(DiaNum(1), 10, 12)]))];
    ConflitoEmSpec(hs, cal);
  }

  // ---------------------------------------------------------------- cells

  /** The placed subjects with a slot covering hour `hora` of `dia`, in calendar order,
      each paired with its code. */
  function NaCelula(cal: OMap<Placed>, dia: Dia, hora: int): OMap<Placed>
  {
    if |cal| == 0 then []
    else if AlgumOcupa(cal[0].value.horarios, dia, hora) then [cal[0]] + NaCelula(cal[1..], dia, hora)
    else NaCelula(cal[1..], dia, hora)
  }

  /** A cell lists exactly the placed subjects with a slot covering it, in calendar
      order, and none twice. */
  lemma {:induction false} NaCelulaSpec(cal: OMap<Placed>, dia: Dia, hora: int)
    ensures forall e :: e in NaCelula(cal, dia, hora) <==> e in cal && AlgumOcupa(e.value.horarios, dia, hora)
    ensures IsSubseq(NaCelula(cal, dia, hora), cal)
    ensures UniqueKeys(cal) ==> UniqueKeys(NaCelula(cal, dia, hora))
  {
    if |cal| > 0 {
      NaCelulaSpec(cal[1..], dia, hora);
      assert cal == [cal[0]] + cal[1..];
      if !AlgumOcupa(cal[0].value.horarios, dia, hora) {
        SubseqSkip(NaCelula(cal[1..], dia, hora), cal);
      }
    }
    if UniqueKeys(cal) {
      SubseqUniqueKeys(NaCelula(cal, dia, hora), cal);
    }
  }

  /** The inner loop of getMateriasEmCelula and getTurmaIndexParaCelula: whether a
      slot of `hs` covers hour `hora` of `dia`, stopping at the first that does. */
  method CobreCelula(hs: seq<Horario>, dia: Dia, hora: int) returns (cobre: bool)
    ensures cobre <==> AlgumOcupa(hs, dia, hora)
  {
    for j := 0 to |hs|
      invariant forall t :: 0 <= t < j ==> !Ocupa(hs[t], dia, hora)
    {
      var h := hs[j];
      var hd := NormalizeDia(h.dia);
      if hd == dia && hora >= h.inicio && hora < h.fim {
        assert Ocupa(hs[j], dia, hora);
        return true;
      }
      forall t | 0 <= t < j + 1 ensures !Ocupa(hs[t], dia, hora) {
        if t == j {
          assert h == hs[t];
        }
      }
    }
    return false;
  }

  /** getMateriasEmCelula(horarioIdx, diaIdx) */
  method GetMateriasEmCelula(horarioIdx: int, diaIdx: int, cal: OMap<Placed>) returns (found: OMap<Placed>)
    ensures found == NaCelula(cal, DiaNum(diaIdx), BASE_HOUR + horarioIdx)
  {
    var hora := BASE_HOUR + horarioIdx;
    found := [];
    for k := 0 to |cal|
      invariant found + NaCelula(cal[k..], DiaNum(diaIdx), hora) == NaCelula(cal, DiaNum(diaIdx), hora)
    {
      var codigo := cal[k].key;
      var materiaData := cal[k].value;
      assert cal[k..][0] == cal[k] && cal[k..][1..] == cal[k + 1..];
      var cobre := CobreCelula(materiaData.horarios, DiaNum(diaIdx), hora);
      if cobre {
        AppendAssoc(found, [Entry(codigo, materiaData)], NaCelula(cal[k + 1..], DiaNum(diaIdx), hora));
        found := found + [Entry(codigo, materiaData)];
      }
    }
    assert cal[|cal|..] == [];
  }

  /** A section with a slot covering hour `hora` of `dia`. */
  predicate TurmaOcupa(t: Turma, dia: Dia, hora: int)
  {
    AlgumOcupa(t.horarios, dia, hora)
  }

  /** The lowest index from `i` on of a section covering hour `hora` of `dia`, or -1. */
  function PrimeiraTurma(ts: seq<Turma>, dia: Dia, hora: int, i: nat): int
    decreases |ts| - i
  {
    if i >= |ts| then -1 else if TurmaOcupa(ts[i], dia, hora) then i else PrimeiraTurma(ts, dia, hora, i + 1)
  }

  /** PrimeiraTurma is the leftmost search for a covering section. */
  lemma {:induction false} PrimeiraTurmaBusca(ts: seq<Turma>, dia: Dia, hora: int, i: nat)
    ensures PrimeiraTurma(ts, dia, hora, i)
            == match PrimeiraPosicao(i, |ts|, (j: nat) => j < |ts| && TurmaOcupa(ts[j], dia, hora))
               case Some(j) => j
               case None => -1
    decreases |ts| - i
  {
    if i < |ts| {
      PrimeiraTurmaBusca(ts, dia, hora, i + 1);
    }
  }

  /** PrimeiraTurma finds the first covering section, and -1 means none from `i` covers. */
  lemma PrimeiraTurmaSpec(ts: seq<Turma>, dia: Dia, hora: int, i: nat)
    ensures PrimeiraTurma(ts, dia, hora, i) == -1 <==> forall j :: i <= j < |ts| ==> !TurmaOcupa(ts[j], dia, hora)
    ensures PrimeiraTurma(ts, dia, hora, i) != -1 ==>
              var r := PrimeiraTurma(ts, dia, hora, i);
              i <= r < |ts| && TurmaOcupa(ts[r], dia, hora) && forall j :: i <= j < r ==> !TurmaOcupa(ts[j], dia, hora)
  {
    var p := (j: nat) => j < |ts| && TurmaOcupa(ts[j], dia, hora);
    PrimeiraTurmaBusca(ts, dia, hora, i);
    PrimeiraPosicaoNenhuma(i, |ts|, p);
    var b := PrimeiraPosicao(i, |ts|, p);
    if b.None? {
      forall j | i <= j < |ts| ensures !TurmaOcupa(ts[j], dia, hora) {
        assert !p(j);
      }
    } else {
      PrimeiraPosicaoMinima(i, |ts|, p);
      forall j | i <= j < b.value ensures !TurmaOcupa(ts[j], dia, hora) {
        assert !p(j);
      }
    }
  }

  // ---------------------------------------------------------------- drag and drop

  /** The drag state of the calendar: the subject being dragged and the section
      chosen by hovering. */
  class Arrasto {
    var arrastando: Option<Materia>   // draggingMateria
    var isDragging: bool
    var turmaSelecionada: Option<nat> // selectedTurmaIndex

    /** A selected section always belongs to the subject being dragged. */
    ghost predicate Valid()
      reads this
    {
      (isDragging <==> arrastando.Some?)
      && (turmaSelecionada.Some? ==> arrastando.Some? && turmaSelecionada.value < |arrastando.value.turmas|)
    }

    constructor()
      ensures Valid() && arrastando.None? && !isDragging && turmaSelecionada.None?
    {
      arrastando := None;
      isDragging := false;
      turmaSelecionada := None;
    }

    /** getTurmaIndexParaCelula(horarioIdx, diaIdx): -1 when nothing is dragged,
        otherwise the first section of the dragged subject covering the cell. */
    method TurmaIndexParaCelula(horarioIdx: int, diaIdx: int) returns (r: int)
      ensures r == if arrastando.None? then -1
                   else PrimeiraTurma(arrastando.value.turmas, DiaNum(diaIdx), BASE_HOUR + horarioIdx, 0)
    {
      if arrastando.None? { return -1; }
      var hora := BASE_HOUR + horarioIdx;
      var turmas := arrastando.value.turmas;
      for i := 0 to |turmas|
        invariant PrimeiraTurma(turmas, DiaNum(diaIdx), hora, 0) == PrimeiraTurma(turmas, DiaNum(diaIdx), hora, i)
      {
        var cobre := CobreCelula(turmas[i].horarios, DiaNum(diaIdx), hora);
        if cobre {
          return i;
        }
      }
      return -1;
    }

    /** handleDragStart: refused when a prerequisite is missing (judged on the approved
        list alone) or the subject is already on the calendar; otherwise the subject is
        picked up with no section chosen. */
    method IniciarArrasto(m: Materia, aprovadas: seq<string>, cal: OMap<Placed>) returns (aceito: bool)
      requires Valid()
      modifies this
      ensures Valid()
      ensures aceito <==> DataIndex.VerificarPreRequisitos(m, aprovadas, []).cumprido && m.codigo !in Keys(cal)
      ensures aceito ==> arrastando == Some(m) && isDragging && turmaSelecionada.None?
      ensures !aceito ==> arrastando == old(arrastando) && isDragging == old(isDragging)
                          && turmaSelecionada == old(turmaSelecionada)
    {
      var v := DataIndex.VerificarPreRequisitos(m, aprovadas, []);
      if !v.cumprido { return false; }
      if Get(cal, m.codigo).Some? { return false; }
      arrastando := Some(m);
      isDragging := true;
      turmaSelecionada := None;
      return true;
    }

    /** handleCellHover: while dragging, selects the section covering the cell, if any. */
    method PassarSobreCelula(horarioIdx: int, diaIdx: int)
      requires Valid()
      modifies this
      ensures Valid()
      ensures arrastando == old(arrastando) && isDragging == old(isDragging)
      ensures old(arrastando).None? ==> turmaSelecionada == old(turmaSelecionada)
      ensures old(arrastando).Some? ==>
                var i := PrimeiraTurma(old(arrastando).value.turmas, DiaNum(diaIdx), BASE_HOUR + horarioIdx, 0);
                turmaSelecionada == if i == -1 then old(turmaSelecionada) else Some(i)
    {
      if !isDragging || arrastando.None? { return; }
      var turmaIndex := TurmaIndexParaCelula(horarioIdx, diaIdx);
      if turmaIndex != -1 {
        PrimeiraTurmaSpec(arrastando.value.turmas, DiaNum(diaIdx), BASE_HOUR + horarioIdx, 0);
        turmaSelecionada := Some(turmaIndex);
      }
    }

    /** handleMouseUp: a drop inside the calendar with a section chosen adds the subject,
        with that section's id and slots, unless the slots conflict with the calendar;
        the drag state is reset in every case. `dentro` says whether the pointer is inside
        the calendar. */
    method SoltarMouse(dentro: bool, cal: OMap<Placed>) returns (adicionada: Option<Placed>, conflito: Option<string>)
      requires Valid()
      modifies this
      ensures arrastando.None? && !isDragging && turmaSelecionada.None? && Valid()
      ensures !(old(isDragging) && old(turmaSelecionada).Some? && dentro) ==> adicionada.None? && conflito.None?
      ensures old(isDragging) && old(turmaSelecionada).Some? && dentro ==>
                var t := old(arrastando).value.turmas[old(turmaSelecionada).value];
                (adicionada.Some? <==> ConflitoEm(t.horarios, cal).None?)
                && (adicionada.Some? ==> adicionada.value == Placed(old(arrastando).value, t.id, t.horarios))
                && (conflito.Some? <==> ConflitoEm(t.horarios, cal).Some?)
                && (conflito.Some? ==> conflito.value == ConflitoEm(t.horarios, cal).value.materia.nome)
    {
      adicionada, conflito := None, None;
      if isDragging && arrastando.Some? && turmaSelecionada.Some? && dentro {
        var turma := arrastando.value.turmas[turmaSelecionada.value];
        var c := VerificarConflito(turma.horarios, cal);
        if c.ComConflito? {
          conflito := Some(c.materiaConflito);
        } else {
          adicionada := Some(Placed(arrastando.value, turma.id, turma.horarios));
        }
      }
      arrastando := None;
      isDragging := false;
      turmaSelecionada := None;
    }
  }

  // ---------------------------------------------------------------- available subjects

  /** A subject of an earlier semester still to be taken. */
  datatype Pendente = Pendente(materia: Materia, semestreOriginal: int)

  /** What getMateriasDisponiveis returns. */
  datatype Disponiveis = Disponiveis(obrigatorias: seq<Materia>, pendentes: seq<Pendente>, eletivas: seq<Materia>)

  /** The subjects of `ms` whose code is not approved, in order. */
  function NaoAprovadas(ms: seq<Materia>, aprovadas: seq<string>): seq<Materia>
  {
    if |ms| == 0 then []
    else (if ms[0].codigo in aprovadas then [] else [ms[0]]) + NaoAprovadas(ms[1..], aprovadas)
  }

  /** Exactly the subjects whose code is not approved, in their original order. */
  lemma {:induction false} NaoAprovadasSpec(ms: seq<Materia>, aprovadas: seq<string>)
    ensures forall m :: m in NaoAprovadas(ms, aprovadas) <==> m in ms && m.codigo !in aprovadas
    ensures forall m :: multiset(NaoAprovadas(ms, aprovadas))[m] ==
                          if m.codigo in aprovadas then 0 else multiset(ms)[m]
    ensures IsSubseq(NaoAprovadas(ms, aprovadas), ms)
  {
    if |ms| > 0 {
      NaoAprovadasSpec(ms[1..], aprovadas);
      var rest := NaoAprovadas(ms[1..], aprovadas);
      assert ms == [ms[0]] + ms[1..];
      if ms[0].codigo in aprovadas {
        assert NaoAprovadas(ms, aprovadas) == rest;
        SubseqSkip(rest, ms);
      } else {
        assert NaoAprovadas(ms, aprovadas) == [ms[0]] + rest;
      }
    }
  }

  /** `materiasPorSemestre[i] || []` */
  function DoSemestre(porSemestre: OMap<seq<Materia>>, i: int): seq<Materia>
  {
    GetOr(porSemestre, IntToString(i), [])
  }

  /** The not-yet-approved subjects of `ms`, tagged with semester `i`. */
  function PendentesDe(ms: seq<Materia>, aprovadas: seq<string>, i: int): seq<Pendente>
  {
    if |ms| == 0 then []
    else
      (if ms[0].codigo in aprovadas then [] else [Pendente(ms[0], i)]) + PendentesDe(ms[1..], aprovadas, i)
  }

  /** The pending subjects of semesters `i` up to `fim - 1`, semester by semester. */
  function PendentesDesde(porSemestre: OMap<seq<Materia>>, aprovadas: seq<string>, i: int, fim: int)
    : seq<Pendente>
    decreases fim - i
  {
    if i >= fim then []
    else PendentesDe(DoSemestre(porSemestre, i), aprovadas, i) + PendentesDesde(porSemestre, aprovadas, i + 1, fim)
  }

  /** Every subject of `ms` tagged with semester `i`, in order. */
  function Marcadas(ms: seq<Materia>, i: int): seq<Pendente>
  {
    if |ms| == 0 then [] else [Pendente(ms[0], i)] + Marcadas(ms[1..], i)
  }

  /** One earlier semester contributes exactly its unapproved subjects, each as often
      as it is listed, tagged with that semester. */
  lemma {:induction false} PendentesDeSpec(ms: seq<Materia>, aprovadas: seq<string>, i: int)
    ensures forall p :: p in PendentesDe(ms, aprovadas, i) <==>
                          p.semestreOriginal == i && p.materia in ms && p.materia.codigo !in aprovadas
    ensures forall p :: multiset(PendentesDe(ms, aprovadas, i))[p] ==
                          if p.semestreOriginal == i && p.materia.codigo !in aprovadas then multiset(ms)[p.materia] else 0
  {
    if |ms| > 0 {
      PendentesDeSpec(ms[1..], aprovadas, i);
      assert ms == [ms[0]] + ms[1..];
    }
  }

  /** The pushes keep the list order: the entries are the unapproved subjects in their
      order (see NaoAprovadasSpec), each tagged with the semester. */
  lemma {:induction false} PendentesDeEmOrdem(ms: seq<Materia>, aprovadas: seq<string>, i: int)
    ensures PendentesDe(ms, aprovadas, i) == Marcadas(NaoAprovadas(ms, aprovadas), i)
  {
    if |ms| > 0 {
      PendentesDeEmOrdem(ms[1..], aprovadas, i);
      var rest := NaoAprovadas(ms[1..], aprovadas);
      var tail := PendentesDe(ms[1..], aprovadas, i);
      if ms[0].codigo !in aprovadas {
        assert NaoAprovadas(ms, aprovadas) == [ms[0]] + rest;
        assert ([ms[0]] + rest)[0] == ms[0] && ([ms[0]] + rest)[1..] == rest;
        assert Marcadas([ms[0]] + rest, i) == [Pendente(ms[0], i)] + Marcadas(rest, i);
        assert PendentesDe(ms, aprovadas, i) == [Pendente(ms[0], i)] + tail;
      } else {
        assert NaoAprovadas(ms, aprovadas) == rest;
        assert PendentesDe(ms, aprovadas, i) == tail;
      }
    }
  }

  /** The pending list holds exactly the not-approved subjects of semesters `i` up to
      `fim - 1`, each tagged with its semester. */
  lemma {:induction false} PendentesDesdeSpec(porSemestre: OMap<seq<Materia>>, aprovadas: seq<string>, i: int, fim: int)
    ensures forall p :: p in PendentesDesde(porSemestre, aprovadas, i, fim) <==>
                          i <= p.semestreOriginal < fim
                          && p.materia in DoSemestre(porSemestre, p.semestreOriginal)
                          && p.materia.codigo !in aprovadas
    decreases fim - i
  {
    if i < fim {
      PendentesDeSpec(DoSemestre(porSemestre, i), aprovadas, i);
      PendentesDesdeSpec(porSemestre, aprovadas, i + 1, fim);
    }
  }

  /** Every entry of one semester's pending list carries that semester. */
  lemma {:induction false} PendentesDeMarcadas(ms: seq<Materia>, aprovadas: seq<string>, i: int)
    ensures forall k :: 0 <= k < |PendentesDe(ms, aprovadas, i)| ==> PendentesDe(ms, aprovadas, i)[k].semestreOriginal == i
  {
    if |ms| > 0 {
      PendentesDeMarcadas(ms[1..], aprovadas, i);
    }
  }

  /** Every entry from semester `i` on carries a semester of at least `i`. */
  lemma {:induction false} PendentesDesdeMinimo(porSemestre: OMap<seq<Materia>>, aprovadas: seq<string>, i: int, fim: int)
    ensures forall k :: 0 <= k < |PendentesDesde(porSemestre, aprovadas, i, fim)| ==>
                          i <= PendentesDesde(porSemestre, aprovadas, i, fim)[k].semestreOriginal
    decreases fim - i
  {
    if i < fim {
      PendentesDeMarcadas(DoSemestre(porSemestre, i), aprovadas, i);
      PendentesDesdeMinimo(porSemestre, aprovadas, i + 1, fim);
    }
  }

  /** The pending list runs semester by semester: the semester never decreases along it. */
  lemma {:induction false} PendentesDesdeOrdem(porSemestre: OMap<seq<Materia>>, aprovadas: seq<string>, i: int, fim: int)
    ensures forall j, k :: 0 <= j < k < |PendentesDesde(porSemestre, aprovadas, i, fim)| ==>
                             PendentesDesde(porSemestre, aprovadas, i, fim)[j].semestreOriginal
                             <= PendentesDesde(porSemestre, aprovadas, i, fim)[k].semestreOriginal
    decreases fim - i
  {
    if i < fim {
      var a := PendentesDe(DoSemestre(porSemestre, i), aprovadas, i);
      var b := PendentesDesde(porSemestre, aprovadas, i + 1, fim);
      PendentesDeMarcadas(DoSemestre(porSemestre, i), aprovadas, i);
      PendentesDesdeMinimo(porSemestre, aprovadas, i + 1, fim);
      PendentesDesdeOrdem(porSemestre, aprovadas, i + 1, fim);
      var r := a + b;
      forall j, k | 0 <= j < k < |r| ensures r[j].semestreOriginal <= r[k].semestreOriginal {
        if k < |a| {
          assert r[j] == a[j] && r[k] == a[k];
          assert a[j].semestreOriginal == i == a[k].semestreOriginal;
        } else if j < |a| {
          assert r[j] == a[j] && r[k] == b[k - |a|];
          assert a[j].semestreOriginal == i < i + 1 <= b[k - |a|].semestreOriginal;
        } else {
          assert r[j] == b[j - |a|] && r[k] == b[k - |a|];
          assert b[j - |a|].semestreOriginal <= b[k - |a|].semestreOriginal;
        }
      }
    }
  }

  /** Each pending entry occurs as often as its subject is listed in that semester: a
      subject listed twice is pending twice. */
  lemma {:induction false} PendentesDesdeContagem(porSemestre: OMap<seq<Materia>>, aprovadas: seq<string>, i: int, fim: int)
    ensures forall p :: multiset(PendentesDesde(porSemestre, aprovadas, i, fim))[p] ==
                          if i <= p.semestreOriginal < fim && p.materia.codigo !in aprovadas
                          then multiset(DoSemestre(porSemestre, p.semestreOriginal))[p.materia] else 0
    decreases fim - i
  {
    if i < fim {
      var a := PendentesDe(DoSemestre(porSemestre, i), aprovadas, i);
      var b := PendentesDesde(porSemestre, aprovadas, i + 1, fim);
      PendentesDeSpec(DoSemestre(porSemestre, i), aprovadas, i);
      PendentesDesdeContagem(porSemestre, aprovadas, i + 1, fim);
      assert multiset(a + b) == multiset(a) + multiset(b);
    }
  }

  /** The electives whose prerequisites are met by the approved list alone. */
  function EletivasCumpridas(es: seq<Materia>, aprovadas: seq<string>): seq<Materia>
  {
    if |es| == 0 then []
    else
      (if DataIndex.VerificarPreRequisitos(es[0], aprovadas, []).cumprido then [es[0]] else [])
      + EletivasCumpridas(es[1..], aprovadas)
  }

  /** Exactly the electives whose prerequisites are all approved, in their original order. */
  lemma {:induction false} EletivasCumpridasSpec(es: seq<Materia>, aprovadas: seq<string>)
    ensures forall e :: e in EletivasCumpridas(es, aprovadas) <==>
                          e in es && DataIndex.VerificarPreRequisitos(e, aprovadas, []).cumprido
    ensures forall e :: multiset(EletivasCumpridas(es, aprovadas))[e] ==
                          if DataIndex.VerificarPreRequisitos(e, aprovadas, []).cumprido then multiset(es)[e] else 0
    ensures IsSubseq(EletivasCumpridas(es, aprovadas), es)
  {
    if |es| > 0 {
      EletivasCumpridasSpec(es[1..], aprovadas);
      var rest := EletivasCumpridas(es[1..], aprovadas);
      assert es == [es[0]] + es[1..];
      if DataIndex.VerificarPreRequisitos(es[0], aprovadas, []).cumprido {
        assert EletivasCumpridas(es, aprovadas) == [es[0]] + rest;
      } else {
        assert EletivasCumpridas(es, aprovadas) == rest;
        SubseqSkip(rest, es);
      }
    }
  }

  /** The inner loop of getMateriasDisponiveis: the not-approved subjects of one
      earlier semester, tagged with it. */
  method PendentesDoSemestre(materias: seq<Materia>, aprovadas: seq<string>, i: int) returns (ps: seq<Pendente>)
    ensures ps == PendentesDe(materias, aprovadas, i)
  {
    ps := [];
    assert materias[0..] == materias;
    for j := 0 to |materias|
      invariant ps + PendentesDe(materias[j..], aprovadas, i) == PendentesDe(materias, aprovadas, i)
    {
      assert materias[j..][0] == materias[j] && materias[j..][1..] == materias[j + 1..];
      ghost var depois := PendentesDe(materias[j + 1..], aprovadas, i);
      if materias[j].codigo !in aprovadas {
        assert PendentesDe(materias[j..], aprovadas, i) == [Pendente(materias[j], i)] + depois;
        ps := ps + [Pendente(materias[j], i)];
      } else {
        assert PendentesDe(materias[j..], aprovadas, i) == depois;
      }
    }
    assert materias[|materias|..] == [];
  }

  /** getMateriasDisponiveis: this semester's subjects not approved; every subject of
      semesters 1 .. semestreAtual - 1 not approved, tagged with its semester; and,
      when electives are shown, the electives whose prerequisites are met. */
  method GetMateriasDisponiveis(semestreAtual: int, aprovadas: seq<string>, porSemestre: OMap<seq<Materia>>,
                                eletivas: seq<Materia>, mostrarEletivas: bool) returns (r: Disponiveis)
    ensures r.obrigatorias == NaoAprovadas(DoSemestre(porSemestre, semestreAtual), aprovadas)
    ensures r.pendentes == PendentesDesde(porSemestre, aprovadas, 1, semestreAtual)
    ensures r.eletivas == if mostrarEletivas then EletivasCumpridas(eletivas, aprovadas) else []
  {
    var materiasDoSemestre := DoSemestre(porSemestre, semestreAtual);
    var anteriores: seq<Pendente> := [];
    var i := 1;
    while i < semestreAtual
      invariant 1 <= i && (i <= semestreAtual || i == 1)
      invariant anteriores + PendentesDesde(porSemestre, aprovadas, i, semestreAtual)
                == PendentesDesde(porSemestre, aprovadas, 1, semestreAtual)
      decreases semestreAtual - i
    {
      var ps := PendentesDoSemestre(DoSemestre(porSemestre, i), aprovadas, i);
      ghost var resto := PendentesDesde(porSemestre, aprovadas, i + 1, semestreAtual);
      assert PendentesDesde(porSemestre, aprovadas, i, semestreAtual) == ps + resto;
      AppendAssoc(anteriores, ps, resto);
      anteriores := anteriores + ps;
      i := i + 1;
    }
    var eletivasDisponiveis := if mostrarEletivas then EletivasCumpridas(eletivas, aprovadas) else [];
    r := Disponiveis(NaoAprovadas(materiasDoSemestre, aprovadas), anteriores, eletivasDisponiveis);
  }

  // ---------------------------------------------------------------- credits

  /** totalCreditos: the credits of every placed subject added up. */
  function TotalCreditos(cal: OMap<Placed>): int
  {
    if |cal| == 0 then 0 else cal[0].value.materia.creditos + TotalCreditos(cal[1..])
  }

  function CreditosDe(p: Option<Placed>): int
  {
    if p.Some? then p.value.materia.creditos else 0
  }

  /** Placing (or replacing) a subject changes the total by its credits minus those of
      the entry it replaces. */
  lemma {:induction false} TotalCreditosPut(cal: OMap<Placed>, k: string, p: Placed)
    requires UniqueKeys(cal)
    ensures TotalCreditos(Put(cal, k, p)) == TotalCreditos(cal) - CreditosDe(Get(cal, k)) + p.materia.creditos
  {
    if |cal| > 0 && cal[0].key != k {
      TotalCreditosPut(cal[1..], k, p);
      assert Put(cal, k, p)[1..] == Put(cal[1..], k, p);
    }
  }

  /** Removing a subject takes exactly its credits off the total. */
  lemma {:induction false} TotalCreditosDelete(cal: OMap<Placed>, k: string)
    requires UniqueKeys(cal)
    ensures TotalCreditos(Delete(cal, k)) == TotalCreditos(cal) - CreditosDe(Get(cal, k))
  {
    if |cal| > 0 {
      TotalCreditosDelete(cal[1..], k);
      if cal[0].key == k {
        assert k !in Keys(cal[1..]);
        assert Delete(cal[1..], k) == cal[1..];
      } else {
        assert Delete(cal, k)[1..] == Delete(cal[1..], k);
      }
    }
  }
}

=== FILE: calendar_export.dfy ===
/** The calendar's hour labels and its iCalendar export: parseHour, the text escaping
    of SUMMARY and DESCRIPTION values, the days until the next given weekday, and the
    line-by-line construction of the .ics document (one weekly recurring event per slot
    on a valid day). The clock is a parameter: today's weekday, and `carimbo`, which
    formats the local date-time `dias` days from today at a given hour and minute. */
module CalendarExport {
  import opened Base
  import opened Text
  import opened OrderedMap
  import opened Catalog
  import Calendar

  // ---------------------------------------------------------------- hour labels

  /** "HH:00" for hour `h`, as the calendar's row labels. */
  function RotuloHora(h: int): string
  {
    PadStart2(IntToString(h)) + ":00"
  }

  /** gerarHorarios(start, end): one label per hour from `start` to `end` inclusive. */
  method GerarHorarios(start: int, end: int) returns (horarios: seq<string>)
    ensures |horarios| == if end < start then 0 else end - start + 1
    ensures forall i :: 0 <= i < |horarios| ==> horarios[i] == RotuloHora(start + i)
  {
    var n := if end < start then 0 else end - start + 1;
    horarios := [];
    for k := 0 to n
      invariant |horarios| == k
      invariant forall i :: 0 <= i < k ==> horarios[i] == RotuloHora(start + i)
    {
      horarios := horarios + [RotuloHora(start + k)];
    }
  }

  /** An hour and a minute, as parseHour returns them. */
  datatype HoraMinuto = HoraMinuto(hour: int, minute: int)

  /** `Number(x) || 0`: the number read, with NaN and 0 both giving 0. */
  function NumeroOuZero(s: string): int
  {
    match NumberOfString(s)
    case Some(n) => n
    case None => 0
  }

  /** parseHour: null is 00:00; an integer hour has minute 0; a string is split at ':'
      into hour and minute, each `Number(..) || 0`, a missing minute being 0. */
  function ParseHour(h: Hour): (r: HoraMinuto)
    ensures h.HourNull? ==> r == HoraMinuto(0, 0)
    ensures h.HourNum? ==> r == HoraMinuto(h.h, 0)
  {
    match h
    case HourNull => HoraMinuto(0, 0)
    case HourNum(n) => HoraMinuto(n, 0)
    case HourStr(s) =>
      var parts := Split(s, {':'});
      HoraMinuto(NumeroOuZero(parts[0]), if |parts| > 1 then NumeroOuZero(parts[1]) else 0)
  }

  /** The row labels read back through parseHour give their hour, minute 0. */
  lemma RotuloHoraParseHour(h: nat)
    ensures ParseHour(HourStr(RotuloHora(h))) == HoraMinuto(h, 0)
  {
    var d := IntToString(h);
    IntToStringSpec(h);
    var p := PadStart2(d);
    if |d| == 1 {
      DigitsValueZeroInicial(d);
      assert p == "0" + d;
    }
    assert AllDigits(p) && DigitsValue(p) == h;
    assert forall i :: 0 <= i < |p| ==> p[i] !in {':'};
    assert RotuloHora(h) == p + [':'] + "00";
    SplitPrimeiro(p, ':', "00", {':'});
    SplitSemSeparador("00", {':'});
    TrimNoSpace(p);
    TrimNoSpace("00");
    NumberOfStringDigitos(p);
    NumberOfStringDigitos("00");
    assert DigitsValue("00") == 0 by { assert "00"[..1] == "0"; }
  }

  /** A string hour without a colon is all hour: "8" and "08" are 08:00. */
  lemma ParseHourSemMinutos(s: string)
    requires forall i :: 0 <= i < |s| ==> s[i] != ':'
    ensures ParseHour(HourStr(s)) == HoraMinuto(NumeroOuZero(s), 0)
  {
    SplitSemSeparador(s, {':'});
  }

  // ---------------------------------------------------------------- text escaping

  /** Replaces every occurrence of `c` in `s` by `rep` (`s.replace(/c/g, rep)`); a building
      block of Escapar. */
  function ReplaceChar(s: string, c: char, rep: string): (r: string)
  {
    if |s| == 0 then s
    else (if s[0] == c then rep else [s[0]]) + ReplaceChar(s[1..], c, rep)
  }

  /** Proof helper: a replacement distributes over concatenation. */
  lemma {:induction false} ReplaceCharConcat(a: string, b: string, c: char, rep: string)
    ensures ReplaceChar(a + b, c, rep) == ReplaceChar(a, c, rep) + ReplaceChar(b, c, rep)
  {
    if |a| > 0 {
      ReplaceCharConcat(a[1..], b, c, rep);
      assert (a + b)[1..] == a[1..] + b;
    } else {
      assert a + b == b;
    }
  }

  /** The three replacements of escapeICSText, in their order: backslashes doubled,
      newlines written as \n, and every comma replaced by `virgula`. */
  function Escapar(txt: string, virgula: string): string
  {
    ReplaceChar(ReplaceChar(ReplaceChar(txt, '\\', "\\\\"), '\n', "\\n"), ',', virgula)
  }

  /** escapeICSText as written, the escape the exported document uses: the comma
      replacement '\,' is, in a JavaScript string literal, just ",". */
  function EscapeICSTextAsWritten(txt: string): string
  {
    Escapar(txt, ",")
  }

  /** escapeICSText as intended: commas written as \, (the TEXT value escaping of
      section 3.3.11 of RFC 5545, semicolons apart). */
  function EscapeICSText(txt: string): string
  {
    Escapar(txt, "\\,")
  }

  /** The escape of one character. */
  function EscapeChar(c: char, virgula: string): string
  {
    if c == '\\' then "\\\\" else if c == '\n' then "\\n" else if c == ',' then virgula else [c]
  }

  /** Character-by-character escaping. */
  function EscapeEach(s: string, virgula: string): string
  {
    if |s| == 0 then "" else EscapeChar(s[0], virgula) + EscapeEach(s[1..], virgula)
  }

  /** A replacement changes nothing in a text without the replaced character. */
  lemma {:induction false} ReplaceCharAusente(s: string, c: char, rep: string)
    requires c !in s
    ensures ReplaceChar(s, c, rep) == s
  {
    if |s| > 0 {
      assert s[0] != c;
      ReplaceCharAusente(s[1..], c, rep);
      assert s == [s[0]] + s[1..];
    }
  }

  /** Escaping distributes over concatenation. */
  lemma EscaparConcat(a: string, b: string, virgula: string)
    ensures Escapar(a + b, virgula) == Escapar(a, virgula) + Escapar(b, virgula)
  {
    var r1a := ReplaceChar(a, '\\', "\\\\");
    var r1b := ReplaceChar(b, '\\', "\\\\");
    ReplaceCharConcat(a, b, '\\', "\\\\");
    ReplaceCharConcat(r1a, r1b, '\n', "\\n");
    ReplaceCharConcat(ReplaceChar(r1a, '\n', "\\n"), ReplaceChar(r1b, '\n', "\\n"), ',', virgula);
  }

  /** A replacement on a single character. */
  lemma ReplaceCharUm(x: char, c: char, rep: string)
    ensures ReplaceChar([x], c, rep) == if x == c then rep else [x]
  {
    assert [x][1..] == [];
  }

  /** Escaping a single character gives its escape. */
  lemma EscaparUm(c: char, virgula: string)
    ensures Escapar([c], virgula) == EscapeChar(c, virgula)
  {
    ReplaceCharUm(c, '\\', "\\\\");
    if c == '\\' {
      ReplaceCharAusente("\\\\", '\n', "\\n");
      ReplaceCharAusente("\\\\", ',', virgula);
    } else {
      ReplaceCharUm(c, '\n', "\\n");
      if c == '\n' {
        ReplaceCharAusente("\\n", ',', virgula);
      } else {
        ReplaceCharUm(c, ',', virgula);
      }
    }
  }

  /** The three global replacements in a row escape each character on its own: none of
      them creates a character a later one rewrites. */
  lemma {:induction false} EscaparPorCaractere(s: string, virgula: string)
    ensures Escapar(s, virgula) == EscapeEach(s, virgula)
  {
    if |s| > 0 {
      EscaparPorCaractere(s[1..], virgula);
      EscaparConcat([s[0]], s[1..], virgula);
      EscaparUm(s[0], virgula);
      assert s == [s[0]] + s[1..];
    }
  }

  /** Reads an escaped TEXT value back: \n is a newline, a backslash followed by any
      other character stands for that character. */
  function Unescape(s: string): string
    decreases |s|
  {
    if |s| == 0 then ""
    else if s[0] == '\\' && |s| >= 2 then [if s[1] == 'n' then '\n' else s[1]] + Unescape(s[2..])
    else [s[0]] + Unescape(s[1..])
  }

  /** Every backslash, newline and comma of `s` is part of an escape pair. */
  predicate Escapado(s: string)
    decreases |s|
  {
    if |s| == 0 then true
    else if s[0] == '\\' then |s| >= 2 && s[1] in {'\\', 'n', ','} && Escapado(s[2..])
    else s[0] != '\n' && s[0] != ',' && Escapado(s[1..])
  }

  /** With either comma replacement, per-character escaping reads back through Unescape
      and leaves no raw newline; with \, it is also well-formed. */
  lemma {:induction false} EscapeEachSpec(s: string, virgula: string)
    requires virgula == "," || virgula == "\\,"
    ensures Unescape(EscapeEach(s, virgula)) == s
    ensures '\n' !in EscapeEach(s, virgula)
    ensures virgula == "\\," ==> Escapado(EscapeEach(s, virgula))
  {
    if |s| > 0 {
      EscapeEachSpec(s[1..], virgula);
      var e := EscapeEach(s, virgula);
      var t := EscapeEach(s[1..], virgula);
      assert e == EscapeChar(s[0], virgula) + t;
      if s[0] == '\\' || s[0] == '\n' || (s[0] == ',' && virgula == "\\,") {
        assert e[2..] == t;
        assert e == e[..2] + t;
      } else {
        assert e[1..] == t;
        assert e == [e[0]] + t;
      }
    }
  }

  /** The intended escaping round-trips through Unescape and leaves no bare comma,
      newline or backslash. */
  lemma EscapeICSTextRoundTrip(s: string)
    ensures Unescape(EscapeICSText(s)) == s
    ensures Escapado(EscapeICSText(s))
  {
    EscaparPorCaractere(s, "\\,");
    EscapeEachSpec(s, "\\,");
  }

  /** A comma of the text comes out of the escape as written as a bare comma. */
  lemma {:induction false} VirgulaNua(s: string)
    requires ',' in s
    ensures !Escapado(EscapeEach(s, ","))
  {
    var e := EscapeEach(s, ",");
    var t := EscapeEach(s[1..], ",");
    assert e == EscapeChar(s[0], ",") + t;
    if s[0] == ',' {
      assert e[0] == ',';
    } else {
      assert s == [s[0]] + s[1..];
      VirgulaNua(s[1..]);
      if s[0] == '\\' || s[0] == '\n' {
        assert e[2..] == t;
      } else {
        assert e[1..] == t;
      }
    }
  }

  /** The escape as written reads back exactly and never breaks a line, but its output
      is well-formed TEXT exactly when the input has no comma. */
  lemma EscapeAsWrittenSpec(s: string)
    ensures Unescape(EscapeICSTextAsWritten(s)) == s
    ensures '\n' !in EscapeICSTextAsWritten(s)
    ensures Escapado(EscapeICSTextAsWritten(s)) <==> ',' !in s
  {
    EscaparPorCaractere(s, ",");
    EscapeEachSpec(s, ",");
    if ',' in s {
      VirgulaNua(s);
    } else {
      EscapeSemVirgula(s);
      EscapeICSTextRoundTrip(s);
    }
  }

  /** An escaped value never holds a newline, so it cannot break an iCalendar line. */
  lemma {:induction false} EscapadoSemQuebra(s: string)
    requires Escapado(s)
    ensures '\n' !in s
    decreases |s|
  {
    if |s| > 0 {
      if s[0] == '\\' {
        EscapadoSemQuebra(s[2..]);
        assert s == s[..2] + s[2..];
      } else {
        EscapadoSemQuebra(s[1..]);
        assert s == [s[0]] + s[1..];
      }
    }
  }

  /** As written, "a,b" comes out as "a,b": the comma is left bare. */
  lemma EscapeVirgulaAsWritten()
    ensures EscapeICSTextAsWritten("a,b") == "a,b"
    ensures !Escapado(EscapeICSTextAsWritten("a,b"))
  {
    ReplaceCharAusente("a,b", '\\', "\\\\");
    ReplaceCharAusente("a,b", '\n', "\\n");
    ReplaceCharIdentidade("a,b", ',');
    assert !Escapado("a,b") by { assert "a,b"[1..][0] == ','; }
  }

  /** The last replacement as written changes nothing, so the two versions differ
      only on text with a comma. */
  lemma EscapeSemVirgula(s: string)
    requires ',' !in s
    ensures EscapeICSTextAsWritten(s) == EscapeICSText(s)
  {
    var x := ReplaceChar(ReplaceChar(s, '\\', "\\\\"), '\n', "\\n");
    ReplaceCharIdentidade(x, ',');
    ReplaceCharSemChar(s, '\\', "\\\\", ',');
    ReplaceCharSemChar(ReplaceChar(s, '\\', "\\\\"), '\n', "\\n", ',');
    ReplaceCharAusente(x, ',', "\\,");
  }

  /** Proof helper: replacing a character by itself changes nothing. */
  lemma {:induction false} ReplaceCharIdentidade(s: string, c: char)
    ensures ReplaceChar(s, c, [c]) == s
  {
    if |s| > 0 {
      ReplaceCharIdentidade(s[1..], c);
      assert s == [s[0]] + s[1..];
    }
  }

  /** Proof helper: a replacement creates no character absent from the text and the
      replacement. */
  lemma {:induction false} ReplaceCharSemChar(s: string, c: char, rep: string, d: char)
    requires d !in s && d !in rep
    ensures d !in ReplaceChar(s, c, rep)
  {
    if |s| > 0 {
      assert s == [s[0]] + s[1..];
      ReplaceCharSemChar(s[1..], c, rep, d);
    }
  }

  // ---------------------------------------------------------------- dates

  /** getNextDateForWeekday's day offset from today's weekday `hoje`. */
  function DiasAte(weekday: int, hoje: int): int
  {
    var diff := weekday - hoje;
    if diff < 0 then diff + 7 else diff
  }

  /** For weekdays 0..6 the offset is 0..6 days and lands on the requested weekday;
      it is 0 exactly when that weekday is today. */
  lemma DiasAteSpec(weekday: int, hoje: int)
    requires 0 <= weekday <= 6 && 0 <= hoje <= 6
    ensures 0 <= DiasAte(weekday, hoje) <= 6
    ensures (hoje + DiasAte(weekday, hoje)) % 7 == weekday
    ensures DiasAte(weekday, hoje) == 0 <==> weekday == hoje
  {
  }

  // ---------------------------------------------------------------- the .ics document

  const CABECALHO: seq<string> := ["BEGIN:VCALENDAR", "VERSION:2.0", "PRODID:-//GradeUFLA//Grade Export//EN",
                                   "CALSCALE:GREGORIAN"]

  const RODAPE := "END:VCALENDAR"

  /** The day index a slot exports to, or None when its day does not normalise to 0..6. */
  function DiaExportado(h: Horario): (r: Option<int>)
    ensures r.Some? ==> 0 <= r.value <= 6
  {
    match Calendar.NormalizeDia(h.dia)
    case DiaNum(n) => if 0 <= n <= 6 then Some(n) else None
    case _ => None
  }

  /** `${x || ''}` of a credit count. */
  function CreditosTexto(c: int): string
  {
    if c == 0 then "" else IntToString(c)
  }

  /** `${turmaId || fallback}` */
  function TurmaOu(turmaId: string, fallback: string): string
  {
    if turmaId == "" then fallback else turmaId
  }

  function Descricao(codigo: string, p: Placed): string
  {
    "C\U{00F3}digo: " + codigo + " | Turma: " + TurmaOu(p.turmaId, "") + " | Cr\U{00E9}ditos: "
    + CreditosTexto(p.materia.creditos)
  }

  /** A property line whose TEXT value is escaped by escapeICSText as written. */
  function LinhaTexto(nome: string, valor: string): string
  {
    nome + ":" + EscapeICSTextAsWritten(valor)
  }

  /** The value of a text line reads back as the text and holds no line break; it is
      well-formed TEXT only when the text has no comma. */
  lemma LinhaTextoSpec(nome: string, valor: string)
    ensures LinhaTexto(nome, valor)[|nome| + 1..] == EscapeICSTextAsWritten(valor)
    ensures Unescape(LinhaTexto(nome, valor)[|nome| + 1..]) == valor
    ensures '\n' !in LinhaTexto(nome, valor)[|nome| + 1..]
    ensures Escapado(LinhaTexto(nome, valor)[|nome| + 1..]) <==> ',' !in valor
  {
    EscapeAsWrittenSpec(valor);
    assert LinhaTexto(nome, valor)[|nome| + 1..] == EscapeICSTextAsWritten(valor);
  }

  /** The nine lines of the weekly event for slot `h` of the subject `codigo`. */
  function Evento(codigo: string, p: Placed, h: Horario, dia: int, weeks: int, hoje: int,
                  carimbo: (int, int, int) -> string): (r: seq<string>)
    ensures |r| == 9 && r[0] == "BEGIN:VEVENT" && r[8] == "END:VEVENT"
  {
    var ini := ParseHour(HourNum(h.inicio));
    var fim := ParseHour(HourNum(h.fim));
    var dias := DiasAte(dia, hoje);
    ["BEGIN:VEVENT",
     "UID:" + codigo + "-" + TurmaOu(p.turmaId, "0") + "-" + IntToString(dia) + "-" + IntToString(ini.hour)
       + "-" + IntToString(ini.minute) + "@gradeufla",
     "DTSTART;TZID=America/Sao_Paulo:" + carimbo(dias, ini.hour, ini.minute),
     "DTEND;TZID=America/Sao_Paulo:" + carimbo(dias, fim.hour, fim.minute),
     "RRULE:FREQ=WEEKLY;COUNT=" + IntToString(weeks),
     LinhaTexto("SUMMARY", p.materia.nome),
     LinhaTexto("DESCRIPTION", Descricao(codigo, p)),
     "STATUS:CONFIRMED",
     "END:VEVENT"]
  }

  /** The events of the first `|hs|` slots of a subject, skipping slots on no valid day. */
  function EventosDaMateria(codigo: string, p: Placed, hs: seq<Horario>, weeks: int, hoje: int,
                            carimbo: (int, int, int) -> string): seq<string>
  {
    if |hs| == 0 then []
    else
      var antes := EventosDaMateria(codigo, p, hs[..|hs| - 1], weeks, hoje, carimbo);
      match DiaExportado(hs[|hs| - 1])
      case None => antes
      case Some(d) => antes + Evento(codigo, p, hs[|hs| - 1], d, weeks, hoje, carimbo)
  }

  /** The events of the calendar's entries, in map order. */
  function Eventos(cal: OMap<Placed>, weeks: int, hoje: int, carimbo: (int, int, int) -> string): seq<string>
  {
    if |cal| == 0 then []
    else
      var e := cal[|cal| - 1];
      Eventos(cal[..|cal| - 1], weeks, hoje, carimbo)
      + EventosDaMateria(e.key, e.value, e.value.horarios, weeks, hoje, carimbo)
  }

  /** The inner loop of buildICS: the events of one subject's slots. */
  method LinhasDaMateria(codigo: string, m: Placed, weeks: int, hoje: int, carimbo: (int, int, int) -> string)
    returns (lines: seq<string>)
    ensures lines == EventosDaMateria(codigo, m, m.horarios, weeks, hoje, carimbo)
  {
    lines := [];
    for j := 0 to |m.horarios|
      invariant lines == EventosDaMateria(codigo, m, m.horarios[..j], weeks, hoje, carimbo)
    {
      var h := m.horarios[j];
      assert m.horarios[..j + 1][..j] == m.horarios[..j];
      var dia := DiaExportado(h);
      if dia.Some? {
        lines := lines + Evento(codigo, m, h, dia.value, weeks, hoje, carimbo);
      }
    }
    assert m.horarios[..|m.horarios|] == m.horarios;
  }

  /** Proof helper for LinhasICS: the events of one more calendar entry. */
  lemma EventosPasso(cal: OMap<Placed>, k: nat, weeks: int, hoje: int, carimbo: (int, int, int) -> string)
    requires k < |cal|
    ensures Eventos(cal[..k + 1], weeks, hoje, carimbo)
            == Eventos(cal[..k], weeks, hoje, carimbo)
               + EventosDaMateria(cal[k].key, cal[k].value, cal[k].value.horarios, weeks, hoje, carimbo)
  {
    assert cal[..k + 1][..k] == cal[..k] && cal[..k + 1][k] == cal[k];
  }

  /** The lines buildICS pushes: the header, the events of every entry in map order,
      and the footer. */
  method LinhasICS(cal: OMap<Placed>, weeks: int, hoje: int, carimbo: (int, int, int) -> string)
    returns (lines: seq<string>)
    ensures lines == CABECALHO + Eventos(cal, weeks, hoje, carimbo) + [RODAPE]
  {
    lines := CABECALHO;
    for k := 0 to |cal|
      invariant lines == CABECALHO + Eventos(cal[..k], weeks, hoje, carimbo)
    {
      var eventos := LinhasDaMateria(cal[k].key, cal[k].value, weeks, hoje, carimbo);
      EventosPasso(cal, k, weeks, hoje, carimbo);
      AppendAssoc(CABECALHO, Eventos(cal[..k], weeks, hoje, carimbo), eventos);
      lines := lines + eventos;
    }
    assert cal[..|cal|] == cal;
    lines := lines + [RODAPE];
  }

  /** buildICS(entries, weeks): those lines joined by CRLF. */
  method BuildICS(cal: OMap<Placed>, weeks: int, hoje: int, carimbo: (int, int, int) -> string)
    returns (ics: string)
    ensures ics == Join(CABECALHO + Eventos(cal, weeks, hoje, carimbo) + [RODAPE], "\r\n")
  {
    var lines := LinhasICS(cal, weeks, hoje, carimbo);
    ics := Join(lines, "\r\n");
  }

  /** exportToICS: nothing is exported from an empty calendar. */
  method ExportToICS(cal: OMap<Placed>, weeks: int, hoje: int, carimbo: (int, int, int) -> string)
    returns (r: Option<string>)
    ensures |cal| == 0 <==> r.None?
    ensures r.Some? ==> r.value == Join(CABECALHO + Eventos(cal, weeks, hoje, carimbo) + [RODAPE], "\r\n")
  {
    if |cal| == 0 { return None; }
    var ics := BuildICS(cal, weeks, hoje, carimbo);
    return Some(ics);
  }

  // ---------------------------------------------------------------- properties of the events

  /** The number of slots of `hs` on a valid day. */
  function SlotsValidos(hs: seq<Horario>): nat
  {
    if |hs| == 0 then 0
    else SlotsValidos(hs[..|hs| - 1]) + (if DiaExportado(hs[|hs| - 1]).Some? then 1 else 0)
  }

  function SlotsDoCalendario(cal: OMap<Placed>): nat
  {
    if |cal| == 0 then 0 else SlotsDoCalendario(cal[..|cal| - 1]) + SlotsValidos(cal[|cal| - 1].value.horarios)
  }

  lemma {:induction false} EventosDaMateriaTamanho(codigo: string, p: Placed, hs: seq<Horario>, weeks: int, hoje: int,
                                                   carimbo: (int, int, int) -> string)
    ensures |EventosDaMateria(codigo, p, hs, weeks, hoje, carimbo)| == 9 * SlotsValidos(hs)
  {
    if |hs| > 0 {
      EventosDaMateriaTamanho(codigo, p, hs[..|hs| - 1], weeks, hoje, carimbo);
    }
  }

  /** Nine lines per exported slot: one event for every slot on a valid day. */
  lemma {:induction false} EventosTamanho(cal: OMap<Placed>, weeks: int, hoje: int, carimbo: (int, int, int) -> string)
    ensures |Eventos(cal, weeks, hoje, carimbo)| == 9 * SlotsDoCalendario(cal)
  {
    if |cal| > 0 {
      EventosTamanho(cal[..|cal| - 1], weeks, hoje, carimbo);
      var e := cal[|cal| - 1];
      EventosDaMateriaTamanho(e.key, e.value, e.value.horarios, weeks, hoje, carimbo);
    }
  }

  /** Every event's SUMMARY reads back as the subject's name and its DESCRIPTION as
      the code, section and credits line; neither value holds a line break, and the
      SUMMARY is well-formed TEXT exactly when the name has no comma. */
  lemma EventoTexto(codigo: string, p: Placed, h: Horario, dia: int, weeks: int, hoje: int,
                    carimbo: (int, int, int) -> string)
    ensures var ev := Evento(codigo, p, h, dia, weeks, hoje, carimbo);
            Unescape(ev[5][|"SUMMARY"| + 1..]) == p.materia.nome
            && '\n' !in ev[5][|"SUMMARY"| + 1..]
            && Unescape(ev[6][|"DESCRIPTION"| + 1..]) == Descricao(codigo, p)
            && '\n' !in ev[6][|"DESCRIPTION"| + 1..]
            && (Escapado(ev[5][|"SUMMARY"| + 1..]) <==> ',' !in p.materia.nome)
  {
    LinhaTextoSpec("SUMMARY", p.materia.nome);
    LinhaTextoSpec("DESCRIPTION", Descricao(codigo, p));
  }

  /** An event starts at the slot's start hour on the date `DiasAte(dia, hoje)` days
      ahead, which has the slot's weekday, ends at its end hour on that date, and recurs
      weekly `weeks` times. */
  lemma EventoHorario(codigo: string, p: Placed, h: Horario, dia: int, weeks: int, hoje: int,
                      carimbo: (int, int, int) -> string)
    ensures Evento(codigo, p, h, dia, weeks, hoje, carimbo)[2]
            == "DTSTART;TZID=America/Sao_Paulo:" + carimbo(DiasAte(dia, hoje), h.inicio, 0)
    ensures Evento(codigo, p, h, dia, weeks, hoje, carimbo)[3]
            == "DTEND;TZID=America/Sao_Paulo:" + carimbo(DiasAte(dia, hoje), h.fim, 0)
    ensures Evento(codigo, p, h, dia, weeks, hoje, carimbo)[4] == "RRULE:FREQ=WEEKLY;COUNT=" + IntToString(weeks)
  {
    var ev := Evento(codigo, p, h, dia, weeks, hoje, carimbo);
    assert ParseHour(HourNum(h.inicio)) == HoraMinuto(h.inicio, 0);
    assert ParseHour(HourNum(h.fim)) == HoraMinuto(h.fim, 0);
  }
}

=== FILE: catalog.dfy ===
/** The records the scheduler works on: subjects ("matérias"), their sections
    ("turmas") and weekly time slots ("horários"), prerequisite lists, courses
    and the entries placed on the calendar. A string field that the source leaves
    undefined is the empty string here; both are falsy wherever the source tests them. */
module Catalog {
  import opened Base
  import opened Text

  /** A weekday as the data carries it: null or undefined, a number, or a string
      such as "Seg" or "3". */
  datatype Dia = DiaNull | DiaNum(n: int) | DiaStr(s: string)

  /** An hour field before normalisation: null, a number or a string such as "08:00". */
  datatype Hour = HourNull | HourNum(h: int) | HourStr(s: string)

  /** One weekly meeting, occupying the whole hours inicio, inicio + 1, ..., fim - 1. */
  datatype Horario = Horario(dia: Dia, inicio: int, fim: int)

  /** A section of a subject. `anp` is None where the record has no such field. */
  datatype Turma = Turma(id: string, horarios: seq<Horario>, anp: Option<bool>)

  /** Prerequisites split by severity: "Forte", "Minimo" and "Co-requisito". */
  datatype PreReqs = PreReqs(forte: seq<string>, minimo: seq<string>, coreq: seq<string>)

  /** The semester field of a subject row: absent, a number, or a non-numeric text
      such as "indefinido". */
  datatype Semestre = SemNone | SemNum(n: int) | SemText(s: string)

  datatype Materia = Materia(
    codigo: string,
    nome: string,
    creditos: int,
    tipo: string,              // "obrigatoria", "eletiva", ...
    subgrupo: string,
    curso: string,
    matriz: string,
    semestre: Semestre,
    preRequisitos: seq<string>,
    detalhada: Option<PreReqs>, // preRequisitosDetalhada, present on rows read from CSV
    turmas: seq<Turma>)

  /** A subject placed on the calendar: the subject with the chosen section's id and slots. */
  datatype Placed = Placed(materia: Materia, turmaId: string, horarios: seq<Horario>)

  datatype Curso = Curso(
    id: string,
    nome: string,
    tipo: string,
    totalSemestres: int,
    implementado: bool,
    icone: string,
    matrizes: seq<string>,
    totalSemestresPorMatriz: map<string, int>)

  datatype Matriz = Matriz(id: string, nome: string, ano: int)

  /** `cursos.find(c => c.id === id)`: the first course with that id. */
  function CursoPorId(cursos: seq<Curso>, id: string): (r: Option<Curso>)
    ensures r.None? <==> forall i :: 0 <= i < |cursos| ==> cursos[i].id != id
    ensures r.Some? ==> exists i :: 0 <= i < |cursos| && cursos[i] == r.value && r.value.id == id
                          && forall j :: 0 <= j < i ==> cursos[j].id != id
  {
    if |cursos| == 0 then None
    else if cursos[0].id == id then Some(cursos[0])
    else
      var r := CursoPorId(cursos[1..], id);
      assert r.Some? ==> exists i :: 0 <= i < |cursos| && cursos[i] == r.value && r.value.id == id
                          && forall j :: 0 <= j < i ==> cursos[j].id != id
      by {
        if r.Some? {
          var i :| 0 <= i < |cursos[1..]| && cursos[1..][i] == r.value && r.value.id == id
                   && forall j :: 0 <= j < i ==> cursos[1..][j].id != id;
          assert cursos[i + 1] == r.value;
          assert forall j :: 1 <= j < i + 1 ==> cursos[j].id == cursos[1..][j - 1].id;
        }
      }
      r
  }

  // ---------------------------------------------------------------- course search

  /** A course matches a search term when its name or its id contains the term,
      ignoring case. */
  ghost predicate CasaBusca(c: Curso, termo: string)
  {
    (exists i :: OccursAt(ToLower(c.nome), ToLower(termo), i))
    || (exists i :: OccursAt(ToLower(c.id), ToLower(termo), i))
  }

  function FiltrarBusca(cs: seq<Curso>, t: string): (r: seq<Curso>)
    ensures IsSubseq(r, cs)
    ensures forall c :: c in r <==> c in cs && CasaBusca(c, t)
  {
    if |cs| == 0 then []
    else
      var rest := FiltrarBusca(cs[1..], t);
      assert cs == [cs[0]] + cs[1..];
      if Contains(ToLower(cs[0].nome), ToLower(t)) || Contains(ToLower(cs[0].id), ToLower(t))
      then [cs[0]] + rest
      else SubseqSkip(rest, cs); rest
  }

  /** The empty term matches every course. */
  lemma {:induction false} BuscaVaziaTudo(cs: seq<Curso>)
    ensures FiltrarBusca(cs, "") == cs
  {
    if |cs| > 0 {
      assert OccursAt(ToLower(cs[0].id), ToLower(""), 0);
      BuscaVaziaTudo(cs[1..]);
    }
  }
}

=== FILE: csv_cursos.dfy ===
/** The course side of the CSV loader: the course list built from the course rows
    (loadCursos) and the per-matrix semester totals computed from the subject rows
    (computeTotalSemestres). */
module CsvCursos {
  import opened Base
  import opened Text
  import opened OrderedMap
  import opened Sorting
  import opened Catalog
  import opened CsvLoader

  // ---------------------------------------------------------------- loadCursos

  /** The course id of a row: curso_id, id or curso, trimmed. */
  function IdDaLinha(r: Linha): string
  {
    Trim(Campo(r, ["curso_id", "id", "curso"]))
  }

  /** The course name of a row: nome or name, trimmed. */
  function NomeDaLinha(r: Linha): string
  {
    Trim(Campo(r, ["nome", "name"]))
  }

  /** The matrix id of a row: matriz, matrix or matriz_curricular, trimmed and normalised. */
  function MatrizDaLinha(r: Linha): string
  {
    NormalizeMatriz(Trim(Campo(r, ["matriz", "matrix", "matriz_curricular"])))
  }

  /** The entry the first row of a course creates: its name (the id when the row has
      none), its type as written (or "Bacharelado"), 8 semesters until they are
      computed, implemented unless the row's implementado cell says something other
      than "true" in any letter case, and no matrix yet. */
  function NovoCurso(r: Linha, id: string): Curso
  {
    var nome := NomeDaLinha(r);
    var tipo := Campo(r, ["tipo", "type"]);
    var impl := Campo(r, ["implementado"]);
    Curso(id, if nome == "" then id else nome, if tipo == "" then "Bacharelado" else tipo, 8,
          ToLower(if impl == "" then "true" else impl) == "true", "", [], map[])
  }

  /** One row of the forEach: a row without id changes nothing; the first row of an id
      creates its entry; a non-empty matrix id joins the entry's set of matrices. */
  function PassoCurso(m: OMap<Curso>, r: Linha): OMap<Curso>
  {
    var id := IdDaLinha(r);
    if id == "" then m
    else
      var c := match Get(m, id) case Some(c) => c case None => NovoCurso(r, id);
      var matriz := MatrizDaLinha(r);
      Put(m, id, if matriz == "" then c else c.(matrizes := Acrescenta(c.matrizes, matriz)))
  }

  /** The Map of courses after the given rows, keyed by id in order of creation. */
  function CursosDasLinhas(rows: seq<Linha>): OMap<Curso>
  {
    if |rows| == 0 then []
    else PassoCurso(CursosDasLinhas(rows[..|rows| - 1]), rows[|rows| - 1])
  }

  /** The index of the first row carrying this id. */
  function PrimeiraLinha(rows: seq<Linha>, id: string): (r: Option<nat>)
    ensures r.None? <==> forall j :: 0 <= j < |rows| ==> IdDaLinha(rows[j]) != id
    ensures r.Some? ==> r.value < |rows| && IdDaLinha(rows[r.value]) == id
                        && forall j :: 0 <= j < r.value ==> IdDaLinha(rows[j]) != id
  {
    if |rows| == 0 then None
    else
      var p := PrimeiraLinha(rows[..|rows| - 1], id);
      assert forall j :: 0 <= j < |rows| - 1 ==> rows[..|rows| - 1][j] == rows[j];
      if p.Some? then p
      else if IdDaLinha(rows[|rows| - 1]) == id then Some(|rows| - 1)
      else None
  }

  /** The non-empty matrix ids of the rows carrying this id, in row order. */
  function MatrizesDoCurso(rows: seq<Linha>, id: string): seq<string>
  {
    if |rows| == 0 then []
    else
      var ms := MatrizesDoCurso(rows[..|rows| - 1], id);
      var r := rows[|rows| - 1];
      if IdDaLinha(r) == id && MatrizDaLinha(r) != "" then ms + [MatrizDaLinha(r)] else ms
  }

  /** The non-empty course ids of the rows, in row order. */
  function IdsDasLinhas(rows: seq<Linha>): seq<string>
  {
    if |rows| == 0 then []
    else
      var ids := IdsDasLinhas(rows[..|rows| - 1]);
      var id := IdDaLinha(rows[|rows| - 1]);
      if id != "" then ids + [id] else ids
  }

  /** The entry a course id should have: none for the empty id or an id no row carries;
      otherwise the fields read from its first row and the distinct non-empty matrix ids
      of all its rows in order of first occurrence. */
  function CursoEsperado(rows: seq<Linha>, id: string): Option<Curso>
  {
    if id == "" then None
    else
      match PrimeiraLinha(rows, id)
      case None => None
      case Some(i) => Some(NovoCurso(rows[i], id).(matrizes := Dedup(MatrizesDoCurso(rows, id))))
  }

  /** A course id no row carries has no matrix ids. */
  lemma {:induction false} MatrizesSemLinha(rows: seq<Linha>, id: string)
    requires PrimeiraLinha(rows, id).None?
    ensures MatrizesDoCurso(rows, id) == []
  {
    if |rows| > 0 {
      var p := rows[..|rows| - 1];
      assert forall j :: 0 <= j < |p| ==> p[j] == rows[j];
      MatrizesSemLinha(p, id);
    }
  }

  /** The last row creates the entry of an id no earlier row carries. */
  lemma PassoNovoId(rows: seq<Linha>, id: string)
    requires |rows| > 0 && id != "" && IdDaLinha(rows[|rows| - 1]) == id
    requires PrimeiraLinha(rows[..|rows| - 1], id).None?
    requires Get(CursosDasLinhas(rows[..|rows| - 1]), id).None?
    ensures Get(CursosDasLinhas(rows), id) == CursoEsperado(rows, id)
  {
    var p := rows[..|rows| - 1];
    var r := rows[|rows| - 1];
    var matriz := MatrizDaLinha(r);
    var ms := MatrizesDoCurso(rows, id);
    assert ms == if matriz == "" then [] else [matriz] by { MatrizesSemLinha(p, id); }
    assert Dedup(ms) == ms by {
      if matriz != "" { assert [matriz][..0] == []; }
    }
    var c := NovoCurso(r, id);
    var x := if matriz == "" then c else c.(matrizes := Acrescenta(c.matrizes, matriz));
    assert CursosDasLinhas(rows) == Put(CursosDasLinhas(p), id, x);
    assert CursoEsperado(rows, id) == Some(x) by {
      assert PrimeiraLinha(rows, id) == Some(|rows| - 1);
    }
  }

  /** The last row adds its matrix to the entry of an id an earlier row created. */
  lemma PassoIdExistente(rows: seq<Linha>, id: string, c: Curso)
    requires |rows| > 0 && id != "" && IdDaLinha(rows[|rows| - 1]) == id
    requires PrimeiraLinha(rows[..|rows| - 1], id).Some?
    requires Get(CursosDasLinhas(rows[..|rows| - 1]), id) == Some(c)
    requires CursoEsperado(rows[..|rows| - 1], id) == Some(c)
    ensures Get(CursosDasLinhas(rows), id) == CursoEsperado(rows, id)
  {
    var p := rows[..|rows| - 1];
    var r := rows[|rows| - 1];
    var matriz := MatrizDaLinha(r);
    assert CursosDasLinhas(rows) == PassoCurso(CursosDasLinhas(p), r);
    var i := PrimeiraLinha(p, id).value;
    assert PrimeiraLinha(rows, id) == Some(i);
    assert rows[i] == p[i];
    var ms := MatrizesDoCurso(p, id);
    if matriz != "" {
      assert MatrizesDoCurso(rows, id) == ms + [matriz];
      assert (ms + [matriz])[..|ms|] == ms;
    } else {
      assert MatrizesDoCurso(rows, id) == ms;
    }
  }

  /** Every course id maps to the entry its rows describe. */
  lemma {:induction false} CursosDasLinhasGet(rows: seq<Linha>, id: string)
    ensures Get(CursosDasLinhas(rows), id) == CursoEsperado(rows, id)
  {
    if |rows| > 0 {
      CursosDasLinhasGet(rows[..|rows| - 1], id);
      var p := rows[..|rows| - 1];
      if IdDaLinha(rows[|rows| - 1]) == id && id != "" {
        if PrimeiraLinha(p, id).None? {
          PassoNovoId(rows, id);
        } else {
          PassoIdExistente(rows, id, Get(CursosDasLinhas(p), id).value);
        }
      }
    }
  }

  /** The Map's keys are the non-empty course ids in order of first occurrence, each once. */
  lemma {:induction false} CursosDasLinhasKeys(rows: seq<Linha>)
    ensures Keys(CursosDasLinhas(rows)) == Dedup(IdsDasLinhas(rows))
    ensures UniqueKeys(CursosDasLinhas(rows))
  {
    if |rows| > 0 {
      var p := rows[..|rows| - 1];
      CursosDasLinhasKeys(p);
      var id := IdDaLinha(rows[|rows| - 1]);
      if id != "" {
        var ids := IdsDasLinhas(p);
        assert (ids + [id])[..|ids|] == ids;
      }
    }
  }

  /** The comparator of the matrix sort as "a comes no later than b": two ids that both
      hold a year and a period by descending year * 100 + period, any other pair by
      descending text order. */
  predicate MatrizMaisRecente(a: string, b: string)
  {
    match (CasaAnoPeriodo(a, 0), CasaAnoPeriodo(b, 0))
    case (Some(ma), Some(mb)) => Pontuacao(mb) <= Pontuacao(ma)
    case _ => LexLe(b, a)
  }

  /** Any two matrix ids are ordered one way or the other. */
  lemma MatrizMaisRecenteTotal()
    ensures Total(MatrizMaisRecente)
  {
    forall a, b ensures MatrizMaisRecente(a, b) || MatrizMaisRecente(b, a) {
      LexLeTotal(a, b);
    }
  }

  /** Two period digits are worth less than 100. */
  lemma PeriodoAbaixoDeCem(p: string)
    requires |p| == 2 && AllDigits(p)
    ensures DigitsValue(p) < 100
  {
    var q := p[..1];
    assert AllDigits(q) && q[..0] == "" && q[0] == p[0];
    assert DigitsValue(q) == DigitValue(p[0]) < 10;
    assert DigitsValue(p) == DigitsValue(q) * 10 + DigitValue(p[1]);
  }

  /** On ids as normalizeMatriz leaves them, the comparator is exactly descending text
      order: for two "YYYY/PP" ids the score order is the text order, and any other
      pair is compared by text anyway. */
  lemma MatrizMaisRecenteNormalizadas(a: string, b: string)
    requires FormaNormal(a) && FormaNormal(b)
    ensures MatrizMaisRecente(a, b) <==> LexLe(b, a)
  {
    if CasaAnoPeriodo(a, 0).Some? && CasaAnoPeriodo(b, 0).Some? {
      var a4, a5, b4, b5 := a[..4], a[5..], b[..4], b[5..];
      assert a == a4 + ("/" + a5) && b == b4 + ("/" + b5);
      LexLeConcat(b4, "/" + b5, a4, "/" + a5);
      LexLeConcat("/", b5, "/", a5);
      DigitsLex(b4, a4);
      DigitsLex(b5, a5);
      PeriodoAbaixoDeCem(a5);
      PeriodoAbaixoDeCem(b5);
      var ya, pa, yb, pb := DigitsValue(a4), DigitsValue(a5), DigitsValue(b4), DigitsValue(b5);
      assert yb * 100 + pb <= ya * 100 + pa <==> yb < ya || (yb == ya && pb <= pa) by {
        if yb < ya { assert yb * 100 + 100 <= ya * 100; }
        if ya < yb { assert ya * 100 + 100 <= yb * 100; }
      }
    }
  }

  /** On raw ids the comparator is not transitive once ids with and without a year and a
      period are mixed: "2000/1" comes before "x1000/1" (by score), "x1000/1" before "5"
      and "5" before "2000/1" (both by text), each strictly. loadCursos never compares
      such ids: it sorts normalised ids only, on which MatrizMaisRecenteNormalizadas shows
      the order is plain descending text order. */
  lemma MatrizMaisRecenteCiclo(a: string, b: string, c: string)
    requires a == "2000/1" && b == "x1000/1" && c == "5"
    ensures MatrizMaisRecente(a, b) && !MatrizMaisRecente(b, a)
    ensures MatrizMaisRecente(b, c) && !MatrizMaisRecente(c, b)
    ensures MatrizMaisRecente(c, a) && !MatrizMaisRecente(a, c)
  {
    CasaAnoSeparadorPeriodo("2000", "/", "1");
    assert a == "2000" + "/" + "1";
    CasaDepoisDoX(b);
    assert CasaAnoPeriodo(c, 0).None?;
    assert DigitsValue("2000") == 2000 by {
      assert "2000"[..3] == "200" && "200"[..2] == "20" && "20"[..1] == "2";
    }
    assert DigitsValue("1000") == 1000 by {
      assert "1000"[..3] == "100" && "100"[..2] == "10" && "10"[..1] == "1";
    }
  }

  /** Proof helper for MatrizMaisRecenteCiclo: the match in "x1000/1" starts after the x. */
  lemma CasaDepoisDoX(b: string)
    requires b == "x1000/1"
    ensures CasaAnoPeriodo(b, 0) == Some(AnoPeriodo("1000", "1"))
  {
    assert !IsDigit(b[0..4][0]);
    assert CasaAnoPeriodo(b, 0) == CasaAnoPeriodo(b, 1);
    assert b[1..5] == "1000";
    ProximoDigitoEm(b, 5, 6);
    assert b[6..7] == "1";
  }

  /** An entry as the list shows it: its matrices sorted, most recent first. */
  function Finalizar(c: Curso): Curso
  {
    c.(matrizes := SortBy(c.matrizes, MatrizMaisRecente))
  }

  /** loadCursos' result: the Map's entries in order, each with its matrices sorted. */
  function CursosCarregados(rows: seq<Linha>): seq<Curso>
  {
    var m := CursosDasLinhas(rows);
    seq(|m|, i requires 0 <= i < |m| => Finalizar(m[i].value))
  }

  /** The forEach over the rows that fills the Map of courses. */
  method ColetarCursos(rows: seq<Linha>) returns (m: OMap<Curso>)
    ensures m == CursosDasLinhas(rows)
  {
    m := [];
    for k := 0 to |rows|
      invariant m == CursosDasLinhas(rows[..k])
    {
      assert rows[..k + 1][..k] == rows[..k];
      ghost var antes := m;
      var id := IdDaLinha(rows[k]);
      if id != "" {
        var c := match Get(m, id) case Some(c) => c case None => NovoCurso(rows[k], id);
        var matriz := MatrizDaLinha(rows[k]);
        if matriz != "" {
          c := c.(matrizes := Acrescenta(c.matrizes, matriz));
        }
        m := Put(m, id, c);
      }
      assert m == PassoCurso(antes, rows[k]);
    }
    assert rows[..|rows|] == rows;
  }

  /** loadCursos over parsed rows: one course per distinct non-empty id, in order of
      first occurrence, with the fields of its first row and its matrices deduplicated
      and sorted most recent first. */
  method LoadCursos(rows: seq<Linha>) returns (cursos: seq<Curso>)
    ensures cursos == CursosCarregados(rows)
  {
    var m := ColetarCursos(rows);
    cursos := seq(|m|, i requires 0 <= i < |m| => Finalizar(m[i].value));
  }

  /** Each entry of the Map is the entry its key's rows describe. */
  lemma EntradasEsperadas(rows: seq<Linha>)
    ensures var m := CursosDasLinhas(rows);
            Keys(m) == Dedup(IdsDasLinhas(rows))
            && forall i :: 0 <= i < |m| ==> CursoEsperado(rows, m[i].key) == Some(m[i].value)
  {
    var m := CursosDasLinhas(rows);
    CursosDasLinhasKeys(rows);
    forall i | 0 <= i < |m|
      ensures CursoEsperado(rows, m[i].key) == Some(m[i].value)
    {
      GetEntry(m, i);
      CursosDasLinhasGet(rows, m[i].key);
    }
  }

  /** The course list holds, for each distinct non-empty id in order of first
      occurrence, the entry its rows describe, with its matrices sorted most recent
      first and no matrix lost or repeated. */
  lemma CursosCarregadosSpec(rows: seq<Linha>)
    ensures var r := CursosCarregados(rows);
            var ids := Dedup(IdsDasLinhas(rows));
            |r| == |ids|
            && forall i :: 0 <= i < |r| ==>
                 CursoEsperado(rows, ids[i]).Some?
                 && r[i] == Finalizar(CursoEsperado(rows, ids[i]).value)
                 && r[i].id == ids[i]
                 && SortedBy(r[i].matrizes, MatrizMaisRecente)
                 && multiset(r[i].matrizes) == multiset(Dedup(MatrizesDoCurso(rows, ids[i])))
                 && forall j :: 0 < j < |r[i].matrizes| ==>
                      LexLe(r[i].matrizes[j], r[i].matrizes[j - 1]) && r[i].matrizes[j] != r[i].matrizes[j - 1]
  {
    EntradasEsperadas(rows);
    MatrizMaisRecenteTotal();
    var r := CursosCarregados(rows);
    var ids := Dedup(IdsDasLinhas(rows));
    forall i | 0 <= i < |r|
      ensures forall j :: 0 < j < |r[i].matrizes| ==>
                LexLe(r[i].matrizes[j], r[i].matrizes[j - 1]) && r[i].matrizes[j] != r[i].matrizes[j - 1]
    {
      var ms := r[i].matrizes;
      var todas := MatrizesDoCurso(rows, ids[i]);
      MatrizesNormais(rows, ids[i]);
      assert forall x :: x in ms ==> x in todas by {
        forall x | x in ms ensures x in todas {
          assert multiset(ms)[x] > 0;
        }
      }
      MatrizesPorTexto(ms);
      DistintosPermutacao(ms, Dedup(todas));
    }
  }

  /** Every matrix id collected for a course is a normalised id. */
  lemma {:induction false} MatrizesNormais(rows: seq<Linha>, id: string)
    ensures forall x :: x in MatrizesDoCurso(rows, id) ==> FormaNormal(x)
  {
    if |rows| > 0 {
      MatrizesNormais(rows[..|rows| - 1], id);
      NormalizeMatrizForma(Trim(Campo(rows[|rows| - 1], ["matriz", "matrix", "matriz_curricular"])));
    }
  }

  /** A list of normalised ids sorted by the comparator is in descending text order. */
  lemma MatrizesPorTexto(ms: seq<string>)
    requires SortedBy(ms, MatrizMaisRecente) && forall x :: x in ms ==> FormaNormal(x)
    ensures forall j :: 0 < j < |ms| ==> LexLe(ms[j], ms[j - 1])
  {
    forall j | 0 < j < |ms| ensures LexLe(ms[j], ms[j - 1]) {
      MatrizMaisRecenteNormalizadas(ms[j - 1], ms[j]);
    }
  }

  // ---------------------------------------------------------------- computeTotalSemestres

  /** The semester a subject row contributes to its course and matrix: only obligatory
      rows with a course and a matrix count, and only with a semester that is present,
      not "indefinido" in any letter case, a number and positive. */
  function SemestreContado(m: Materia): (r: Option<int>)
    ensures r.Some? ==> r.value > 0 && m.curso != "" && m.matriz != "" && m.tipo == "obrigatoria"
  {
    if m.curso == "" || m.matriz == "" || m.tipo != "obrigatoria" then None
    else
      var n := match m.semestre
        case SemNone => None
        case SemNum(n) => Some(n)
        case SemText(t) => if ToLower(t) == "indefinido" then None else NumberOfString(t);
      if n.Some? && n.value > 0 then n else None
  }

  /** The key "cursoId|matriz" of the totals Map. */
  function Chave(curso: string, matriz: string): string
  {
    curso + "|" + matriz
  }

  /** One subject row of the forEach: a counted semester above the key's current
      maximum (0 when absent) becomes the new maximum. */
  function PassoTotal(t: OMap<int>, m: Materia): OMap<int>
  {
    match SemestreContado(m)
    case None => t
    case Some(n) =>
      var key := Chave(m.curso, m.matriz);
      if n > GetOr(t, key, 0) then Put(t, key, n) else t
  }

  /** The totals Map after the given subject rows. */
  function Maximos(ms: seq<Materia>): OMap<int>
  {
    if |ms| == 0 then [] else PassoTotal(Maximos(ms[..|ms| - 1]), ms[|ms| - 1])
  }

  /** The row counts the semester `n` under this key. */
  predicate Conta(m: Materia, key: string, n: int)
  {
    SemestreContado(m) == Some(n) && Chave(m.curso, m.matriz) == key
  }

  /** The largest semester the rows count under this key, 0 when they count none. */
  function MaximoDe(ms: seq<Materia>, key: string): (r: nat)
  {
    if |ms| == 0 then 0
    else
      var r := MaximoDe(ms[..|ms| - 1], key);
      var m := ms[|ms| - 1];
      if SemestreContado(m).Some? && Chave(m.curso, m.matriz) == key && SemestreContado(m).value > r
      then SemestreContado(m).value else r
  }

  /** The maximum bounds every semester counted under the key, and a positive maximum is
      one of them. */
  lemma {:induction false} MaximoDeSpec(ms: seq<Materia>, key: string)
    ensures forall j, n :: 0 <= j < |ms| && Conta(ms[j], key, n) ==> n <= MaximoDe(ms, key)
    ensures MaximoDe(ms, key) > 0 ==> exists j :: 0 <= j < |ms| && Conta(ms[j], key, MaximoDe(ms, key))
  {
    if |ms| > 0 {
      var p := ms[..|ms| - 1];
      MaximoDeSpec(p, key);
      assert forall j :: 0 <= j < |p| ==> p[j] == ms[j];
      if MaximoDe(ms, key) > 0 && MaximoDe(ms, key) == MaximoDe(p, key) {
        var j :| 0 <= j < |p| && Conta(p[j], key, MaximoDe(p, key));
        assert Conta(ms[j], key, MaximoDe(ms, key));
      }
    }
  }

  /** The totals Map holds, under each key, the maximum of the semesters counted under
      it, and no key without one. */
  lemma {:induction false} MaximosGet(ms: seq<Materia>, key: string)
    ensures Get(Maximos(ms), key) == if MaximoDe(ms, key) > 0 then Some(MaximoDe(ms, key) as int) else None
  {
    if |ms| > 0 {
      MaximosGet(ms[..|ms| - 1], key);
    }
  }

  /** The total a matrix gets: the computed maximum when it is positive, 8 otherwise. */
  function TotalDaMatriz(t: OMap<int>, curso: string, matriz: string): int
  {
    match Get(t, Chave(curso, matriz))
    case Some(c) => if c > 0 then c else 8
    case None => 8
  }

  /** A course after the totals are applied: unchanged without matrices; otherwise each
      of its matrices gets its total in totalSemestresPorMatriz (other entries kept) and
      totalSemestres is the total of its first, most recent, matrix. */
  function CursoComTotais(c: Curso, t: OMap<int>): Curso
  {
    if |c.matrizes| == 0 then c
    else
      c.(totalSemestresPorMatriz := c.totalSemestresPorMatriz + map m | m in c.matrizes :: TotalDaMatriz(t, c.id, m),
         totalSemestres := TotalDaMatriz(t, c.id, c.matrizes[0]))
  }

  /** The inner forEach: every matrix of the course gets its total; other entries stay. */
  method TotaisPorMatriz(porMatriz: map<string, int>, id: string, matrizes: seq<string>, t: OMap<int>)
    returns (r: map<string, int>)
    ensures r == porMatriz + map m | m in matrizes :: TotalDaMatriz(t, id, m)
  {
    r := porMatriz;
    for k := 0 to |matrizes|
      invariant forall m :: m in r <==> m in porMatriz || m in matrizes[..k]
      invariant forall m :: m in r ==> r[m] == if m in matrizes[..k] then TotalDaMatriz(t, id, m) else porMatriz[m]
    {
      assert forall m :: m in matrizes[..k + 1] <==> m in matrizes[..k] || m == matrizes[k];
      r := r[matrizes[k] := TotalDaMatriz(t, id, matrizes[k])];
    }
    assert matrizes[..|matrizes|] == matrizes;
  }

  /** The first forEach: the maxima of the semesters counted under each key. */
  method MaximosDasMaterias(materias: seq<Materia>) returns (t: OMap<int>)
    ensures t == Maximos(materias)
  {
    t := [];
    for k := 0 to |materias|
      invariant t == Maximos(materias[..k])
    {
      assert materias[..k + 1][..k] == materias[..k];
      var n := SemestreContado(materias[k]);
      if n.Some? {
        var key := Chave(materias[k].curso, materias[k].matriz);
        var atual := GetOr(t, key, 0);
        if n.value > atual {
          t := Put(t, key, n.value);
        }
      }
    }
    assert materias[..|materias|] == materias;
  }

  /** computeTotalSemestres: the maxima over the subject rows, then every course with
      matrices gets the totals of its matrices; the courses are updated in place. */
  method ComputeTotalSemestres(cursos: array<Curso>, materias: seq<Materia>)
    modifies cursos
    ensures forall i :: 0 <= i < cursos.Length ==> cursos[i] == CursoComTotais(old(cursos[i]), Maximos(materias))
  {
    var t := MaximosDasMaterias(materias);
    for i := 0 to cursos.Length
      invariant forall j :: 0 <= j < i ==> cursos[j] == CursoComTotais(old(cursos[j]), t)
      invariant forall j :: i <= j < cursos.Length ==> cursos[j] == old(cursos[j])
    {
      var c := cursos[i];
      if |c.matrizes| > 0 {
        var porMatriz := TotaisPorMatriz(c.totalSemestresPorMatriz, c.id, c.matrizes, t);
        cursos[i] := c.(totalSemestresPorMatriz := porMatriz, totalSemestres := TotalDaMatriz(t, c.id, c.matrizes[0]));
      }
    }
  }

  /** Each matrix of a course ends with the largest semester its obligatory subjects
      count (8 when they count none), totalSemestres agrees with the entry of the first
      matrix, and nothing else of the course changes. */
  lemma CursoComTotaisSpec(c: Curso, ms: seq<Materia>)
    requires |c.matrizes| > 0
    ensures var r := CursoComTotais(c, Maximos(ms));
            (forall m :: m in c.matrizes ==>
               (m in r.totalSemestresPorMatriz
                && r.totalSemestresPorMatriz[m] == if MaximoDe(ms, Chave(c.id, m)) > 0 then MaximoDe(ms, Chave(c.id, m)) else 8))
            && (forall m :: m !in c.matrizes && m in c.totalSemestresPorMatriz ==>
                 (m in r.totalSemestresPorMatriz && r.totalSemestresPorMatriz[m] == c.totalSemestresPorMatriz[m]))
            && (forall m :: m in r.totalSemestresPorMatriz ==> m in c.matrizes || m in c.totalSemestresPorMatriz)
            && r.totalSemestres == r.totalSemestresPorMatriz[c.matrizes[0]]
            && r == c.(totalSemestresPorMatriz := r.totalSemestresPorMatriz, totalSemestres := r.totalSemestres)
  {
    forall m | m in c.matrizes {
      MaximosGet(ms, Chave(c.id, m));
    }
  }
}

=== FILE: csv_loader.dfy ===
/** The row transformations of the CSV loader: the prerequisite-field grammar, the
    matrix-id normalisation, the course list built from the course rows (one entry per
    id, its matrices deduplicated and sorted), the per-matrix semester totals computed
    from the subject rows, and the reading of a subject row with its sections (slot
    normalisation of JSON sections and the compact "d-h" notation). Fetching the files
    and PapaParse are not part of this model: a parsed row is a map from column header to
    cell text, and whether a sections cell is JSON is a parameter. */
module CsvLoader {
  import opened Base
  import opened Text
  import opened OrderedMap
  import opened Sorting
  import opened Catalog

  // ---------------------------------------------------------------- rows

  /** A parsed CSV row: column header to cell text (PapaParse with `header: true`). */
  type Linha = OMap<string>

  /** `r.a || r.b || ... || ''`: the first non-empty cell among the named columns. */
  function Campo(r: Linha, colunas: seq<string>): (v: string)
    ensures v == "" <==> forall i :: 0 <= i < |colunas| ==> GetOr(r, colunas[i], "") == ""
    ensures v != "" ==> exists i :: 0 <= i < |colunas| && GetOr(r, colunas[i], "") == v
  {
    if |colunas| == 0 then ""
    else
      var c := GetOr(r, colunas[0], "");
      if c != "" then c
      else
        var v := Campo(r, colunas[1..]);
        assert forall i :: 1 <= i < |colunas| ==> colunas[i] == colunas[1..][i - 1];
        v
  }

  // ---------------------------------------------------------------- year and period

  /** A match of `/(\d{4})\D*(\d{1,2})/`: the four year digits and the one or two
      period digits. */
  datatype AnoPeriodo = AnoPeriodo(ano: string, periodo: string)

  /** The first index at or after `j` holding a digit, |s| when there is none. */
  function ProximoDigito(s: string, j: nat): (r: nat)
    requires j <= |s|
    ensures j <= r <= |s|
    ensures r < |s| ==> IsDigit(s[r])
    ensures forall t :: j <= t < r ==> !IsDigit(s[t])
    decreases |s| - j
  {
    if j == |s| || IsDigit(s[j]) then j else ProximoDigito(s, j + 1)
  }

  /** `/(\d{4})\D*(\d{1,2})/` matches at `i`: four digits, then a digit after the
      non-digits that follow them. */
  predicate AnoPeriodoEm(s: string, i: nat)
  {
    i + 4 < |s| && AllDigits(s[i..i + 4]) && ProximoDigito(s, i + 4) < |s|
  }

  /** The groups of the match at `i`: the four year digits, then the next digit and,
      when it is also a digit, the one after it. */
  function CapturaAnoPeriodo(s: string, i: nat): (r: AnoPeriodo)
    requires AnoPeriodoEm(s, i)
    ensures |r.ano| == 4 && AllDigits(r.ano) && 1 <= |r.periodo| <= 2 && AllDigits(r.periodo)
  {
    var j := ProximoDigito(s, i + 4);
    AnoPeriodo(s[i..i + 4], if j + 1 < |s| && IsDigit(s[j + 1]) then s[j..j + 2] else s[j..j + 1])
  }

  /** The leftmost match of `/(\d{4})\D*(\d{1,2})/` starting at or after `i`. */
  function CasaAnoPeriodo(s: string, i: nat): (r: Option<AnoPeriodo>)
    ensures r.Some? ==> |r.value.ano| == 4 && AllDigits(r.value.ano)
                        && 1 <= |r.value.periodo| <= 2 && AllDigits(r.value.periodo)
    decreases |s| - i
  {
    if i + 4 >= |s| then None
    else if AnoPeriodoEm(s, i) then Some(CapturaAnoPeriodo(s, i))
    else CasaAnoPeriodo(s, i + 1)
  }

  /** No match iff the pattern matches at no position from `i` on. */
  lemma {:induction false} CasaAnoPeriodoNenhuma(s: string, i: nat)
    ensures CasaAnoPeriodo(s, i).None? <==> forall j :: i <= j ==> !AnoPeriodoEm(s, j)
    decreases |s| - i
  {
    if i + 4 < |s| {
      CasaAnoPeriodoNenhuma(s, i + 1);
    }
  }

  /** The match found is the one at the leftmost position where the pattern matches. */
  lemma {:induction false} CasaAnoPeriodoPrimeira(s: string, i: nat, j: nat)
    requires i <= j && AnoPeriodoEm(s, j) && forall t :: i <= t < j ==> !AnoPeriodoEm(s, t)
    ensures CasaAnoPeriodo(s, i) == Some(CapturaAnoPeriodo(s, j))
    decreases j - i
  {
    if i < j {
      CasaAnoPeriodoPrimeira(s, i + 1, j);
    }
  }

  /** `Number(m[1]) * 100 + Number(m[2])`. */
  function Pontuacao(m: AnoPeriodo): nat
    requires AllDigits(m.ano) && AllDigits(m.periodo)
  {
    DigitsValue(m.ano) * 100 + DigitsValue(m.periodo)
  }

  /** The next digit is the first digit at or after `j`. */
  lemma ProximoDigitoEm(s: string, j: nat, k: nat)
    requires j <= k < |s| && IsDigit(s[k])
    requires forall t :: j <= t < k ==> !IsDigit(s[t])
    ensures ProximoDigito(s, j) == k
  {
  }

  /** A year, a separator without digits and a period of one or two digits match as
      that year and that period. */
  lemma CasaAnoSeparadorPeriodo(ano: string, sep: string, periodo: string)
    requires |ano| == 4 && AllDigits(ano) && 1 <= |periodo| <= 2 && AllDigits(periodo)
    requires forall i :: 0 <= i < |sep| ==> !IsDigit(sep[i])
    ensures CasaAnoPeriodo(ano + sep + periodo, 0) == Some(AnoPeriodo(ano, periodo))
  {
    var s := ano + sep + periodo;
    var j := 4 + |sep|;
    assert s[0..4] == ano;
    assert s[j..] == periodo;
    ProximoDigitoEm(s, 4, j);
    if |periodo| == 2 {
      assert s[j..j + 2] == periodo;
    } else {
      assert s[j..j + 1] == periodo;
    }
  }

  // ---------------------------------------------------------------- normalizeMatriz

  /** normalizeMatriz: the empty id stays empty; otherwise the trimmed id, rewritten
      as "YYYY/PP" (period zero-padded) when it holds a year and a period. */
  function NormalizeMatriz(m: string): (r: string)
  {
    if m == "" then ""
    else
      var s := Trim(m);
      match CasaAnoPeriodo(s, 0)
      case Some(ap) => ap.ano + "/" + PadStart2(ap.periodo)
      case None => s
  }

  /** "YYYY<separator>P" becomes "YYYY/0P" and "YYYY<separator>PP" becomes "YYYY/PP". */
  lemma NormalizeMatrizAnoPeriodo(ano: string, sep: string, periodo: string)
    requires |ano| == 4 && AllDigits(ano) && 1 <= |periodo| <= 2 && AllDigits(periodo)
    requires forall i :: 0 <= i < |sep| ==> !IsDigit(sep[i])
    ensures NormalizeMatriz(ano + sep + periodo) == ano + "/" + PadStart2(periodo)
  {
    var s := ano + sep + periodo;
    assert s[0] == ano[0] && s[|s| - 1] == periodo[|periodo| - 1];
    TrimNoSpace(s);
    CasaAnoSeparadorPeriodo(ano, sep, periodo);
  }

  /** The rewritten form "YYYY/PP" of a match, which matches as itself. */
  lemma FormaNormalizada(ap: AnoPeriodo)
    requires |ap.ano| == 4 && AllDigits(ap.ano) && 1 <= |ap.periodo| <= 2 && AllDigits(ap.periodo)
    ensures var r := ap.ano + "/" + PadStart2(ap.periodo);
            |r| == 7 && AllDigits(r[..4]) && r[4] == '/' && AllDigits(r[5..])
            && CasaAnoPeriodo(r, 0) == Some(AnoPeriodo(r[..4], r[5..]))
  {
    var p := PadStart2(ap.periodo);
    if |ap.periodo| == 1 {
      assert p == ['0', ap.periodo[0]];
    } else {
      assert p == ap.periodo;
    }
    assert AllDigits(p);
    var r := ap.ano + "/" + p;
    assert r[..4] == ap.ano && r[5..] == p;
    CasaAnoSeparadorPeriodo(ap.ano, "/", p);
  }

  /** A normalised id that holds a year and a period is exactly "YYYY/PP". */
  lemma NormalizeMatrizFormato(m: string)
    requires m != "" && CasaAnoPeriodo(Trim(m), 0).Some?
    ensures var r := NormalizeMatriz(m);
            |r| == 7 && AllDigits(r[..4]) && r[4] == '/' && AllDigits(r[5..])
            && CasaAnoPeriodo(r, 0) == Some(AnoPeriodo(r[..4], r[5..]))
  {
    FormaNormalizada(CasaAnoPeriodo(Trim(m), 0).value);
  }

  /** What normalizeMatriz can return: "YYYY/PP", matching as itself, or an id that
      holds no year and period. */
  predicate FormaNormal(m: string)
  {
    CasaAnoPeriodo(m, 0).None?
    || (|m| == 7 && AllDigits(m[..4]) && m[4] == '/' && AllDigits(m[5..])
        && CasaAnoPeriodo(m, 0) == Some(AnoPeriodo(m[..4], m[5..])))
  }

  /** Every normalised id has one of the two forms. */
  lemma NormalizeMatrizForma(m: string)
    ensures FormaNormal(NormalizeMatriz(m))
  {
    if m != "" && CasaAnoPeriodo(Trim(m), 0).Some? {
      NormalizeMatrizFormato(m);
    }
  }

  /** A normalised id without surrounding blanks is left as it is. */
  lemma NormalizeMatrizFixo(r: string)
    requires FormaNormal(r) && NoSpaceAtEnds(r)
    ensures NormalizeMatriz(r) == r
  {
    if r != "" {
      TrimNoSpace(r);
      if CasaAnoPeriodo(r, 0).Some? {
        var p := r[5..];
        assert |p| == 2 && PadStart2(p)[0..] == p;
        assert r == r[..4] + "/" + p;
      }
    }
  }

  /** "DDDD/DD" has no blank at either end. */
  lemma AnoPeriodoSemEspacos(r: string)
    requires |r| == 7 && AllDigits(r[..4]) && AllDigits(r[5..])
    ensures NoSpaceAtEnds(r)
  {
    assert r[0] == r[..4][0] && r[6] == r[5..][1];
  }

  /** A normalised id has no blank at either end. */
  lemma NormalizeMatrizSemEspacos(m: string)
    ensures NoSpaceAtEnds(NormalizeMatriz(m))
  {
    if m != "" {
      if CasaAnoPeriodo(Trim(m), 0).Some? {
        NormalizeMatrizFormato(m);
        AnoPeriodoSemEspacos(NormalizeMatriz(m));
      } else {
        TrimSemEspacos(m);
      }
    }
  }

  /** Normalising twice is normalising once. */
  lemma NormalizeMatrizIdempotente(m: string)
    ensures NormalizeMatriz(NormalizeMatriz(m)) == NormalizeMatriz(m)
  {
    NormalizeMatrizForma(m);
    NormalizeMatrizSemEspacos(m);
    NormalizeMatrizFixo(NormalizeMatriz(m));
  }

  // ---------------------------------------------------------------- parsePreRequisitosString

  /** The three labels of a prerequisite field. */
  datatype Rotulo = Forte | Minimo | Coreq

  /** A word character of `\b`: an ASCII letter, a digit or '_'. */
  predicate IsWordChar(c: char)
  {
    'a' <= c <= 'z' || 'A' <= c <= 'Z' || IsDigit(c) || c == '_'
  }

  /** `\b` at index `i`: a word character on exactly one side. */
  predicate Fronteira(s: string, i: nat)
  {
    (0 < i <= |s| && IsWordChar(s[i - 1])) != (i < |s| && IsWordChar(s[i]))
  }

  /** The lower-case ASCII word `w` at index `i`, in any letter case (the `i` flag). */
  predicate PalavraEm(s: string, i: nat, w: string)
  {
    i + |w| <= |s| && forall t :: 0 <= t < |w| ==> ToLowerChar(s[i + t]) == w[t]
  }

  /** The index just past the label word at `i`, if there is one: "Forte", "Minimo",
      or "Co", an optional '-', then "requisito". */
  function FimDoRotulo(s: string, i: nat, rot: Rotulo): (r: Option<nat>)
    ensures r.Some? ==> i < r.value <= |s|
  {
    match rot
    case Forte => if PalavraEm(s, i, "forte") then Some(i + 5) else None
    case Minimo => if PalavraEm(s, i, "minimo") then Some(i + 6) else None
    case Coreq =>
      if !PalavraEm(s, i, "co") then None
      else
        var j := if i + 2 < |s| && s[i + 2] == '-' then i + 3 else i + 2;
        if PalavraEm(s, j, "requisito") then Some(j + 9) else None
  }

  /** A label as a whole word at `i` (`\bForte\b`, `\bMinimo\b`, `\bCo-?requisito\b`). */
  predicate RotuloIsolado(s: string, i: nat, rot: Rotulo)
  {
    Fronteira(s, i) && FimDoRotulo(s, i, rot).Some? && Fronteira(s, FimDoRotulo(s, i, rot).value)
  }

  /** hasLabel: some label occurs as a whole word at or after `i`. */
  function TemRotulo(s: string, i: nat): (b: bool)
    ensures b <==> exists j, rot :: i <= j < |s| && RotuloIsolado(s, j, rot)
    decreases |s| - i
  {
    if i >= |s| then false
    else if RotuloIsolado(s, i, Forte) || RotuloIsolado(s, i, Minimo) || RotuloIsolado(s, i, Coreq) then true
    else
      var b := TemRotulo(s, i + 1);
      assert forall rot :: !RotuloIsolado(s, i, rot);
      b
  }

  /** The first index at or after `i` that is not whitespace (`\s*`). */
  function PulaEspacos(s: string, i: nat): (r: nat)
    requires i <= |s|
    ensures i <= r <= |s|
    ensures r < |s| ==> !IsSpace(s[r])
    ensures forall t :: i <= t < r ==> IsSpace(s[t])
    decreases |s| - i
  {
    if i == |s| || !IsSpace(s[i]) then i else PulaEspacos(s, i + 1)
  }

  predicate IsLineTerminator(c: char)
  {
    c == '\n' || c == '\r' || c == '\U{2028}' || c == '\U{2029}'
  }

  /** `(.*)`: the characters before the first line terminator. */
  function AteFimDaLinha(s: string): (r: string)
    ensures |r| <= |s| && r == s[..|r|]
    ensures forall t :: 0 <= t < |r| ==> !IsLineTerminator(r[t])
  {
    if |s| == 0 || IsLineTerminator(s[0]) then ""
    else
      var rest := AteFimDaLinha(s[1..]);
      [s[0]] + rest
  }

  /** The label of `rot` starts at `i` and is followed, after optional whitespace, by a
      colon: where `/<label>\s*:\s*(.*)/i` can match. */
  predicate RotuloComDoisPontos(s: string, i: nat, rot: Rotulo)
  {
    FimDoRotulo(s, i, rot).Some?
    && var k := PulaEspacos(s, FimDoRotulo(s, i, rot).value);
       k < |s| && s[k] == ':'
  }

  /** The pattern of `rot` matches somewhere in `s`. */
  ghost predicate CasaRotulo(s: string, rot: Rotulo)
  {
    exists i :: 0 <= i < |s| && RotuloComDoisPontos(s, i, rot)
  }

  /** The text the pattern captures when it matches at `i`: the rest of the line after
      the colon and the whitespace behind it. */
  function CapturaEm(s: string, i: nat, rot: Rotulo): string
    requires RotuloComDoisPontos(s, i, rot)
  {
    var k := PulaEspacos(s, FimDoRotulo(s, i, rot).value);
    AteFimDaLinha(s[PulaEspacos(s, k + 1)..])
  }

  /** The capture of `/<label>\s*:\s*(.*)/i` on `s`, trying start positions from `i`:
      the capture at the first position where the pattern matches. */
  function CapturaRotulo(s: string, i: nat, rot: Rotulo): Option<string>
    decreases |s| - i
  {
    if i >= |s| then None
    else if RotuloComDoisPontos(s, i, rot) then Some(CapturaEm(s, i, rot))
    else CapturaRotulo(s, i + 1, rot)
  }

  /** `x.split(/[;,]+/).map(x => x.trim()).filter(Boolean)` */
  function Itens(x: string): seq<string>
  {
    TrimNonEmpty(Split(x, {';', ','}))
  }

  /** The list a labelled-mode part goes to, with its items: the first of Forte, Minimo
      and Co-requisito whose pattern the part holds, with the captured text; a part with
      none of them goes to forte whole. */
  function ClassificarParte(p: string): (Rotulo, seq<string>)
  {
    match CapturaRotulo(p, 0, Forte)
    case Some(c) => (Forte, Itens(c))
    case None =>
      match CapturaRotulo(p, 0, Minimo)
      case Some(c) => (Minimo, Itens(c))
      case None =>
        match CapturaRotulo(p, 0, Coreq)
        case Some(c) => (Coreq, Itens(c))
        case None => (Forte, Itens(p))
  }

  /** The label and the items of each part, in order. */
  function Classificar(partes: seq<string>): (cs: seq<(Rotulo, seq<string>)>)
    ensures |cs| == |partes| && forall i :: 0 <= i < |partes| ==> cs[i] == ClassificarParte(partes[i])
  {
    seq(|partes|, i requires 0 <= i < |partes| => ClassificarParte(partes[i]))
  }

  /** The three lists after the items of the classified parts, in order, have been
      pushed onto the list each part's label names. */
  function Acumular(cs: seq<(Rotulo, seq<string>)>): PreReqs
  {
    if |cs| == 0 then PreReqs([], [], [])
    else
      var acc := Acumular(cs[..|cs| - 1]);
      var (rot, itens) := cs[|cs| - 1];
      match rot
      case Forte => acc.(forte := acc.forte + itens)
      case Minimo => acc.(minimo := acc.minimo + itens)
      case Coreq => acc.(coreq := acc.coreq + itens)
  }

  /** The characters a normalised code keeps: `[A-Za-z0-9_-]`. */
  predicate IsCodeChar(c: char)
  {
    'a' <= c <= 'z' || 'A' <= c <= 'Z' || IsDigit(c) || c == '_' || c == '-'
  }

  /** A normalised code: non-empty, upper-case letters, digits, '_' and '-'. */
  predicate CodigoNormalizado(x: string)
  {
    |x| > 0 && forall t :: 0 <= t < |x| ==> (IsCodeChar(x[t]) && !('a' <= x[t] <= 'z'))
  }

  /** `code.replace(/[^A-Za-z0-9_-]/g, '')` */
  function SoCodigo(x: string): (r: string)
    ensures forall t :: 0 <= t < |r| ==> IsCodeChar(r[t])
    ensures IsSubseq(r, x)
    ensures forall c :: multiset(r)[c] == if IsCodeChar(c) then multiset(x)[c] else 0
  {
    if |x| == 0 then ""
    else
      var rest := SoCodigo(x[1..]);
      assert x == [x[0]] + x[1..];
      if IsCodeChar(x[0]) then [x[0]] + rest else rest
  }

  /** Every code with its stray characters removed and upper-cased, empties included. */
  function Limpos(xs: seq<string>): (r: seq<string>)
    ensures |r| == |xs| && forall k :: 0 <= k < |xs| ==> r[k] == ToUpper(SoCodigo(xs[k]))
  {
    seq(|xs|, k requires 0 <= k < |xs| => ToUpper(SoCodigo(xs[k])))
  }

  /** The code normalisation: stray characters removed, upper-cased, empties dropped. */
  function NormalizarCodigos(xs: seq<string>): (r: seq<string>)
    ensures forall k :: 0 <= k < |r| ==> CodigoNormalizado(r[k])
    ensures |r| <= |xs|
  {
    if |xs| == 0 then []
    else
      var c := ToUpper(SoCodigo(xs[0]));
      var rest := NormalizarCodigos(xs[1..]);
      if c == "" then rest else [c] + rest
  }

  /** Each code becomes its cleaned, upper-cased form, in order, and only the codes
      that become empty are dropped. */
  lemma {:induction false} NormalizarCodigosExato(xs: seq<string>)
    ensures IsSubseq(NormalizarCodigos(xs), Limpos(xs))
    ensures forall c :: multiset(NormalizarCodigos(xs))[c] == if c == "" then 0 else multiset(Limpos(xs))[c]
  {
    if |xs| > 0 {
      NormalizarCodigosExato(xs[1..]);
      var c := ToUpper(SoCodigo(xs[0]));
      var rest := NormalizarCodigos(xs[1..]);
      assert Limpos(xs) == [c] + Limpos(xs[1..]);
      if c == "" {
        assert NormalizarCodigos(xs) == rest;
        SubseqSkip(rest, Limpos(xs));
      } else {
        assert NormalizarCodigos(xs) == [c] + rest;
        assert ([c] + Limpos(xs[1..]))[1..] == Limpos(xs[1..]);
      }
    }
  }

  /** parsePreRequisitosString as a value: empty lists for a blank field; without any
      label, every `,`/`|`/`/`-separated item under forte as written; with labels, the
      parts between `;` and newlines sorted by label and their codes normalised. */
  function PreRequisitosDe(pre: string): PreReqs
  {
    var s := Trim(pre);
    if s == "" then PreReqs([], [], [])
    else if !TemRotulo(s, 0) then PreReqs(TrimNonEmpty(Split(s, {',', '|', '/'})), [], [])
    else
      var acc := Acumular(Classificar(TrimNonEmpty(Split(s, {';', '\n'}))));
      PreReqs(NormalizarCodigos(acc.forte), NormalizarCodigos(acc.minimo), NormalizarCodigos(acc.coreq))
  }

  /** parsePreRequisitosString: the parts are classified one by one and their items
      pushed onto the list their label names. */
  method ParsePreRequisitosString(pre: string) returns (r: PreReqs)
    ensures r == PreRequisitosDe(pre)
  {
    var s := Trim(pre);
    if s == "" {
      return PreReqs([], [], []);
    }
    var partes := TrimNonEmpty(Split(s, {';', '\n'}));
    var temRotulo := TemRotulo(s, 0);
    if !temRotulo {
      return PreReqs(TrimNonEmpty(Split(s, {',', '|', '/'})), [], []);
    }
    var forte, minimo, coreq := [], [], [];
    for k := 0 to |partes|
      invariant PreReqs(forte, minimo, coreq) == Acumular(Classificar(partes)[..k])
    {
      assert Classificar(partes)[..k + 1][..k] == Classificar(partes)[..k];
      var (rot, itens) := ClassificarParte(partes[k]);
      match rot {
        case Forte => forte := forte + itens;
        case Minimo => minimo := minimo + itens;
        case Coreq => coreq := coreq + itens;
      }
    }
    assert Classificar(partes)[..|partes|] == Classificar(partes);
    r := PreReqs(NormalizarCodigos(forte), NormalizarCodigos(minimo), NormalizarCodigos(coreq));
  }

  /** A blank field gives three empty lists. */
  lemma PreRequisitosVazios(pre: string)
    requires Trim(pre) == ""
    ensures PreRequisitosDe(pre) == PreReqs([], [], [])
  {
  }

  /** With a label anywhere, every code of the three lists is normalised. */
  lemma PreRequisitosRotuladosNormalizados(pre: string)
    requires TemRotulo(Trim(pre), 0)
    ensures var r := PreRequisitosDe(pre);
            (forall k :: 0 <= k < |r.forte| ==> CodigoNormalizado(r.forte[k]))
            && (forall k :: 0 <= k < |r.minimo| ==> CodigoNormalizado(r.minimo[k]))
            && (forall k :: 0 <= k < |r.coreq| ==> CodigoNormalizado(r.coreq[k]))
  {
  }

  /** Without any label the whole field is forte: its `,`/`|`/`/`-separated items,
      trimmed and non-empty, each a piece of the field as written (no code clean-up),
      and a field without separators is the single item it is; minimo and coreq stay
      empty. */
  lemma PreRequisitosSemRotulo(pre: string)
    requires Trim(pre) != "" && !TemRotulo(Trim(pre), 0)
    ensures var r := PreRequisitosDe(pre);
            r.forte == TrimNonEmpty(Split(Trim(pre), {',', '|', '/'}))
            && r.minimo == [] && r.coreq == []
            && forall k :: 0 <= k < |r.forte| ==>
                 |r.forte[k]| > 0 && NoSpaceAtEnds(r.forte[k]) && Contains(Trim(pre), r.forte[k])
                 && forall i :: 0 <= i < |r.forte[k]| ==> r.forte[k][i] !in {',', '|', '/'}
    ensures (forall i :: 0 <= i < |Trim(pre)| ==> Trim(pre)[i] !in {',', '|', '/'})
            ==> PreRequisitosDe(pre).forte == [Trim(pre)]
  {
    var s := Trim(pre);
    var seps := {',', '|', '/'};
    SplitContido(s, seps);
    TrimNonEmptyContido(Split(s, seps), s);
    TrimNonEmptySem(Split(s, seps), seps);
    if forall i :: 0 <= i < |s| ==> s[i] !in seps {
      SplitSemSeparador(s, seps);
      TrimSemEspacos(pre);
      TrimNoSpace(s);
    }
  }

  /** No capture where the label word never starts. */
  lemma {:induction false} CapturaAusente(s: string, i: nat, rot: Rotulo)
    requires forall j :: i <= j < |s| ==> FimDoRotulo(s, j, rot).None?
    ensures CapturaRotulo(s, i, rot).None?
    decreases |s| - i
  {
    if i < |s| {
      CapturaAusente(s, i + 1, rot);
    }
  }

  /** CapturaRotulo captures at the leftmost position where the pattern matches. */
  lemma {:induction false} CapturaRotuloBusca(s: string, i: nat, rot: Rotulo)
    ensures CapturaRotulo(s, i, rot)
            == match PrimeiraPosicao(i, |s|, (t: nat) => RotuloComDoisPontos(s, t, rot))
               case Some(j) => Some(CapturaEm(s, j, rot))
               case None => None
    decreases |s| - i
  {
    if i < |s| {
      CapturaRotuloBusca(s, i + 1, rot);
    }
  }

  /** CapturaRotulo finds nothing iff the pattern matches at no position from `i` on. */
  lemma CapturaRotuloNenhuma(s: string, i: nat, rot: Rotulo)
    ensures CapturaRotulo(s, i, rot).None? <==> forall j :: i <= j < |s| ==> !RotuloComDoisPontos(s, j, rot)
  {
    var p := (t: nat) => RotuloComDoisPontos(s, t, rot);
    CapturaRotuloBusca(s, i, rot);
    PrimeiraPosicaoNenhuma(i, |s|, p);
    if CapturaRotulo(s, i, rot).None? {
      forall j | i <= j < |s| ensures !RotuloComDoisPontos(s, j, rot) {
        assert !p(j);
      }
    } else {
      var j := PrimeiraPosicao(i, |s|, p).value;
      assert i <= j < |s| && RotuloComDoisPontos(s, j, rot);
    }
  }

  /** The capture is taken at the leftmost position where the pattern matches. */
  lemma CapturaRotuloPrimeira(s: string, i: nat, j: nat, rot: Rotulo)
    requires i <= j < |s| && RotuloComDoisPontos(s, j, rot)
    requires forall t :: i <= t < j ==> !RotuloComDoisPontos(s, t, rot)
    ensures CapturaRotulo(s, i, rot) == Some(CapturaEm(s, j, rot))
  {
    CapturaRotuloBusca(s, i, rot);
    PrimeiraPosicaoEm(i, j, |s|, (t: nat) => RotuloComDoisPontos(s, t, rot));
  }

  /** The routing of a labelled-mode part: to minimo iff only a Minimo pattern comes
      first, to coreq iff only a Co-requisito pattern matches, else to forte; a part
      matching no pattern goes to forte with its own items. */
  lemma ClassificarParteSpec(p: string)
    ensures ClassificarParte(p).0 == Minimo <==> !CasaRotulo(p, Forte) && CasaRotulo(p, Minimo)
    ensures ClassificarParte(p).0 == Coreq <==>
              !CasaRotulo(p, Forte) && !CasaRotulo(p, Minimo) && CasaRotulo(p, Coreq)
    ensures ClassificarParte(p).0 == Forte <==>
              CasaRotulo(p, Forte) || (!CasaRotulo(p, Minimo) && !CasaRotulo(p, Coreq))
    ensures !CasaRotulo(p, Forte) && !CasaRotulo(p, Minimo) && !CasaRotulo(p, Coreq) ==>
              ClassificarParte(p).1 == Itens(p)
  {
    CapturaRotuloNenhuma(p, 0, Forte);
    CapturaRotuloNenhuma(p, 0, Minimo);
    CapturaRotuloNenhuma(p, 0, Coreq);
  }

  /** The list of the accumulated prerequisites a label names. */
  function Lista(acc: PreReqs, rot: Rotulo): seq<string>
  {
    match rot
    case Forte => acc.forte
    case Minimo => acc.minimo
    case Coreq => acc.coreq
  }

  /** Every item of every part ends up in the list its label names, and each list holds
      nothing but items of parts routed to it. */
  lemma {:induction false} AcumularRoteia(cs: seq<(Rotulo, seq<string>)>)
    ensures forall k, x :: 0 <= k < |cs| && x in cs[k].1 ==> x in Lista(Acumular(cs), cs[k].0)
    ensures forall rot, x :: x in Lista(Acumular(cs), rot) ==>
              exists k :: 0 <= k < |cs| && cs[k].0 == rot && x in cs[k].1
  {
    if |cs| > 0 {
      var n := |cs| - 1;
      var ini := cs[..n];
      AcumularRoteia(ini);
      assert forall rot :: Lista(Acumular(cs), rot) == Lista(Acumular(ini), rot) + (if cs[n].0 == rot then cs[n].1 else []);
      forall k, x | 0 <= k < |cs| && x in cs[k].1 ensures x in Lista(Acumular(cs), cs[k].0) {
        if k < n { assert ini[k] == cs[k]; }
      }
      forall rot, x | x in Lista(Acumular(cs), rot)
        ensures exists k :: 0 <= k < |cs| && cs[k].0 == rot && x in cs[k].1
      {
        if x in Lista(Acumular(ini), rot) {
          var k :| 0 <= k < |ini| && ini[k].0 == rot && x in ini[k].1;
          assert ini[k] == cs[k];
        } else {
          assert cs[n].0 == rot && x in cs[n].1;
        }
      }
    }
  }

  /** With labels, a part's items are routed, before the codes are normalised, to the
      list its label names and nowhere else. */
  lemma PartesRoteadas(partes: seq<string>, k: int, x: string)
    requires 0 <= k < |partes| && x in ClassificarParte(partes[k]).1
    ensures x in Lista(Acumular(Classificar(partes)), ClassificarParte(partes[k]).0)
  {
    AcumularRoteia(Classificar(partes));
  }

  /** A text without the letter f holds no Forte label. */
  lemma SemForte(s: string)
    requires 'f' !in s && 'F' !in s
    ensures CapturaRotulo(s, 0, Forte).None?
  {
    forall j | 0 <= j < |s| ensures FimDoRotulo(s, j, Forte).None? {
      assert s[j] in s;
      assert !PalavraEm(s, j, "forte") by {
        assert ToLowerChar(s[j + 0]) != "forte"[0];
      }
    }
    CapturaAusente(s, 0, Forte);
  }

  /** A single code without separators or surrounding spaces is one item. */
  lemma ItemUnico(x: string)
    requires |x| > 0 && NoSpaceAtEnds(x) && ';' !in x && ',' !in x
    ensures Itens(x) == [x]
  {
    SplitSemSeparador(x, {';', ','});
    TrimNoSpace(x);
  }

  /** Step of PreRequisitosRotulados: "Forte: A" captures "A". */
  lemma CapturaForteA()
    ensures CapturaRotulo("Forte: A", 0, Forte) == Some("A")
  {
    var p := "Forte: A";
    assert PalavraEm(p, 0, "forte");
    assert PulaEspacos(p, 5) == 5;
    assert PulaEspacos(p, 6) == 7;
    assert p[7..] == "A";
    assert AteFimDaLinha("A") == "A";
  }

  /** Step of PreRequisitosRotulados: "Forte: A" is a forte part with the single item "A". */
  lemma ParteForte()
    ensures ClassificarParte("Forte: A") == (Forte, ["A"])
  {
    CapturaForteA();
    ItemUnico("A");
  }

  /** Step of PreRequisitosRotulados: "Minimo: B" captures "B". */
  lemma CapturaMinimoB()
    ensures CapturaRotulo("Minimo: B", 0, Minimo) == Some("B")
  {
    var p := "Minimo: B";
    assert PalavraEm(p, 0, "minimo");
    assert PulaEspacos(p, 6) == 6;
    assert PulaEspacos(p, 7) == 8;
    assert p[8..] == "B";
    assert AteFimDaLinha("B") == "B";
  }

  /** Step of PreRequisitosRotulados: "Minimo: B" is a minimo part with the single item "B". */
  lemma ParteMinimo()
    ensures ClassificarParte("Minimo: B") == (Minimo, ["B"])
  {
    SemForte("Minimo: B");
    CapturaMinimoB();
    ItemUnico("B");
  }

  /** Step of PreRequisitosRotulados: "Forte: A;Minimo: B" has a label. */
  lemma RotuloExemplo(s: string)
    requires s == "Forte: A" + [';'] + "Minimo: B"
    ensures TemRotulo(s, 0)
  {
    assert PalavraEm(s, 0, "forte");
    assert RotuloIsolado(s, 0, Forte);
  }

  /** A text holding none of the separator characters. */
  lemma SemSeparadores(s: string, seps: set<char>)
    requires forall c :: c in seps ==> c !in s
    ensures forall i :: 0 <= i < |s| ==> s[i] !in seps
  {
    forall i | 0 <= i < |s| ensures s[i] !in seps {
      assert s[i] in s;
    }
  }

  /** Two pieces around one separator. */
  lemma SplitDuasPecas(a: string, c: char, b: string, seps: set<char>)
    requires c in seps && forall x :: x in seps ==> x !in a && x !in b
    ensures Split(a + [c] + b, seps) == [a, b]
  {
    SemSeparadores(a, seps);
    SemSeparadores(b, seps);
    SplitPrimeiro(a, c, b, seps);
    SplitSemSeparador(b, seps);
  }

  /** Step of PreRequisitosRotulados: the field splits into its two parts. */
  lemma SplitExemplo(s: string)
    requires s == "Forte: A" + [';'] + "Minimo: B"
    ensures Split(s, {';', '\n'}) == ["Forte: A", "Minimo: B"]
  {
    SplitDuasPecas("Forte: A", ';', "Minimo: B", {';', '\n'});
  }

  /** Pieces already trimmed and non-empty are kept. */
  lemma {:induction false} TrimNonEmptyMantem(xs: seq<string>)
    requires forall k :: 0 <= k < |xs| ==> |xs[k]| > 0 && NoSpaceAtEnds(xs[k])
    ensures TrimNonEmpty(xs) == xs
  {
    if |xs| > 0 {
      TrimNoSpace(xs[0]);
      TrimNonEmptyMantem(xs[1..]);
      assert xs == [xs[0]] + xs[1..];
    }
  }

  /** Step of PreRequisitosRotulados: both parts survive trimming. */
  lemma PartesExemplo(s: string)
    requires s == "Forte: A" + [';'] + "Minimo: B"
    ensures TrimNonEmpty(Split(s, {';', '\n'})) == ["Forte: A", "Minimo: B"]
  {
    SplitExemplo(s);
    TrimNonEmptyMantem(["Forte: A", "Minimo: B"]);
  }

  /** Step of PreRequisitosRotulados: the two parts fill forte and minimo. */
  lemma AcumularExemplo()
    ensures Acumular(Classificar(["Forte: A", "Minimo: B"])) == PreReqs(["A"], ["B"], [])
  {
    var partes := ["Forte: A", "Minimo: B"];
    ParteForte();
    ParteMinimo();
    var cs := Classificar(partes);
    assert cs == [(Forte, ["A"]), (Minimo, ["B"])];
    assert cs[..1] == [(Forte, ["A"])];
    assert cs[..1][..0] == [];
  }

  /** A code already normalised is kept as it is. */
  lemma NormalizarUm(x: string)
    requires CodigoNormalizado(x)
    ensures NormalizarCodigos([x]) == [x]
  {
    assert SoCodigo(x) == x by { SoCodigoMantem(x); }
    assert ToUpper(x) == x;
  }

  lemma {:induction false} SoCodigoMantem(x: string)
    requires forall t :: 0 <= t < |x| ==> IsCodeChar(x[t])
    ensures SoCodigo(x) == x
  {
    if |x| > 0 {
      SoCodigoMantem(x[1..]);
      assert x == [x[0]] + x[1..];
    }
  }

  /** Each labelled part feeds the list its label names: "Forte: A;Minimo: B" gives
      forte ["A"] and minimo ["B"]. */
  lemma PreRequisitosRotulados(s: string)
    requires s == "Forte: A" + [';'] + "Minimo: B"
    ensures PreRequisitosDe(s) == PreReqs(["A"], ["B"], [])
  {
    var partes := ["Forte: A", "Minimo: B"];
    assert Trim(s) == s by { TrimNoSpace(s); }
    assert TemRotulo(s, 0) by { RotuloExemplo(s); }
    assert TrimNonEmpty(Split(s, {';', '\n'})) == partes by { PartesExemplo(s); }
    assert Acumular(Classificar(partes)) == PreReqs(["A"], ["B"], []) by { AcumularExemplo(); }
    assert NormalizarCodigos(["A"]) == ["A"] by { NormalizarUm("A"); }
    assert NormalizarCodigos(["B"]) == ["B"] by { NormalizarUm("B"); }
  }
}

=== FILE: csv_materias.dfy ===
/** The subject side of the CSV loader (loadMaterias): reading one subject row into a
    subject, with its prerequisite lists, its semester and its sections. A sections cell
    is either JSON, whose weekly slots are then normalised, or the compact notation
    "id:10A|horarios:3-8,5-8;..." read here. JSON.parse itself is not part of this
    model: what it reads from a cell is a parameter. */
module CsvMaterias {
  import opened Base
  import opened Text
  import opened Catalog
  import opened CsvLoader

  // ---------------------------------------------------------------- JSON sections

  /** A slot of a JSON section: null, or a record with a day and two hour fields. */
  datatype HorarioJson = HorarioNulo | HorarioJson(dia: Dia, inicio: Hour, fim: Hour)

  /** A JSON section: null, or a record whose horarios is an array (Some) or anything else. */
  datatype TurmaJson = TurmaNula | TurmaJson(id: string, horarios: Option<seq<HorarioJson>>, anp: Option<bool>)

  /** `Number(h.dia)` for a day that is not null: None for NaN. */
  function NumeroDoDia(d: Dia): Option<int>
  {
    match d
    case DiaNull => Some(0)
    case DiaNum(n) => Some(n)
    case DiaStr(s) => NumberOfString(s)
  }

  /** The day of a slot after normalisation: a number from 1 to 7 becomes
      `((n + 6) % 7 + 7) % 7` (both operands positive, so JavaScript's `%` agrees with
      Dafny's), any other number is kept as a number, and NaN leaves the day alone. */
  function DiaNormalizado(d: Dia): Dia
  {
    match NumeroDoDia(d)
    case None => d
    case Some(n) => if 1 <= n <= 7 then DiaNum(((n + 6) % 7 + 7) % 7) else DiaNum(n)
  }

  /** An hour after `/^(\d{1,2})(?::(\d{2}))?/`: a string starting with a digit becomes
      the number its first one or two digits spell; anything else is kept. */
  function HoraNormalizada(h: Hour): Hour
  {
    match h
    case HourStr(s) =>
      if |s| > 0 && IsDigit(s[0]) then
        HourNum(if |s| > 1 && IsDigit(s[1]) then DigitValue(s[0]) * 10 + DigitValue(s[1]) else DigitValue(s[0]))
      else h
    case _ => h
  }

  /** One slot of the normalisation: a null slot or a slot without a day is skipped
      whole; otherwise its day and both hours are normalised. */
  function HorarioNormalizado(h: HorarioJson): HorarioJson
  {
    match h
    case HorarioNulo => h
    case HorarioJson(d, i, f) =>
      if d.DiaNull? then h else HorarioJson(DiaNormalizado(d), HoraNormalizada(i), HoraNormalizada(f))
  }

  /** A section after normalisation: the slots of a section whose horarios is an array. */
  function TurmaNormalizada(t: TurmaJson): TurmaJson
  {
    match t
    case TurmaNula => t
    case TurmaJson(id, hs, anp) =>
      match hs
      case None => t
      case Some(xs) => t.(horarios := Some(seq(|xs|, i requires 0 <= i < |xs| => HorarioNormalizado(xs[i]))))
  }

  /** The inner forEach over one section's slots, updating them in place. */
  method NormalizarHorarios(hs: array<HorarioJson>)
    modifies hs
    ensures forall i :: 0 <= i < hs.Length ==> hs[i] == HorarioNormalizado(old(hs[i]))
  {
    for i := 0 to hs.Length
      invariant forall j :: 0 <= j < i ==> hs[j] == HorarioNormalizado(old(hs[j]))
      invariant forall j :: i <= j < hs.Length ==> hs[j] == old(hs[j])
    {
      match hs[i] {
        case HorarioNulo =>
        case HorarioJson(d, inicio, fim) =>
          if !d.DiaNull? {
            var dia := d;
            var nd := NumeroDoDia(d);
            if nd.Some? {
              if 1 <= nd.value <= 7 {
                dia := DiaNum(((nd.value + 6) % 7 + 7) % 7);
              } else {
                dia := DiaNum(nd.value);
              }
            }
            hs[i] := HorarioJson(dia, HoraNormalizada(inicio), HoraNormalizada(fim));
          }
      }
    }
  }

  /** A numeric day from 1 to 7 moves one down (7, Saturday in the 1-based convention,
      becomes 6); other numbers stay; a day that is not a number is untouched. Days
      already written 1 to 6 in the 0-based convention are therefore shifted as well. */
  lemma DiaNormalizadoSpec(d: Dia)
    ensures match NumeroDoDia(d)
            case Some(n) => DiaNormalizado(d) == DiaNum(if 1 <= n <= 7 then n - 1 else n)
            case None => DiaNormalizado(d) == d
  {
    match NumeroDoDia(d)
    case Some(n) =>
      if 1 <= n <= 7 {
        assert (n + 6) % 7 == n - 1 by {
          assert n + 6 == 7 + (n - 1);
        }
      }
    case None =>
  }

  /** Normalising an hour twice is normalising it once, and a normalised string hour is
      a number below 100. */
  lemma HoraNormalizadaIdempotente(h: Hour)
    ensures HoraNormalizada(HoraNormalizada(h)) == HoraNormalizada(h)
    ensures h.HourStr? && HoraNormalizada(h) != h ==> HoraNormalizada(h).HourNum? && 0 <= HoraNormalizada(h).h < 100
  {
  }

  /** "08:00" reads as hour 8. */
  lemma HoraOitoHoras(s: string)
    requires s == "08:00"
    ensures HoraNormalizada(HourStr(s)) == HourNum(8)
  {
  }

  // ---------------------------------------------------------------- compact notation

  /** A match of `/(\d)\s*-\s*(\d+)/`: the day digit and the hour. */
  datatype SlotLido = SlotLido(dia: nat, inicio: nat)

  /** The index just past the digits starting at `k`. */
  function FimDosDigitos(s: string, k: nat): (r: nat)
    requires k <= |s|
    ensures k <= r <= |s|
    ensures forall t :: k <= t < r ==> IsDigit(s[t])
    ensures r < |s| ==> !IsDigit(s[r])
    decreases |s| - k
  {
    if k < |s| && IsDigit(s[k]) then FimDosDigitos(s, k + 1) else k
  }

  /** `/(\d)\s*-\s*(\d+)/` matches at `i`: a digit, blanks, a dash, blanks and a digit. */
  predicate DiaHoraEm(s: string, i: nat)
  {
    i < |s| && IsDigit(s[i])
    && var j := PulaEspacos(s, i + 1);
       j < |s| && s[j] == '-'
       && var k := PulaEspacos(s, j + 1);
          k < |s| && IsDigit(s[k])
  }

  /** The groups of the match at `i`: the day digit and the value of all the digits
      that follow the dash and its blanks. */
  function CapturaDiaHora(s: string, i: nat): (r: SlotLido)
    requires DiaHoraEm(s, i)
    ensures r.dia < 10
  {
    var k := PulaEspacos(s, PulaEspacos(s, i + 1) + 1);
    var e := FimDosDigitos(s, k);
    assert AllDigits(s[k..e]) by {
      forall t | 0 <= t < e - k ensures IsDigit(s[k..e][t]) { assert s[k..e][t] == s[k + t]; }
    }
    SlotLido(DigitValue(s[i]), DigitsValue(s[k..e]))
  }

  /** The leftmost match of `/(\d)\s*-\s*(\d+)/` starting at or after `i`. */
  function CasaDiaHora(s: string, i: nat): (r: Option<SlotLido>)
    ensures r.Some? ==> r.value.dia < 10
    decreases |s| - i
  {
    if i >= |s| then None
    else if DiaHoraEm(s, i) then Some(CapturaDiaHora(s, i))
    else CasaDiaHora(s, i + 1)
  }

  /** No match iff the pattern matches at no position from `i` on. */
  lemma {:induction false} CasaDiaHoraNenhuma(s: string, i: nat)
    ensures CasaDiaHora(s, i).None? <==> forall j :: i <= j ==> !DiaHoraEm(s, j)
    decreases |s| - i
  {
    if i < |s| {
      CasaDiaHoraNenhuma(s, i + 1);
    }
  }

  /** The match found is the one at the leftmost position where the pattern matches. */
  lemma {:induction false} CasaDiaHoraPrimeira(s: string, i: nat, j: nat)
    requires i <= j && DiaHoraEm(s, j) && forall t :: i <= t < j ==> !DiaHoraEm(s, t)
    ensures CasaDiaHora(s, i) == Some(CapturaDiaHora(s, j))
    decreases j - i
  {
    if i < j {
      CasaDiaHoraPrimeira(s, i + 1, j);
    }
  }

  /** The slot a match pushes: a day from 1 to 7 becomes `(dia + 6) % 7`, any other is
      kept; the slot lasts one hour. */
  function SlotSimples(m: SlotLido): Horario
  {
    Horario(DiaNum(if 1 <= m.dia <= 7 then (m.dia + 6) % 7 else m.dia), m.inicio, m.inicio + 1)
  }

  /** The slots the items of a horarios value give, in order: items without a match give none. */
  function SlotsDosItens(itens: seq<string>): seq<Horario>
  {
    if |itens| == 0 then []
    else
      var antes := SlotsDosItens(itens[..|itens| - 1]);
      match CasaDiaHora(itens[|itens| - 1], 0)
      case Some(m) => antes + [SlotSimples(m)]
      case None => antes
  }

  /** The items of a horarios value: split at commas (and the blanks around them), empty items dropped. */
  function ItensDeHorarios(v: string): seq<string>
  {
    TrimNonEmpty(Split(v, {','}))
  }

  /** The forEach over the items of a horarios value, pushing one slot per match. */
  method LerHorarios(v: string) returns (slots: seq<Horario>)
    ensures slots == SlotsDosItens(ItensDeHorarios(v))
  {
    var itens := ItensDeHorarios(v);
    slots := [];
    for k := 0 to |itens|
      invariant slots == SlotsDosItens(itens[..k])
    {
      assert itens[..k + 1][..k] == itens[..k];
      var m := CasaDiaHora(itens[k], 0);
      if m.Some? {
        slots := slots + [SlotSimples(m.value)];
      }
    }
    assert itens[..|itens|] == itens;
  }

  /** Every slot of the compact notation lasts one hour from a non-negative hour, on a
      numeric day from 0 to 9, the days 1 to 7 moved one down. */
  lemma {:induction false} SlotsDosItensSpec(itens: seq<string>)
    ensures forall h :: h in SlotsDosItens(itens) ==>
              h.fim == h.inicio + 1 && h.inicio >= 0 && h.dia.DiaNum? && 0 <= h.dia.n <= 9
  {
    if |itens| > 0 {
      SlotsDosItensSpec(itens[..|itens| - 1]);
    }
  }

  /** The day of a compact slot: 1 to 7 give 0 to 6, 0, 8 and 9 stay. */
  lemma SlotSimplesDia(m: SlotLido)
    requires m.dia < 10
    ensures SlotSimples(m).dia == DiaNum(if 1 <= m.dia <= 7 then m.dia - 1 else m.dia)
  {
    if 1 <= m.dia <= 7 {
      assert (m.dia + 6) % 7 == m.dia - 1 by {
        assert m.dia + 6 == 7 + (m.dia - 1);
      }
    }
  }

  /** The key and the value of a `key:value` part (split at colons and the blanks around them): the trimmed
      text before the first colon and, when there is a colon, the trimmed text up to
      the next one. */
  function ChaveValor(p: string): (string, Option<string>)
  {
    var pecas := Split(p, {':'});
    (Trim(pecas[0]), if |pecas| > 1 then Some(Trim(pecas[1])) else None)
  }

  /** The keys a part of a section may have, in any letter case. */
  datatype ChaveTurma = ChaveVazia | ChaveId | ChaveAnp | ChaveHorarios | OutraChave

  /** The key of a part: `if (!k) return`, then `k.toLowerCase().trim()` compared with
      "id", "anp" and "horarios". */
  function ChaveDe(k: string): ChaveTurma
  {
    if k == "" then ChaveVazia
    else
      var key := ToLower(k);
      if key == "id" then ChaveId
      else if key == "anp" then ChaveAnp
      else if key == "horarios" then ChaveHorarios
      else OutraChave
  }

  /** One part of a section: "id" sets the id (empty without a value), "anp" sets anp to
      whether the value is "true" in any letter case, "horarios" appends the value's
      slots, and any other key is ignored. A horarios part without a value throws
      (`v.split` on undefined): None. */
  function AplicarParte(t: Turma, p: string): Option<Turma>
  {
    var (k, v) := ChaveValor(p);
    match ChaveDe(k)
    case ChaveId => Some(t.(id := if v.Some? then v.value else ""))
    case ChaveAnp => Some(t.(anp := Some(v.Some? && ToLower(v.value) == "true")))
    case ChaveHorarios =>
      if v.None? then None else Some(t.(horarios := t.horarios + SlotsDosItens(ItensDeHorarios(v.value))))
    case _ => Some(t)
  }

  /** The section a sequence of parts builds, from `{ id: null, horarios: [], anp: false }`. */
  function AplicarPartes(partes: seq<string>): Option<Turma>
  {
    if |partes| == 0 then Some(Turma("", [], Some(false)))
    else
      match AplicarPartes(partes[..|partes| - 1])
      case None => None
      case Some(t) => AplicarParte(t, partes[|partes| - 1])
  }

  /** The parts of a section: split at '|' (and the blanks around it), empty parts dropped. */
  function PartesDaTurma(item: string): seq<string>
  {
    TrimNonEmpty(Split(item, {'|'}))
  }

  /** Once a part throws, the section throws whatever parts follow. */
  lemma {:induction false} FalhaPropaga(partes: seq<string>, k: nat)
    requires k <= |partes| && AplicarPartes(partes[..k]).None?
    ensures AplicarPartes(partes).None?
    decreases |partes| - k
  {
    if k < |partes| {
      assert partes[..k + 1][..k] == partes[..k];
      FalhaPropaga(partes, k + 1);
    } else {
      assert partes[..k] == partes;
    }
  }

  /** The body of the forEach over the parts of a section: one part updates the
      section's fields. */
  method LerParte(t: Turma, p: string) returns (r: Option<Turma>)
    ensures r == AplicarParte(t, p)
  {
    var (chave, v) := ChaveValor(p);
    r := Some(t);
    match ChaveDe(chave) {
      case ChaveId =>
        r := Some(t.(id := if v.Some? then v.value else ""));
      case ChaveAnp =>
        r := Some(t.(anp := Some(v.Some? && ToLower(v.value) == "true")));
      case ChaveHorarios =>
        if v.None? {
          return None;
        }
        var novos := LerHorarios(v.value);
        r := Some(t.(horarios := t.horarios + novos));
      case _ =>
    }
  }

  /** The forEach over the parts of one section, from `{ id: null, horarios: [], anp: false }`. */
  method LerTurma(item: string) returns (r: Option<Turma>)
    ensures r == AplicarPartes(PartesDaTurma(item))
  {
    var partes := PartesDaTurma(item);
    var t := Turma("", [], Some(false));
    for k := 0 to |partes|
      invariant AplicarPartes(partes[..k]) == Some(t)
    {
      assert partes[..k + 1][..k] == partes[..k];
      var proxima := LerParte(t, partes[k]);
      if proxima.None? {
        FalhaPropaga(partes, k + 1);
        return None;
      }
      t := proxima.value;
    }
    assert partes[..|partes|] == partes;
    r := Some(t);
  }

  /** The sections of a compact cell, one per `;`-separated item; None when one of them
      throws. */
  function NotacaoSimples(raw: string): Option<seq<Turma>>
  {
    MapOpt(TrimNonEmpty(Split(raw, {';'})), item => AplicarPartes(PartesDaTurma(item)))
  }

  /** A blank-free part without '|' or ':' is a section of one part whose key has no value. */
  lemma ParteUnica(item: string)
    requires NoSpaceAtEnds(item) && |item| > 0
    requires forall i :: 0 <= i < |item| ==> item[i] != '|' && item[i] != ':'
    ensures PartesDaTurma(item) == [item] && ChaveValor(item) == (item, None)
  {
    TrimNoSpace(item);
    SplitSemSeparador(item, {'|'});
    SplitSemSeparador(item, {':'});
  }

  /** A section made of a horarios key without a colon, hence without a value, throws. */
  lemma HorariosSemValor(item: string)
    requires ChaveDe(item) == ChaveHorarios && NoSpaceAtEnds(item)
    requires forall i :: 0 <= i < |item| ==> item[i] != '|' && item[i] != ':'
    ensures AplicarPartes(PartesDaTurma(item)) == None
  {
    ParteUnica(item);
    assert [item][..0] == [];
  }

  /** "horarios" alone is such a section. */
  lemma HorariosSozinho(item: string)
    requires item == "horarios"
    ensures AplicarPartes(PartesDaTurma(item)) == None
  {
    assert ChaveDe(item) == ChaveHorarios by { assert ToLower(item) == item; }
    HorariosSemValor(item);
  }

  // ---------------------------------------------------------------- one subject row

  /** The semester of a row: absent when blank, a number when Number() reads it, the
      trimmed text otherwise. */
  function SemestreDaLinha(r: Linha): (s: Semestre)
    ensures s.SemText? ==> NoSpaceAtEnds(s.s) && NumberOfString(s.s).None?
  {
    var raw := Trim(Campo(r, ["semestre", "semester", "period"]));
    TrimSemEspacos(Campo(r, ["semestre", "semester", "period"]));
    if raw == "" then SemNone
    else
      match NumberOfString(raw)
      case Some(n) => SemNum(n)
      case None => SemText(raw)
  }

  /** `Number(r.creditos || r.credits || 0) || 0`: the number, 0 when missing or NaN. */
  function CreditosDaLinha(r: Linha): int
  {
    match NumberOfString(Campo(r, ["creditos", "credits"]))
    case Some(n) => n
    case None => 0
  }

  /** The sections of a row's cell: none for an empty cell; what JSON.parse reads
      (`json`, given the cell) when it reads it; the compact notation otherwise. */
  function TurmasDaCelula(cell: string, json: string -> Option<seq<Turma>>): Option<seq<Turma>>
  {
    if cell == "" then Some([])
    else
      match json(cell)
      case Some(ts) => Some(ts)
      case None => NotacaoSimples(Trim(cell))
  }

  /** The prerequisites cell of a row. */
  function CelulaPreRequisitos(r: Linha): string
  {
    Campo(r, ["preRequisitos", "prerequisitos", "prereqs", "requisitos"])
  }

  /** The sections cell of a row. */
  function CelulaTurmas(r: Linha): string
  {
    Campo(r, ["turmas", "turmas_json", "classes"])
  }

  /** The subject a row describes, given the sections its cell gives. */
  function MateriaComTurmas(r: Linha, turmas: seq<Turma>): Materia
  {
    var pre := PreRequisitosDe(CelulaPreRequisitos(r));
    var tipo := Campo(r, ["tipo", "type"]);
    Materia(
      Trim(Campo(r, ["codigo", "code"])),
      Trim(Campo(r, ["nome", "name"])),
      CreditosDaLinha(r),
      if tipo == "" then "obrigatoria" else Trim(tipo),  // the default needs no trimming
      Trim(Campo(r, ["subgrupo", "subgroup"])),
      Trim(Campo(r, ["curso_id", "course_id", "curso", "course"])),
      NormalizeMatriz(Trim(Campo(r, ["matriz", "matrix"]))),
      SemestreDaLinha(r),
      Dedup(pre.forte + pre.minimo + pre.coreq),
      Some(pre),
      turmas)
  }

  /** One subject row: None when reading its sections throws. */
  function MateriaDaLinha(r: Linha, json: string -> Option<seq<Turma>>): Option<Materia>
  {
    match TurmasDaCelula(CelulaTurmas(r), json)
    case None => None
    case Some(turmas) => Some(MateriaComTurmas(r, turmas))
  }

  /** loadMaterias over parsed rows: every row read in order; None when one throws. */
  function LoadMaterias(rows: seq<Linha>, json: string -> Option<seq<Turma>>): Option<seq<Materia>>
  {
    MapOpt(rows, r => MateriaDaLinha(r, json))
  }

  /** A subject read from a row has trimmed text fields and a normalised matrix id. */
  lemma MateriaDaLinhaCampos(r: Linha, turmas: seq<Turma>)
    ensures var m := MateriaComTurmas(r, turmas);
            NoSpaceAtEnds(m.codigo) && NoSpaceAtEnds(m.nome) && NoSpaceAtEnds(m.curso)
            && NormalizeMatriz(m.matriz) == m.matriz

  {
    var m := MateriaComTurmas(r, turmas);
    assert NoSpaceAtEnds(m.codigo) by { TrimSemEspacos(Campo(r, ["codigo", "code"])); }
    assert NoSpaceAtEnds(m.nome) by { TrimSemEspacos(Campo(r, ["nome", "name"])); }
    assert NoSpaceAtEnds(m.curso) by { TrimSemEspacos(Campo(r, ["curso_id", "course_id", "curso", "course"])); }
    assert NormalizeMatriz(m.matriz) == m.matriz by {
      NormalizeMatrizIdempotente(Trim(Campo(r, ["matriz", "matrix"])));
    }
  }

  /** The type of a subject read from a row is "obrigatoria" when the row names none,
      and the trimmed type it names otherwise. */
  lemma MateriaDaLinhaTipo(r: Linha, turmas: seq<Turma>)
    ensures var m := MateriaComTurmas(r, turmas);
            (Campo(r, ["tipo", "type"]) == "" ==> m.tipo == "obrigatoria")
            && (Campo(r, ["tipo", "type"]) != "" ==> NoSpaceAtEnds(m.tipo))
  {
    var tipo := Campo(r, ["tipo", "type"]);
    if tipo != "" {
      assert MateriaComTurmas(r, turmas).tipo == Trim(tipo);
      TrimSemEspacos(tipo);
    }
  }

  /** A subject read from a row keeps the three detailed prerequisite lists, and its
      flat list holds each of their codes exactly once. */
  lemma MateriaDaLinhaPreRequisitos(r: Linha, turmas: seq<Turma>)
    ensures var m := MateriaComTurmas(r, turmas);
            var pre := PreRequisitosDe(CelulaPreRequisitos(r));
            m.detalhada == Some(pre)
            && (forall x :: x in m.preRequisitos <==> x in pre.forte || x in pre.minimo || x in pre.coreq)
            && (forall i, j :: 0 <= i < j < |m.preRequisitos| ==> m.preRequisitos[i] != m.preRequisitos[j])
  {
    var pre := PreRequisitosDe(CelulaPreRequisitos(r));
  }

  /** A row fails to load exactly when its sections cell is neither empty nor JSON and
      one of its compact sections has a horarios key without a value. */
  lemma MateriaDaLinhaFalha(r: Linha, json: string -> Option<seq<Turma>>)
    ensures MateriaDaLinha(r, json).None? <==>
              CelulaTurmas(r) != "" && json(CelulaTurmas(r)).None? && NotacaoSimples(Trim(CelulaTurmas(r))).None?
  {
  }
}

=== FILE: cursos.dfy ===
/** The static course list and its lookups: the five UFLA courses, the curriculum
    matrices offered for each, lookup by id, filtering by degree type, search and
    the implemented subset. */
module Cursos {
  import opened Base
  import opened Text
  import opened OrderedMap
  import opened Catalog

  /** A course of the static list; these records carry no matrix data. */
  function CursoFixo(id: string, nome: string, tipo: string, total: int, icone: string,
                     implementado: bool): Curso
  {
    Curso(id, nome, tipo, total, implementado, icone, [], map[])
  }

  const CURSOS: seq<Curso> := [
    CursoFixo("G014", "Sistemas de Informação", "Bacharelado", 8, "fi-br-database", true),
    CursoFixo("G010", "Ciência da Computação", "Bacharelado", 8, "fi-br-laptop-code", false),
    CursoFixo("G063", "Jogos Digitais", "Tecnológico", 5, "fi-br-gamepad", false),
    CursoFixo("G064", "Segurança Cibernética", "Tecnológico", 5, "fi-br-shield-check", false),
    CursoFixo("G073", "Inteligência Artificial", "Tecnológico", 5, "fi-br-brain", false)
  ]

  /** The 2023/1 matrix, also the answer for a course without a matrix list. */
  const MATRIZ_2023_1: Matriz := Matriz("202301", "2023/1", 2023)

  const MATRIZES_POR_CURSO: OMap<seq<Matriz>> := [
    Entry("G014", [MATRIZ_2023_1, Matriz("201502", "2015/2", 2015),
                   Matriz("201302", "2013/2", 2013), Matriz("200902", "2009/2", 2009)]),
    Entry("G010", [MATRIZ_2023_1]),
    Entry("G063", [MATRIZ_2023_1]),
    Entry("G064", [MATRIZ_2023_1]),
    Entry("G073", [MATRIZ_2023_1])
  ]

  // ---------------------------------------------------------------- lookups

  /** getCursoById: the first course of the list with that id, None for undefined. */
  function GetCursoById(id: string): (r: Option<Curso>)
    ensures r.None? <==> forall i :: 0 <= i < |CURSOS| ==> CURSOS[i].id != id
    ensures r.Some? ==> r.value in CURSOS && r.value.id == id
  {
    CursoPorId(CURSOS, id)
  }

  /** `tabela[cursoId] || [2023/1]`: the listed matrices of the course; any other id
      gets the single 2023/1 matrix (an empty list would be kept, as arrays are truthy). */
  function MatrizesDe(tabela: OMap<seq<Matriz>>, cursoId: string): (r: seq<Matriz>)
    ensures cursoId in Keys(tabela) ==> Get(tabela, cursoId) == Some(r)
    ensures cursoId !in Keys(tabela) ==> r == [MATRIZ_2023_1]
  {
    GetOr(tabela, cursoId, [MATRIZ_2023_1])
  }

  /** getMatrizesByCurso */
  function GetMatrizesByCurso(cursoId: string): (r: seq<Matriz>)
    ensures cursoId in Keys(MATRIZES_POR_CURSO) ==> Get(MATRIZES_POR_CURSO, cursoId) == Some(r)
    ensures cursoId !in Keys(MATRIZES_POR_CURSO) ==> r == [MATRIZ_2023_1]
  {
    MatrizesDe(MATRIZES_POR_CURSO, cursoId)
  }

  /** `cs.filter(c => c.tipo === tipo)` */
  function DoTipo(cs: seq<Curso>, tipo: string): (r: seq<Curso>)
    ensures IsSubseq(r, cs)
    ensures forall c :: c in r <==> c in cs && c.tipo == tipo
    ensures forall i :: 0 <= i < |r| ==> r[i].tipo == tipo
  {
    if |cs| == 0 then []
    else
      var rest := DoTipo(cs[1..], tipo);
      assert cs == [cs[0]] + cs[1..];
      if cs[0].tipo == tipo then [cs[0]] + rest
      else SubseqSkip(rest, cs); rest
  }

  /** `cs.filter(c => c.implementado)` */
  function Implementados(cs: seq<Curso>): (r: seq<Curso>)
    ensures IsSubseq(r, cs)
    ensures forall c :: c in r <==> c in cs && c.implementado
  {
    if |cs| == 0 then []
    else
      var rest := Implementados(cs[1..]);
      assert cs == [cs[0]] + cs[1..];
      if cs[0].implementado then [cs[0]] + rest
      else SubseqSkip(rest, cs); rest
  }

  /** getCursosPorTipo */
  function GetCursosPorTipo(tipo: string): (r: seq<Curso>)
    ensures IsSubseq(r, CURSOS)
    ensures forall c :: c in r <==> c in CURSOS && c.tipo == tipo
  {
    DoTipo(CURSOS, tipo)
  }

  /** buscarCursos: case-insensitive substring match on the name or the id. */
  function BuscarCursos(termo: string): (r: seq<Curso>)
    ensures IsSubseq(r, CURSOS)
    ensures forall c :: c in r <==> c in CURSOS && CasaBusca(c, termo)
  {
    FiltrarBusca(CURSOS, termo)
  }

  /** getCursosImplementados */
  function GetCursosImplementados(): (r: seq<Curso>)
    ensures IsSubseq(r, CURSOS)
    ensures forall c :: c in r <==> c in CURSOS && c.implementado
  {
    Implementados(CURSOS)
  }

  // ---------------------------------------------------------------- the list as shipped

  /** Of the shipped list only Sistemas de Informação is implemented. */
  lemma SoSistemasImplementado(cs: seq<Curso>)
    requires cs == CURSOS
    ensures Implementados(cs) == [cs[0]] && cs[0].id == "G014"
  {
    assert Implementados(cs[4..]) == [];
    assert Implementados(cs[3..]) == [];
    assert Implementados(cs[2..]) == [];
    assert Implementados(cs[1..]) == [];
  }

  /** A course id outside the matrix table, such as "G999", gets the 2023/1 matrix. */
  lemma MatrizPadraoParaIdDesconhecido(id: string)
    requires id == "G999"
    ensures GetMatrizesByCurso(id) == [MATRIZ_2023_1]
  {
    assert Keys(MATRIZES_POR_CURSO) == ["G014", "G010", "G063", "G064", "G073"];
    assert id[3] == '9';
  }
}

=== FILE: data_index.dfy ===
/** The CSV-backed data layer: prerequisite verification against the approved list
    and the calendar, grouping of subject rows by course, matrix and semester, and the
    getters over the grouped data. `csv` parameters are None until the CSV load has
    succeeded, as the module-level variables of the source are null until then. */
module DataIndex {
  import opened Base
  import opened Text
  import opened OrderedMap
  import opened Sorting
  import opened Catalog
  import opened CsvLoader

  // ---------------------------------------------------------------- prerequisites

  /** What verificarPreRequisitosDetalhada returns. */
  datatype Detalhe = Detalhe(cumprido: bool, faltandoForte: seq<string>,
                             faltandoMinimo: seq<string>, faltandoCoreq: seq<string>)

  /** What the flat verificarPreRequisitos returns. */
  datatype Verificacao = Verificacao(cumprido: bool, faltando: seq<string>)

  /** Missing prerequisites of `m`, by kind. Without detailed prerequisites the flat
      list is checked and everything missing counts as "forte". A co-requisite is
      satisfied when approved or already a key of the calendar map. */
  function VerificarPreRequisitosDetalhada(m: Materia, aprovadas: seq<string>,
                                           noCalendario: OMap<Placed>): (r: Detalhe)
    ensures m.detalhada.None? ==>
      (forall c :: c in r.faltandoForte <==> c in m.preRequisitos && c !in aprovadas)
      && IsSubseq(r.faltandoForte, m.preRequisitos)
      && r.faltandoMinimo == [] && r.faltandoCoreq == []
    ensures m.detalhada.Some? ==>
      (forall c :: c in r.faltandoForte <==> c in m.detalhada.value.forte && c !in aprovadas)
      && (forall c :: c in r.faltandoMinimo <==> c in m.detalhada.value.minimo && c !in aprovadas)
      && (forall c :: c in r.faltandoCoreq <==>
            c in m.detalhada.value.coreq && c !in aprovadas && c !in Keys(noCalendario))
      && IsSubseq(r.faltandoForte, m.detalhada.value.forte)
      && IsSubseq(r.faltandoMinimo, m.detalhada.value.minimo)
      && IsSubseq(r.faltandoCoreq, m.detalhada.value.coreq)
    ensures r.cumprido <==> r.faltandoForte == [] && r.faltandoMinimo == [] && r.faltandoCoreq == []
  {
    if m.detalhada.None? then
      var f := Without(m.preRequisitos, aprovadas);
      Detalhe(f == [], f, [], [])
    else
      var p := m.detalhada.value;
      var forte := Without(p.forte, aprovadas);
      var minimo := Without(p.minimo, aprovadas);
      var coreq := WithoutEither(p.coreq, aprovadas, Keys(noCalendario));
      Detalhe(forte == [] && minimo == [] && coreq == [], forte, minimo, coreq)
  }

  /** Each missing list keeps every occurrence of a code it keeps: a prerequisite
      listed twice and not approved is reported twice. */
  lemma FaltandoContagem(m: Materia, aprovadas: seq<string>, noCalendario: OMap<Placed>)
    ensures var r := VerificarPreRequisitosDetalhada(m, aprovadas, noCalendario);
      m.detalhada.None? ==>
        forall c :: multiset(r.faltandoForte)[c] == if c in aprovadas then 0 else multiset(m.preRequisitos)[c]
    ensures var r := VerificarPreRequisitosDetalhada(m, aprovadas, noCalendario);
      m.detalhada.Some? ==>
        (forall c :: multiset(r.faltandoForte)[c] ==
           if c in aprovadas then 0 else multiset(m.detalhada.value.forte)[c])
        && (forall c :: multiset(r.faltandoMinimo)[c] ==
              if c in aprovadas then 0 else multiset(m.detalhada.value.minimo)[c])
        && (forall c :: multiset(r.faltandoCoreq)[c] ==
              if c in aprovadas || c in Keys(noCalendario) then 0 else multiset(m.detalhada.value.coreq)[c])
  {
    match m.detalhada
    case None =>
      WithoutConta(m.preRequisitos, aprovadas);
    case Some(p) =>
      WithoutConta(p.forte, aprovadas);
      WithoutConta(p.minimo, aprovadas);
      WithoutEitherConta(p.coreq, aprovadas, Keys(noCalendario));
  }

  /** Every prerequisite of `m` is met: strong and minimum ones approved, co-requisites
      approved or on the calendar. */
  ghost predicate Satisfeito(m: Materia, aprovadas: seq<string>, noCalendario: OMap<Placed>)
  {
    match m.detalhada
    case None => forall c :: c in m.preRequisitos ==> c in aprovadas
    case Some(p) =>
      (forall c :: c in p.forte ==> c in aprovadas)
      && (forall c :: c in p.minimo ==> c in aprovadas)
      && (forall c :: c in p.coreq ==> c in aprovadas || c in Keys(noCalendario))
  }

  lemma CumpridoSeSatisfeito(m: Materia, aprovadas: seq<string>, noCalendario: OMap<Placed>)
    ensures VerificarPreRequisitosDetalhada(m, aprovadas, noCalendario).cumprido
            <==> Satisfeito(m, aprovadas, noCalendario)
  {
    var r := VerificarPreRequisitosDetalhada(m, aprovadas, noCalendario);
    if !r.cumprido {
      if r.faltandoForte != [] { assert r.faltandoForte[0] in r.faltandoForte; }
      else if r.faltandoMinimo != [] { assert r.faltandoMinimo[0] in r.faltandoMinimo; }
      else { assert r.faltandoCoreq[0] in r.faltandoCoreq; }
    }
  }

  /** The calendar only ever satisfies co-requisites: strong and minimum prerequisites
      are judged on the approved list alone. */
  lemma CalendarioSoCoreq(m: Materia, aprovadas: seq<string>, c1: OMap<Placed>, c2: OMap<Placed>)
    ensures VerificarPreRequisitosDetalhada(m, aprovadas, c1).faltandoForte
            == VerificarPreRequisitosDetalhada(m, aprovadas, c2).faltandoForte
    ensures VerificarPreRequisitosDetalhada(m, aprovadas, c1).faltandoMinimo
            == VerificarPreRequisitosDetalhada(m, aprovadas, c2).faltandoMinimo
  {
  }

  /** The backwards-compatible wrapper: one list of everything missing, strong first,
      then minimum, then co-requisites. */
  function VerificarPreRequisitos(m: Materia, aprovadas: seq<string>,
                                  noCalendario: OMap<Placed>): (r: Verificacao)
    ensures var d := VerificarPreRequisitosDetalhada(m, aprovadas, noCalendario);
      r.cumprido == d.cumprido
      && r.faltando == d.faltandoForte + d.faltandoMinimo + d.faltandoCoreq
    ensures r.cumprido <==> r.faltando == []
    ensures r.cumprido <==> Satisfeito(m, aprovadas, noCalendario)
  {
    var d := VerificarPreRequisitosDetalhada(m, aprovadas, noCalendario);
    CumpridoSeSatisfeito(m, aprovadas, noCalendario);
    Verificacao(d.cumprido, d.faltandoForte + d.faltandoMinimo + d.faltandoCoreq)
  }

  // ---------------------------------------------------------------- grouping

  /** A matrix of a course: obligatory subjects by semester key, and electives. */
  datatype MatrizDados = MatrizDados(porSemestre: OMap<seq<Materia>>, eletivas: seq<Materia>)

  /** A course: its matrices by key, and all its electives. */
  datatype CursoDados = CursoDados(matrizes: OMap<MatrizDados>, eletivas: seq<Materia>)

  const NovaMatriz := MatrizDados([], [])
  const NovoCurso := CursoDados([], [])

  /** `m.matriz || 'default'` */
  function MatrizKey(m: Materia): string
  {
    if m.matriz == "" then "default" else m.matriz
  }

  /** `String(m.semestre || '0')` */
  function SemKey(s: Semestre): string
  {
    match s
    case SemNone => "0"
    case SemNum(n) => IntToString(n)
    case SemText(t) => if t == "" then "0" else t
  }

  function CursoOf(d: OMap<CursoDados>, k: string): CursoDados
  {
    GetOr(d, k, NovoCurso)
  }

  function MatrizOf(d: OMap<CursoDados>, k: string, mk: string): MatrizDados
  {
    GetOr(CursoOf(d, k).matrizes, mk, NovaMatriz)
  }

  /** `dados[k].matrizes[mk].materiasPorSemestre[s] || []` */
  function SemList(d: OMap<CursoDados>, k: string, mk: string, s: string): seq<Materia>
  {
    GetOr(MatrizOf(d, k, mk).porSemestre, s, [])
  }

  predicate NoSemestre(m: Materia, k: string, mk: string, s: string)
  {
    m.curso != "" && m.curso == k && MatrizKey(m) == mk && m.tipo != "eletiva" && SemKey(m.semestre) == s
  }

  predicate EletivaDaMatriz(m: Materia, k: string, mk: string)
  {
    m.curso != "" && m.curso == k && MatrizKey(m) == mk && m.tipo == "eletiva"
  }

  predicate EletivaDoCurso(m: Materia, k: string)
  {
    m.curso != "" && m.curso == k && m.tipo == "eletiva"
  }

  /** The rows, in order, that belong under course k, matrix mk, semester s. */
  function GrupoSemestre(rows: seq<Materia>, k: string, mk: string, s: string): (r: seq<Materia>)
    ensures forall x :: x in r <==> x in rows && NoSemestre(x, k, mk, s)
  {
    if |rows| == 0 then []
    else
      var init := rows[..|rows| - 1];
      assert rows == init + [rows[|rows| - 1]];
      GrupoSemestre(init, k, mk, s) + (if NoSemestre(rows[|rows| - 1], k, mk, s) then [rows[|rows| - 1]] else [])
  }

  /** The elective rows, in order, of course k under matrix mk. */
  function GrupoEletivasMatriz(rows: seq<Materia>, k: string, mk: string): (r: seq<Materia>)
    ensures forall x :: x in r <==> x in rows && EletivaDaMatriz(x, k, mk)
  {
    if |rows| == 0 then []
    else
      var init := rows[..|rows| - 1];
      assert rows == init + [rows[|rows| - 1]];
      GrupoEletivasMatriz(init, k, mk) + (if EletivaDaMatriz(rows[|rows| - 1], k, mk) then [rows[|rows| - 1]] else [])
  }

  /** The elective rows, in order, of course k over all its matrices. */
  function GrupoEletivasCurso(rows: seq<Materia>, k: string): (r: seq<Materia>)
    ensures forall x :: x in r <==> x in rows && EletivaDoCurso(x, k)
  {
    if |rows| == 0 then []
    else
      var init := rows[..|rows| - 1];
      assert rows == init + [rows[|rows| - 1]];
      GrupoEletivasCurso(init, k) + (if EletivaDoCurso(rows[|rows| - 1], k) then [rows[|rows| - 1]] else [])
  }

  /** The per-row step of the grouping (the forEach callback of loadDataFromCsv). */
  function AdicionarLinha(d: OMap<CursoDados>, m: Materia): (r: OMap<CursoDados>)
    ensures forall k :: k in Keys(r) <==> k in Keys(d) || (m.curso != "" && k == m.curso)
    ensures UniqueKeys(d) ==> UniqueKeys(r)
  {
    if m.curso == "" then d
    else
      var cd := CursoOf(d, m.curso);
      var mk := MatrizKey(m);
      var md := MatrizOf(d, m.curso, mk);
      if m.tipo == "eletiva" then
        Put(d, m.curso, CursoDados(Put(cd.matrizes, mk, md.(eletivas := md.eletivas + [m])), cd.eletivas + [m]))
      else
        var s := SemKey(m.semestre);
        var ps := Put(md.porSemestre, s, GetOr(md.porSemestre, s, []) + [m]);
        Put(d, m.curso, cd.(matrizes := Put(cd.matrizes, mk, md.(porSemestre := ps))))
  }

  /** Courses other than the row's keep their data. */
  lemma OutroCursoIntacto(d: OMap<CursoDados>, m: Materia, k: string)
    requires m.curso == "" || k != m.curso
    ensures CursoOf(AdicionarLinha(d, m), k) == CursoOf(d, k)
  {
  }

  /** Filing one row adds it to exactly the groups it belongs to. */
  lemma AdicionarLinhaNoGrupo(d: OMap<CursoDados>, m: Materia, k: string, mk: string, s: string)
    ensures SemList(AdicionarLinha(d, m), k, mk, s)
            == SemList(d, k, mk, s) + (if NoSemestre(m, k, mk, s) then [m] else [])
    ensures MatrizOf(AdicionarLinha(d, m), k, mk).eletivas
            == MatrizOf(d, k, mk).eletivas + (if EletivaDaMatriz(m, k, mk) then [m] else [])
    ensures CursoOf(AdicionarLinha(d, m), k).eletivas
            == CursoOf(d, k).eletivas + (if EletivaDoCurso(m, k) then [m] else [])
    ensures mk in Keys(CursoOf(AdicionarLinha(d, m), k).matrizes)
            <==> mk in Keys(CursoOf(d, k).matrizes) || (m.curso != "" && k == m.curso && mk == MatrizKey(m))
  {
    if m.curso == "" || k != m.curso {
      OutroCursoIntacto(d, m, k);
    } else if m.tipo == "eletiva" {
      EletivaNoGrupo(d, m, mk, s);
    } else {
      ObrigatoriaNoGrupo(d, m, mk, s);
    }
  }

  /** AdicionarLinhaNoGrupo for an elective row, on its own course. */
  lemma EletivaNoGrupo(d: OMap<CursoDados>, m: Materia, mk: string, s: string)
    requires m.curso != "" && m.tipo == "eletiva"
    ensures SemList(AdicionarLinha(d, m), m.curso, mk, s) == SemList(d, m.curso, mk, s)
    ensures MatrizOf(AdicionarLinha(d, m), m.curso, mk).eletivas
            == MatrizOf(d, m.curso, mk).eletivas + (if MatrizKey(m) == mk then [m] else [])
    ensures CursoOf(AdicionarLinha(d, m), m.curso).eletivas == CursoOf(d, m.curso).eletivas + [m]
    ensures mk in Keys(CursoOf(AdicionarLinha(d, m), m.curso).matrizes)
            <==> mk in Keys(CursoOf(d, m.curso).matrizes) || mk == MatrizKey(m)
  {
    var k := m.curso;
    var r := AdicionarLinha(d, m);
    var cd := CursoOf(d, k);
    var mk0 := MatrizKey(m);
    var md := MatrizOf(d, k, mk0);
    assert CursoOf(r, k) == CursoDados(Put(cd.matrizes, mk0, md.(eletivas := md.eletivas + [m])), cd.eletivas + [m]);
  }

  /** AdicionarLinhaNoGrupo for a row that is not elective, on its own course. */
  lemma ObrigatoriaNoGrupo(d: OMap<CursoDados>, m: Materia, mk: string, s: string)
    requires m.curso != "" && m.tipo != "eletiva"
    ensures SemList(AdicionarLinha(d, m), m.curso, mk, s)
            == SemList(d, m.curso, mk, s) + (if MatrizKey(m) == mk && SemKey(m.semestre) == s then [m] else [])
    ensures MatrizOf(AdicionarLinha(d, m), m.curso, mk).eletivas == MatrizOf(d, m.curso, mk).eletivas
    ensures CursoOf(AdicionarLinha(d, m), m.curso).eletivas == CursoOf(d, m.curso).eletivas
    ensures mk in Keys(CursoOf(AdicionarLinha(d, m), m.curso).matrizes)
            <==> mk in Keys(CursoOf(d, m.curso).matrizes) || mk == MatrizKey(m)
  {
    var k := m.curso;
    var md := MatrizOf(d, k, mk);
    var s0 := SemKey(m.semestre);
    ObrigatoriaMatriz(d, m, mk);
    if mk == MatrizKey(m) {
      var ps := Put(md.porSemestre, s0, GetOr(md.porSemestre, s0, []) + [m]);
      assert SemList(AdicionarLinha(d, m), k, mk, s) == GetOr(ps, s, []);
      if s == s0 {
        assert Get(ps, s) == Some(GetOr(md.porSemestre, s0, []) + [m]);
      } else {
        assert Get(ps, s) == Get(md.porSemestre, s);
      }
    } else {
      assert SemList(AdicionarLinha(d, m), k, mk, s) == SemList(d, k, mk, s);
    }
  }

  /** The matrix a non-elective row is filed under gains it in its semester list;
      every other matrix of its course is unchanged. */
  lemma ObrigatoriaMatriz(d: OMap<CursoDados>, m: Materia, mk: string)
    requires m.curso != "" && m.tipo != "eletiva"
    ensures MatrizOf(AdicionarLinha(d, m), m.curso, mk)
            == if mk == MatrizKey(m)
               then var md := MatrizOf(d, m.curso, mk);
                    var s0 := SemKey(m.semestre);
                    md.(porSemestre := Put(md.porSemestre, s0, GetOr(md.porSemestre, s0, []) + [m]))
               else MatrizOf(d, m.curso, mk)
    ensures CursoOf(AdicionarLinha(d, m), m.curso).eletivas == CursoOf(d, m.curso).eletivas
    ensures mk in Keys(CursoOf(AdicionarLinha(d, m), m.curso).matrizes)
            <==> mk in Keys(CursoOf(d, m.curso).matrizes) || mk == MatrizKey(m)
  {
    var k := m.curso;
    var cd := CursoOf(d, k);
    var mk0 := MatrizKey(m);
    var md := MatrizOf(d, k, mk0);
    var s0 := SemKey(m.semestre);
    var ps := Put(md.porSemestre, s0, GetOr(md.porSemestre, s0, []) + [m]);
    assert CursoOf(AdicionarLinha(d, m), k) == cd.(matrizes := Put(cd.matrizes, mk0, md.(porSemestre := ps)));
  }

  /** Some row names course `k`. */
  ghost predicate CursoEmLinhas(rows: seq<Materia>, k: string)
  {
    exists x :: x in rows && x.curso == k
  }

  /** The course keys: every listed course id and every course some row names. */
  ghost predicate ChavesAgrupadas(dados: OMap<CursoDados>, cursos: seq<Curso>, rows: seq<Materia>)
  {
    UniqueKeys(dados)
    && forall k :: k in Keys(dados) <==>
         k != "" && ((exists c :: c in cursos && c.id == k) || CursoEmLinhas(rows, k))
  }

  /** Under each course, one matrix per matrix key its rows use. */
  ghost predicate MatrizesAgrupadas(dados: OMap<CursoDados>, rows: seq<Materia>)
  {
    forall k, mk :: mk in Keys(CursoOf(dados, k).matrizes) <==>
      exists x :: x in rows && x.curso != "" && x.curso == k && MatrizKey(x) == mk
  }

  /** Every group holds exactly its rows, in row order. */
  ghost predicate GruposAgrupados(dados: OMap<CursoDados>, rows: seq<Materia>)
  {
    (forall k, mk, s :: SemList(dados, k, mk, s) == GrupoSemestre(rows, k, mk, s))
    && (forall k, mk :: MatrizOf(dados, k, mk).eletivas == GrupoEletivasMatriz(rows, k, mk))
    && (forall k :: CursoOf(dados, k).eletivas == GrupoEletivasCurso(rows, k))
  }

  /** `dados` is the grouping of `rows` for the course list `cursos`. */
  ghost predicate Agrupado(dados: OMap<CursoDados>, cursos: seq<Curso>, rows: seq<Materia>)
  {
    ChavesAgrupadas(dados, cursos, rows) && MatrizesAgrupadas(dados, rows) && GruposAgrupados(dados, rows)
  }

  lemma AgrupadoInicio(dados: OMap<CursoDados>, cursos: seq<Curso>)
    requires UniqueKeys(dados)
    requires forall k :: k in Keys(dados) <==> k != "" && exists c :: c in cursos && c.id == k
    requires forall k :: CursoOf(dados, k) == NovoCurso
    ensures Agrupado(dados, cursos, [])
  {
    assert forall k :: !CursoEmLinhas([], k);
  }

  /** Proof helper for AgruparPorCurso: one row keeps the course keys grouped. */
  lemma {:induction false} ChavesPasso(dados: OMap<CursoDados>, cursos: seq<Curso>, rows: seq<Materia>, m: Materia)
    requires ChavesAgrupadas(dados, cursos, rows)
    ensures ChavesAgrupadas(AdicionarLinha(dados, m), cursos, rows + [m])
  {
    var rows' := rows + [m];
    forall k ensures CursoEmLinhas(rows', k) <==> CursoEmLinhas(rows, k) || m.curso == k
    {
      if m.curso == k { assert m in rows'; }
    }
  }

  /** Proof helper for AgruparPorCurso: one row keeps the matrix keys grouped. */
  lemma {:induction false} MatrizesPasso(dados: OMap<CursoDados>, rows: seq<Materia>, m: Materia)
    requires MatrizesAgrupadas(dados, rows)
    ensures MatrizesAgrupadas(AdicionarLinha(dados, m), rows + [m])
  {
    var rows' := rows + [m];
    forall k, mk
      ensures mk in Keys(CursoOf(AdicionarLinha(dados, m), k).matrizes) <==>
                exists x :: x in rows' && x.curso != "" && x.curso == k && MatrizKey(x) == mk
    {
      AdicionarLinhaNoGrupo(dados, m, k, mk, "");
      if m.curso != "" && k == m.curso && mk == MatrizKey(m) { assert m in rows'; }
    }
  }

  /** Proof helper for AgruparPorCurso: one row keeps every group equal to its rows. */
  lemma {:induction false} GruposPasso(dados: OMap<CursoDados>, rows: seq<Materia>, m: Materia)
    requires GruposAgrupados(dados, rows)
    ensures GruposAgrupados(AdicionarLinha(dados, m), rows + [m])
  {
    var r := AdicionarLinha(dados, m);
    var rows' := rows + [m];
    assert rows'[..|rows'| - 1] == rows;
    forall k, mk, s ensures SemList(r, k, mk, s) == GrupoSemestre(rows', k, mk, s) {
      AdicionarLinhaNoGrupo(dados, m, k, mk, s);
    }
    forall k, mk ensures MatrizOf(r, k, mk).eletivas == GrupoEletivasMatriz(rows', k, mk) {
      AdicionarLinhaNoGrupo(dados, m, k, mk, "");
    }
    forall k ensures CursoOf(r, k).eletivas == GrupoEletivasCurso(rows', k) {
      AdicionarLinhaNoGrupo(dados, m, k, "", "");
    }
  }

  /** The first loop of loadDataFromCsv's grouping: one empty entry per listed course
      with an id, in list order. */
  method EntradasDosCursos(cursos: seq<Curso>) returns (dados: OMap<CursoDados>)
    ensures UniqueKeys(dados)
    ensures forall k :: k in Keys(dados) <==> k != "" && exists c :: c in cursos && c.id == k
    ensures forall k :: CursoOf(dados, k) == NovoCurso
  {
    dados := [];
    for i := 0 to |cursos|
      invariant UniqueKeys(dados)
      invariant forall k :: k in Keys(dados) <==> k != "" && exists c :: c in cursos[..i] && c.id == k
      invariant forall k :: CursoOf(dados, k) == NovoCurso
    {
      var antes := dados;
      if cursos[i].id != "" {
        PutNovoCurso(dados, cursos[i].id);
        dados := Put(dados, cursos[i].id, NovoCurso);
      }
      EntradaPasso(antes, dados, cursos, i);
    }
    assert cursos[..|cursos|] == cursos;
  }

  /** Proof helper for AgruparPorCurso: adding an empty course keeps every course empty. */
  lemma PutNovoCurso(dados: OMap<CursoDados>, id: string)
    requires forall k :: CursoOf(dados, k) == NovoCurso
    ensures forall k :: CursoOf(Put(dados, id, NovoCurso), k) == NovoCurso
  {
    forall k ensures CursoOf(Put(dados, id, NovoCurso), k) == NovoCurso {
      if k != id {
        assert CursoOf(dados, k) == NovoCurso;
      }
    }
  }

  /** Proof helper for EntradasDosCursos: one listed course handled, its id is a key
      when it is not empty. */
  lemma EntradaPasso(antes: OMap<CursoDados>, dados: OMap<CursoDados>, cursos: seq<Curso>, i: int)
    requires 0 <= i < |cursos|
    requires forall k :: k in Keys(antes) <==> k != "" && exists c :: c in cursos[..i] && c.id == k
    requires dados == if cursos[i].id != "" then Put(antes, cursos[i].id, NovoCurso) else antes
    ensures forall k :: k in Keys(dados) <==> k != "" && exists c :: c in cursos[..i + 1] && c.id == k
  {
    assert cursos[..i + 1] == cursos[..i] + [cursos[i]];
  }

  /** The grouping done by loadDataFromCsv: one (empty) entry per listed course with an
      id, then every row filed under its course, matrix key and semester key, electives
      under both their matrix and their course. */
  method AgruparPorCurso(cursos: seq<Curso>, rows: seq<Materia>) returns (dados: OMap<CursoDados>)
    ensures Agrupado(dados, cursos, rows)
  {
    dados := EntradasDosCursos(cursos);
    AgrupadoInicio(dados, cursos);
    for i := 0 to |rows|
      invariant Agrupado(dados, cursos, rows[..i])
    {
      ChavesPasso(dados, cursos, rows[..i], rows[i]);
      MatrizesPasso(dados, rows[..i], rows[i]);
      GruposPasso(dados, rows[..i], rows[i]);
      assert rows[..i + 1] == rows[..i] + [rows[i]];
      dados := AdicionarLinha(dados, rows[i]);
    }
    assert rows[..|rows|] == rows;
  }

  // ---------------------------------------------------------------- getters

  /** The course key used when none is given: the first course of the grouped data. */
  function CursoResolvido(d: OMap<CursoDados>, cursoId: string): string
  {
    if cursoId != "" then cursoId else if |d| > 0 then d[0].key else ""
  }

  /** The matrix key used when none is given: the course's first matrix, else "default". */
  function PrimeiraMatriz(cd: CursoDados): string
  {
    if |cd.matrizes| > 0 then cd.matrizes[0].key else "default"
  }

  /** The matrix key a lookup reads: the given one, else the course's first. */
  function MatrizResolvida(cd: CursoDados, matrizId: string): string
  {
    if matrizId != "" then matrizId else PrimeiraMatriz(cd)
  }

  /** getMateriasPorSemestre(cursoId, semestre, matrizId) with a semester given. */
  function MateriasDoSemestre(csv: Option<OMap<CursoDados>>, cursoId: string, semestre: int,
                              matrizId: string): (r: seq<Materia>)
    ensures csv.None? ==> r == []
    ensures csv.Some? && cursoId != "" && matrizId != "" ==>
              r == SemList(csv.value, cursoId, matrizId, IntToString(semestre))
    ensures csv.Some? && cursoId == "" && |csv.value| == 0 ==> r == []
    ensures csv.Some? && cursoId != "" && cursoId !in Keys(csv.value) ==> r == []
    ensures csv.Some? && cursoId != "" && cursoId in Keys(csv.value) && matrizId == "" ==>
              r == SemList(csv.value, cursoId, PrimeiraMatriz(CursoOf(csv.value, cursoId)), IntToString(semestre))
    ensures csv.Some? && cursoId == "" && |csv.value| > 0 && csv.value[0].key != "" ==>
              r == SemList(csv.value, csv.value[0].key,
                           MatrizResolvida(CursoOf(csv.value, csv.value[0].key), matrizId), IntToString(semestre))
  {
    if csv.None? then []
    else
      var d := csv.value;
      var k := CursoResolvido(d, cursoId);
      if k == "" || k !in Keys(d) then []
      else SemList(d, k, MatrizResolvida(CursoOf(d, k), matrizId), IntToString(semestre))
  }

  /** getMateriasPorSemestre(cursoId, undefined, matrizId): the whole semester map. */
  function MapaPorSemestre(csv: Option<OMap<CursoDados>>, cursoId: string, matrizId: string)
    : (r: OMap<seq<Materia>>)
    ensures csv.None? ==> r == []
    ensures csv.Some? && cursoId != "" && matrizId != "" ==>
              forall s :: GetOr(r, s, []) == SemList(csv.value, cursoId, matrizId, s)
    ensures csv.Some? && cursoId != "" && cursoId !in Keys(csv.value) ==> r == []
    ensures csv.Some? && cursoId != "" && cursoId in Keys(csv.value) && matrizId == "" ==>
              forall s :: GetOr(r, s, []) == SemList(csv.value, cursoId, PrimeiraMatriz(CursoOf(csv.value, cursoId)), s)
    ensures csv.Some? && cursoId == "" && |csv.value| == 0 ==> r == []
    ensures csv.Some? && cursoId == "" && |csv.value| > 0 && csv.value[0].key != "" ==>
              forall s :: GetOr(r, s, []) == SemList(csv.value, csv.value[0].key,
                                                     MatrizResolvida(CursoOf(csv.value, csv.value[0].key), matrizId), s)
  {
    if csv.None? then []
    else
      var d := csv.value;
      var k := CursoResolvido(d, cursoId);
      if k == "" || k !in Keys(d) then []
      else MatrizOf(d, k, MatrizResolvida(CursoOf(d, k), matrizId)).porSemestre
  }

  /** getEletivas(cursoId, matrizId) */
  function Eletivas(csv: Option<OMap<CursoDados>>, cursoId: string, matrizId: string): (r: seq<Materia>)
    ensures csv.None? ==> r == []
    ensures csv.Some? && cursoId != "" && matrizId != "" ==>
              r == MatrizOf(csv.value, cursoId, matrizId).eletivas
    ensures csv.Some? && cursoId != "" && cursoId !in Keys(csv.value) ==> r == []
    ensures csv.Some? && cursoId != "" && cursoId in Keys(csv.value) && matrizId == "" ==>
              r == MatrizOf(csv.value, cursoId, PrimeiraMatriz(CursoOf(csv.value, cursoId))).eletivas
    ensures csv.Some? && cursoId == "" && |csv.value| == 0 ==> r == []
    ensures csv.Some? && cursoId == "" && |csv.value| > 0 && csv.value[0].key != "" ==>
              r == MatrizOf(csv.value, csv.value[0].key, MatrizResolvida(CursoOf(csv.value, csv.value[0].key), matrizId)).eletivas
  {
    if csv.None? then []
    else
      var d := csv.value;
      var k := CursoResolvido(d, cursoId);
      if k == "" || k !in Keys(d) then []
      else MatrizOf(d, k, MatrizResolvida(CursoOf(d, k), matrizId)).eletivas
  }

  /** Read over data grouped from `rows`, a semester lookup returns exactly the
      obligatory rows of that course, matrix and semester, in row order. */
  lemma MateriasDoSemestreAgrupadas(cursos: seq<Curso>, rows: seq<Materia>, dados: OMap<CursoDados>,
                                    k: string, mk: string, semestre: int)
    requires Agrupado(dados, cursos, rows)
    requires k != "" && mk != ""
    ensures forall x :: x in MateriasDoSemestre(Some(dados), k, semestre, mk) <==>
              x in rows && x.curso == k && MatrizKey(x) == mk && x.tipo != "eletiva"
              && SemKey(x.semestre) == IntToString(semestre)
  {
  }

  // ---------------------------------------------------------------- getCursos

  /** The digits at the start of `s`. */
  function DigitosIniciais(s: string): (r: string)
    ensures |r| <= |s| && r == s[..|r|] && AllDigits(r)
    ensures |r| == |s| || !IsDigit(s[|r|])
  {
    if |s| > 0 && IsDigit(s[0]) then [s[0]] + DigitosIniciais(s[1..]) else ""
  }

  /** `i` is where the first run of digits of `s` starts. */
  predicate InicioPrimeiroNumero(s: string, i: int)
  {
    0 <= i < |s| && IsDigit(s[i]) && forall j :: 0 <= j < i ==> !IsDigit(s[j])
  }

  /** `Number(s.match(/\d+/)[0])`: the value of the first run of digits; None when
      `s` has no digit (the source then uses +Infinity). */
  function PrimeiroNumero(s: string): (r: Option<nat>)
    ensures r.None? <==> forall i :: 0 <= i < |s| ==> !IsDigit(s[i])
    ensures r.Some? ==> exists i :: InicioPrimeiroNumero(s, i) && r.value == DigitsValue(DigitosIniciais(s[i..]))
  {
    if |s| == 0 then None
    else if IsDigit(s[0]) then
      assert InicioPrimeiroNumero(s, 0) && s[0..] == s;
      Some(DigitsValue(DigitosIniciais(s)))
    else
      var r := PrimeiroNumero(s[1..]);
      assert forall i :: 0 <= i < |s[1..]| ==> s[1..][i] == s[i + 1];
      assert r.Some? ==> exists i :: InicioPrimeiroNumero(s, i) && r.value == DigitsValue(DigitosIniciais(s[i..]))
      by {
        if r.Some? {
          var i :| InicioPrimeiroNumero(s[1..], i) && r.value == DigitsValue(DigitosIniciais(s[1..][i..]));
          assert s[1..][i..] == s[i + 1..];
          assert InicioPrimeiroNumero(s, i + 1);
        }
      }
      r
  }

  /** `a <= b` where None stands for +Infinity. */
  predicate NumLe(a: Option<nat>, b: Option<nat>)
  {
    b.None? || (a.Some? && a.value <= b.value)
  }

  /** The order of getCursos: by the first number in the id, ids without digits last,
      equal numbers by id. */
  predicate CursoAntes(a: Curso, b: Curso)
  {
    var na := PrimeiroNumero(a.id);
    var nb := PrimeiroNumero(b.id);
    if na != nb then NumLe(na, nb) else LexLe(a.id, b.id)
  }

  lemma CursoAntesTotal()
    ensures Total(CursoAntes)
  {
    forall a: Curso, b: Curso ensures CursoAntes(a, b) || CursoAntes(b, a) {
      LexLeTotal(a.id, b.id);
    }
  }

  /** Proof helper for the course order: NumLe is antisymmetric. */
  lemma NumLeAntissimetrico(a: Option<nat>, b: Option<nat>)
    requires NumLe(a, b) && NumLe(b, a)
    ensures a == b
  {
  }

  /** Proof helper for CursoAntesTransitivo: one chain of three courses. */
  lemma CursoAntesTransitivo3(a: Curso, b: Curso, c: Curso)
    requires CursoAntes(a, b) && CursoAntes(b, c)
    ensures CursoAntes(a, c)
  {
    var na, nb, nc := PrimeiroNumero(a.id), PrimeiroNumero(b.id), PrimeiroNumero(c.id);
    if na == nb && nb == nc {
      LexLeTransitive(a.id, b.id, c.id);
    } else if na != nb && nb != nc {
      assert NumLe(na, nc);
      if na == nc { NumLeAntissimetrico(na, nb); }
    }
  }

  lemma CursoAntesTransitivo()
    ensures Transitive(CursoAntes)
  {
    forall a: Curso, b: Curso, c: Curso | CursoAntes(a, b) && CursoAntes(b, c) ensures CursoAntes(a, c) {
      CursoAntesTransitivo3(a, b, c);
    }
  }

  /** getCursos: the loaded courses, reordered. */
  function GetCursos(csv: Option<seq<Curso>>): (r: seq<Curso>)
    ensures csv.None? ==> r == []
    ensures csv.Some? ==> multiset(r) == multiset(csv.value) && SortedBy(r, CursoAntes)
  {
    if csv.None? then []
    else
      CursoAntesTotal();
      SortBy(csv.value, CursoAntes)
  }

  /** Any course listed before another has a smaller first number, or the same number
      and an id that is no greater; a course without digits is never followed by one with. */
  lemma {:induction false} GetCursosOrdem(csv: Option<seq<Curso>>, i: int, j: int)
    requires csv.Some? && 0 <= i < j < |GetCursos(csv)|
    ensures var r := GetCursos(csv);
      NumLe(PrimeiroNumero(r[i].id), PrimeiroNumero(r[j].id))
      && (PrimeiroNumero(r[i].id) == PrimeiroNumero(r[j].id) ==> LexLe(r[i].id, r[j].id))
      && (PrimeiroNumero(r[i].id).None? ==> PrimeiroNumero(r[j].id).None?)
  {
    CursoAntesTransitivo();
    SortedByIsPairwise(GetCursos(csv), CursoAntes);
  }

  // ---------------------------------------------------------------- getMatrizesByCurso

  /** `s.replace(/\D/g, '')` */
  function SoDigitos(s: string): (r: string)
    ensures AllDigits(r)
    ensures forall c :: c in r <==> c in s && IsDigit(c)
    ensures IsSubseq(r, s)
    ensures forall c :: multiset(r)[c] == if IsDigit(c) then multiset(s)[c] else 0
  {
    if |s| == 0 then ""
    else
      var rest := SoDigitos(s[1..]);
      assert s == [s[0]] + s[1..];
      if IsDigit(s[0]) then [s[0]] + rest else rest
  }

  /** parseKey of getMatrizesByCurso: year * 100 + period of the first year-period
      pattern, else the number its digits spell (0 without digits). Only the empty
      key has no score. */
  function PontuacaoMatriz(k: string): (r: Option<nat>)
    ensures r.None? <==> k == ""
  {
    if k == "" then None
    else match CasaAnoPeriodo(k, 0)
      case Some(ap) => Some(Pontuacao(ap))
      case None => Some(DigitsValue(SoDigitos(k)))
  }

  /** The order of the fallback branch: higher score first, scored keys before
      unscored ones, unscored keys by descending id. */
  predicate MatrizAntes(a: string, b: string)
  {
    var pa := PontuacaoMatriz(a);
    var pb := PontuacaoMatriz(b);
    if pa.Some? && pb.Some? then pb.value <= pa.value
    else if pa.Some? then true
    else if pb.Some? then false
    else LexLe(b, a)
  }

  lemma MatrizAntesTotal()
    ensures Total(MatrizAntes)
  {
    forall a: string, b: string ensures MatrizAntes(a, b) || MatrizAntes(b, a) {
      LexLeTotal(a, b);
    }
  }

  lemma MatrizAntesTransitivo()
    ensures Transitive(MatrizAntes)
  {
    forall a: string, b: string, c: string | MatrizAntes(a, b) && MatrizAntes(b, c)
      ensures MatrizAntes(a, c)
    {
      if a == "" && b == "" && c == "" { LexLeTransitive(c, b, a); }
    }
  }

  /** Descending id order, the order of the first branch. */
  predicate Descendente(a: string, b: string)
  {
    LexLe(b, a)
  }

  lemma DescendenteTotal()
    ensures Total(Descendente)
  {
    forall a: string, b: string ensures Descendente(a, b) || Descendente(b, a) {
      LexLeTotal(a, b);
    }
  }

  /** getMatrizesByCurso(cursoId), as the list of matrix ids (each result's `nome` is
      its id): a listed course's own matrices in descending id order; otherwise the
      matrix keys of its grouped data, by descending score, keys with equal scores
      (such as "default" and "antiga", both 0) keeping their key order; otherwise nothing. */
  function MatrizesDoCurso(cursos: Option<seq<Curso>>, csv: Option<OMap<CursoDados>>,
                           cursoId: string): (r: seq<string>)
    ensures cursos.Some? && CursoPorId(cursos.value, cursoId).Some?
            && |CursoPorId(cursos.value, cursoId).value.matrizes| > 0
            ==> multiset(r) == multiset(CursoPorId(cursos.value, cursoId).value.matrizes)
                && SortedBy(r, Descendente)
    ensures !(cursos.Some? && CursoPorId(cursos.value, cursoId).Some?
              && |CursoPorId(cursos.value, cursoId).value.matrizes| > 0)
            ==> (if csv.Some? && cursoId in Keys(csv.value)
                 then multiset(r) == multiset(Keys(CursoOf(csv.value, cursoId).matrizes))
                      && SortedBy(r, MatrizAntes)
                      && forall x :: Empatados(r, x, MatrizAntes)
                                     == Empatados(Keys(CursoOf(csv.value, cursoId).matrizes), x, MatrizAntes)
                 else r == [])
  {
    var c := if cursos.Some? then CursoPorId(cursos.value, cursoId) else None;
    if c.Some? && |c.value.matrizes| > 0 then
      DescendenteTotal();
      SortBy(c.value.matrizes, Descendente)
    else if csv.Some? && cursoId in Keys(csv.value) then
      MatrizAntesTotal();
      MatrizAntesTransitivo();
      SortByEstavel(Keys(CursoOf(csv.value, cursoId).matrizes), MatrizAntes);
      SortBy(Keys(CursoOf(csv.value, cursoId).matrizes), MatrizAntes)
    else []
  }

  /** In the fallback order, a key listed before another has a score no lower, and a
      scored key is never preceded by the unscored (empty) key. */
  lemma {:induction false} MatrizesFallbackOrdem(ks: seq<string>, i: int, j: int)
    requires SortedBy(ks, MatrizAntes) && 0 <= i < j < |ks|
    ensures PontuacaoMatriz(ks[i]).Some? && PontuacaoMatriz(ks[j]).Some?
            ==> PontuacaoMatriz(ks[j]).value <= PontuacaoMatriz(ks[i]).value
    ensures PontuacaoMatriz(ks[j]).Some? ==> PontuacaoMatriz(ks[i]).Some?
  {
    MatrizAntesTransitivo();
    SortedByIsPairwise(ks, MatrizAntes);
  }

  /** "2023/1" scores 202301. */
  lemma PontuacaoExemplo()
    ensures PontuacaoMatriz("2023/1") == Some(202301)
  {
    ValorDe2023();
    assert AllDigits("1") && DigitsValue("1") == 1 by { assert "1"[..0] == ""; }
    assert forall i :: 0 <= i < |"/"| ==> !IsDigit("/"[i]);
    CasaAnoSeparadorPeriodo("2023", "/", "1");
    assert "2023" + "/" + "1" == "2023/1";
  }

  /** Proof helper for the matrix score examples: "2023" reads as 2023. */
  lemma ValorDe2023()
    ensures AllDigits("2023") && DigitsValue("2023") == 2023
  {
    assert "2023"[..3] == "202" && "202"[..2] == "20" && "20"[..1] == "2";
  }

  // ---------------------------------------------------------------- buscarCursos

  /** buscarCursos(termo) over the loaded courses. */
  function BuscarCursos(csv: Option<seq<Curso>>, termo: string): (r: seq<Curso>)
    ensures csv.None? ==> r == []
    ensures csv.Some? ==> IsSubseq(r, csv.value) && forall c :: c in r <==> c in csv.value && CasaBusca(c, termo)
  {
    if csv.None? then [] else FiltrarBusca(csv.value, termo)
  }
}

=== FILE: historico.dfy ===
/** The approved-subjects checklist. Unchecking always goes through; checking a
    subject goes through only when the CSV-aware prerequisite check, called with the
    approved list and no calendar, finds nothing missing. A refused check shakes the
    subject's card and reports the missing codes. */
module Historico {
  import opened Base
  import opened OrderedMap
  import opened Catalog
  import opened DataIndex

  /** Whether handleToggle lets the toggle through. */
  function Permite(m: Materia, aprovadas: seq<string>): (ok: bool)
    ensures ok <==> m.codigo in aprovadas || Satisfeito(m, aprovadas, [])
  {
    m.codigo in aprovadas || VerificarPreRequisitos(m, aprovadas, []).cumprido
  }

  /** The gate reads the approved list only: a co-requisite already placed on the
      calendar does not open it. */
  lemma CoreqNoCalendarioNaoBasta(m: Materia, aprovadas: seq<string>, cal: OMap<Placed>, c: string)
    requires m.codigo !in aprovadas && m.detalhada.Some?
    requires c in m.detalhada.value.coreq && c !in aprovadas
    ensures !Permite(m, aprovadas)
  {
    assert !Satisfeito(m, aprovadas, []);
  }

  class HistoricoView {
    /** The code whose card is shaking, "" for none. */
    var shakingMateria: string

    constructor ()
      ensures shakingMateria == ""
    {
      shakingMateria := "";
    }

    /** handleToggle: `toggled` is the code passed to onToggleMateria, if it was
        called; `faltando` the missing codes the error toast names, if one is shown. */
    method HandleToggle(m: Materia, aprovadas: seq<string>) returns (toggled: Option<string>, faltando: Option<seq<string>>)
      modifies this
      ensures toggled.Some? <==> Permite(m, aprovadas)
      ensures toggled.Some? ==> toggled.value == m.codigo && faltando.None?
                                && shakingMateria == old(shakingMateria)
      ensures toggled.None? ==>
                shakingMateria == m.codigo && faltando.Some? && faltando.value != []
                && faltando.value == VerificarPreRequisitos(m, aprovadas, []).faltando
    {
      var isChecked := m.codigo in aprovadas;
      if !isChecked {
        var v := VerificarPreRequisitos(m, aprovadas, []);
        if !v.cumprido {
          shakingMateria := m.codigo;
          return None, Some(v.faltando);
        }
      }
      return Some(m.codigo), None;
    }
  }
}

=== FILE: materias.dfy ===
/** The built-in Sistemas de Informação catalogue: the section builder used to write
    it, the course table that serves it under two ids, the legacy flat prerequisite
    check and the subject-name lookup. The catalogue's subjects themselves are data
    and enter the model as the `si` parameter. */
module Materias {
  import opened Base
  import opened OrderedMap
  import opened Catalog
  import DataIndex

  // ---------------------------------------------------------------- criarTurmas

  /** One argument of criarTurmas. */
  datatype ConfigTurma =
    | ListaDeHorarios(hs: seq<Horario>)          // an array of slots
    | ComHorarios(id: Option<string>, horarios: seq<Horario>, anp: Option<bool>)
                                                  // an object whose horarios is an array
    | OutraConfig                                 // anything else

  /** `String.fromCharCode(65 + idx)`: "A", "B", "C", ... A position whose code
      would fall in the UTF-16 surrogate range has no character here. */
  function Letra(idx: nat): (r: string)
    ensures 65 + idx < 0xD800 ==> |r| == 1 && r[0] as int == 65 + idx
  {
    if 65 + idx < 0xD800 then [(65 + idx) as char] else ""
  }

  /** The section built from the argument at position `idx`. In `{ id, ...config }`
      an id of the object itself wins over the letter. */
  function TurmaDaConfig(idx: nat, c: ConfigTurma): Turma
  {
    match c
    case ListaDeHorarios(hs) => Turma(Letra(idx), hs, None)
    case ComHorarios(id, hs, anp) => Turma(if id.Some? then id.value else Letra(idx), hs, anp)
    case OutraConfig => Turma(Letra(idx), [], None)
  }

  function CriarTurmas(configs: seq<ConfigTurma>): (r: seq<Turma>)
    ensures |r| == |configs|
    ensures forall i :: 0 <= i < |r| ==> r[i] == TurmaDaConfig(i, configs[i])
  {
    seq(|configs|, i requires 0 <= i < |configs| => TurmaDaConfig(i, configs[i]))
  }

  /** Sections are lettered by position; with no object supplying its own id they get
      distinct one-letter ids, and each keeps exactly the slots it was given. */
  lemma CriarTurmasSpec(configs: seq<ConfigTurma>)
    requires forall i :: 0 <= i < |configs| ==> !(configs[i].ComHorarios? && configs[i].id.Some?)
    requires |configs| <= 26
    ensures var r := CriarTurmas(configs);
      (forall i :: 0 <= i < |r| ==> |r[i].id| == 1 && 'A' <= r[i].id[0] <= 'Z' && r[i].id[0] as int == 65 + i)
      && (forall i, j :: 0 <= i < j < |r| ==> r[i].id != r[j].id)
      && (forall i :: 0 <= i < |r| ==>
            r[i].horarios == (match configs[i]
                              case ListaDeHorarios(hs) => hs
                              case ComHorarios(_, hs, _) => hs
                              case OutraConfig => []))
      && (forall i :: 0 <= i < |r| ==> r[i].anp == (if configs[i].ComHorarios? then configs[i].anp else None))
  {
    var r := CriarTurmas(configs);
    forall i, j | 0 <= i < j < |r| ensures r[i].id != r[j].id {
      assert r[i].id[0] != r[j].id[0];
    }
  }

  // ---------------------------------------------------------------- the course table

  /** A course's semester map and electives, shaped as the grouped CSV data keeps them
      per matrix. */
  type Dados = DataIndex.MatrizDados

  /** The course table: "G014" and its alias "si" both name the SI catalogue. */
  function DadosPorCurso(si: Dados): (r: OMap<Dados>)
    ensures Keys(r) == ["G014", "si"]
  {
    [Entry("G014", si), Entry("si", si)]
  }

  /** getMateriasPorSemestre(cursoId) over a course table: the course's semester map,
      the SI one for an id the table lacks. */
  function PorSemestreDe(dados: OMap<Dados>, si: Dados, cursoId: string): (r: OMap<seq<Materia>>)
    ensures cursoId !in Keys(dados) ==> r == si.porSemestre
    ensures cursoId in Keys(dados) ==> Get(dados, cursoId).Some? && r == Get(dados, cursoId).value.porSemestre
  {
    GetOr(dados, cursoId, si).porSemestre
  }

  /** getEletivas(cursoId) over a course table, with the same fallback. */
  function EletivasDe(dados: OMap<Dados>, si: Dados, cursoId: string): (r: seq<Materia>)
    ensures cursoId !in Keys(dados) ==> r == si.eletivas
    ensures cursoId in Keys(dados) ==> Get(dados, cursoId).Some? && r == Get(dados, cursoId).value.eletivas
  {
    GetOr(dados, cursoId, si).eletivas
  }

  /** With the shipped table every course id, known or not, is served the SI catalogue. */
  lemma SempreSistemas(si: Dados, cursoId: string)
    ensures PorSemestreDe(DadosPorCurso(si), si, cursoId) == si.porSemestre
    ensures EletivasDe(DadosPorCurso(si), si, cursoId) == si.eletivas
  {
    var d := DadosPorCurso(si);
    if cursoId in Keys(d) {
      assert Get(d, cursoId) == Some(si);
    }
  }

  // ---------------------------------------------------------------- verificarPreRequisitos

  /** The legacy flat check: no prerequisites means met; otherwise the prerequisites
      not approved, in their order. */
  function VerificarPreRequisitos(m: Materia, aprovadas: seq<string>): (r: DataIndex.Verificacao)
    ensures m.preRequisitos == [] ==> r == DataIndex.Verificacao(true, [])
    ensures forall c :: c in r.faltando <==> c in m.preRequisitos && c !in aprovadas
    ensures forall c :: multiset(r.faltando)[c] == if c in aprovadas then 0 else multiset(m.preRequisitos)[c]
    ensures IsSubseq(r.faltando, m.preRequisitos)
    ensures r.cumprido <==> forall c :: c in m.preRequisitos ==> c in aprovadas
  {
    if m.preRequisitos == [] then DataIndex.Verificacao(true, [])
    else
      var faltando := Without(m.preRequisitos, aprovadas);
      WithoutConta(m.preRequisitos, aprovadas);
      assert faltando != [] ==> faltando[0] in faltando;
      DataIndex.Verificacao(faltando == [], faltando)
  }

  /** For a subject without detailed prerequisites the legacy check and the CSV-aware
      wrapper agree, whatever is on the calendar. */
  lemma LegadoConcordaComDetalhada(m: Materia, aprovadas: seq<string>, cal: OMap<Placed>)
    requires m.detalhada.None?
    ensures VerificarPreRequisitos(m, aprovadas) == DataIndex.VerificarPreRequisitos(m, aprovadas, cal)
  {
  }

  // ---------------------------------------------------------------- getNomeMateria

  /** `ms.find(m => m.codigo === codigo)` */
  function Encontrar(ms: seq<Materia>, codigo: string): (r: Option<Materia>)
    ensures r.None? <==> forall i :: 0 <= i < |ms| ==> ms[i].codigo != codigo
    ensures r.Some? ==> exists i :: 0 <= i < |ms| && ms[i] == r.value && r.value.codigo == codigo
                          && forall j :: 0 <= j < i ==> ms[j].codigo != codigo
  {
    if |ms| == 0 then None
    else if ms[0].codigo == codigo then Some(ms[0])
    else
      var r := Encontrar(ms[1..], codigo);
      assert forall j :: 1 <= j < |ms| ==> ms[j] == ms[1..][j - 1];
      r
  }

  /** No subject before position `i` of semester `s`, in semester order and then in
      position order, has the code. */
  ghost predicate NadaAntes(sems: seq<seq<Materia>>, codigo: string, s: int, i: int)
  {
    forall s2, i2 :: 0 <= s2 < |sems| && 0 <= i2 < |sems[s2]| && (s2 < s || (s2 == s && i2 < i)) ==>
      sems[s2][i2].codigo != codigo
  }

  /** The first subject with that code, searching the semesters in order and each
      semester from its start. */
  function EncontrarNosSemestres(sems: seq<seq<Materia>>, codigo: string): (r: Option<Materia>)
    ensures r.None? <==> forall s, i :: 0 <= s < |sems| && 0 <= i < |sems[s]| ==> sems[s][i].codigo != codigo
    ensures r.Some? ==> r.value.codigo == codigo
                        && exists s, i :: 0 <= s < |sems| && 0 <= i < |sems[s]| && sems[s][i] == r.value
                                          && NadaAntes(sems, codigo, s, i)
  {
    if |sems| == 0 then None
    else
      match Encontrar(sems[0], codigo)
      case Some(m) =>
        assert exists i :: 0 <= i < |sems[0]| && sems[0][i] == m && NadaAntes(sems, codigo, 0, i);
        Some(m)
      case None =>
        var r := EncontrarNosSemestres(sems[1..], codigo);
        assert forall s :: 1 <= s < |sems| ==> sems[s] == sems[1..][s - 1];
        assert r.Some? ==> exists s, i :: 0 <= s < |sems| && 0 <= i < |sems[s]| && sems[s][i] == r.value
                                          && NadaAntes(sems, codigo, s, i) by {
          if r.Some? {
            var s, i :| 0 <= s < |sems[1..]| && 0 <= i < |sems[1..][s]| && sems[1..][s][i] == r.value
                        && NadaAntes(sems[1..], codigo, s, i);
            assert sems[s + 1][i] == r.value;
            forall s2, i2 | 0 <= s2 < |sems| && 0 <= i2 < |sems[s2]| && (s2 < s + 1 || (s2 == s + 1 && i2 < i))
              ensures sems[s2][i2].codigo != codigo
            {
              if s2 > 0 { assert sems[s2] == sems[1..][s2 - 1]; }
            }
          }
        }
        r
  }

  /** getNomeMateria: the name of the obligatory subject with that code, else of the
      elective, else the code itself. */
  function GetNomeMateria(si: Dados, codigo: string): (r: string)
  {
    match EncontrarNosSemestres(Values(si.porSemestre), codigo)
    case Some(m) => m.nome
    case None =>
      match Encontrar(si.eletivas, codigo)
      case Some(e) => e.nome
      case None => codigo
  }

  /** A code present among the obligatory subjects gets the name of the first of them,
      in semester order and then in position order. */
  lemma GetNomeMateriaObrigatoria(si: Dados, codigo: string, s: int, i: int)
    requires 0 <= s < |si.porSemestre| && 0 <= i < |si.porSemestre[s].value|
    requires si.porSemestre[s].value[i].codigo == codigo
    ensures exists s', i' :: 0 <= s' < |si.porSemestre| && 0 <= i' < |si.porSemestre[s'].value|
              && si.porSemestre[s'].value[i'].codigo == codigo
              && si.porSemestre[s'].value[i'].nome == GetNomeMateria(si, codigo)
              && NadaAntes(Values(si.porSemestre), codigo, s', i')
  {
    var sems: seq<seq<Materia>> := Values(si.porSemestre);
    assert sems[s][i].codigo == codigo;
    var m := EncontrarNosSemestres(sems, codigo).value;
    var s', i' :| 0 <= s' < |sems| && 0 <= i' < |sems[s']| && sems[s'][i'] == m && NadaAntes(sems, codigo, s', i');
    assert si.porSemestre[s'].value[i'] == m;
  }

  /** A code found only among the electives gets the first such elective's name. */
  lemma GetNomeMateriaEletiva(si: Dados, codigo: string)
    requires forall s, i :: 0 <= s < |si.porSemestre| && 0 <= i < |si.porSemestre[s].value| ==>
               si.porSemestre[s].value[i].codigo != codigo
    requires exists i :: 0 <= i < |si.eletivas| && si.eletivas[i].codigo == codigo
    ensures exists i :: 0 <= i < |si.eletivas| && si.eletivas[i].codigo == codigo
              && si.eletivas[i].nome == GetNomeMateria(si, codigo)
              && forall j :: 0 <= j < i ==> si.eletivas[j].codigo != codigo
  {
    var sems: seq<seq<Materia>> := Values(si.porSemestre);
    assert EncontrarNosSemestres(sems, codigo).None? by {
      forall s, i | 0 <= s < |sems| && 0 <= i < |sems[s]| ensures sems[s][i].codigo != codigo {
        assert sems[s] == si.porSemestre[s].value;
      }
    }
  }

  /** An unknown code names itself. */
  lemma GetNomeMateriaDesconhecida(si: Dados, codigo: string)
    requires forall s, i :: 0 <= s < |si.porSemestre| && 0 <= i < |si.porSemestre[s].value| ==>
               si.porSemestre[s].value[i].codigo != codigo
    requires forall i :: 0 <= i < |si.eletivas| ==> si.eletivas[i].codigo != codigo
    ensures GetNomeMateria(si, codigo) == codigo
  {
    var sems: seq<seq<Materia>> := Values(si.porSemestre);
    assert EncontrarNosSemestres(sems, codigo).None? by {
      forall s, i | 0 <= s < |sems| && 0 <= i < |sems[s]| ensures sems[s][i].codigo != codigo {
        assert sems[s] == si.porSemestre[s].value;
      }
    }
  }
}

=== FILE: ordered_map.dfy ===
/** A JavaScript object used as a dictionary whose key order matters: keys are kept
    in insertion order, writing an existing key keeps its place, deleting removes it. */
module OrderedMap {
  import opened Base

  datatype Entry<V> = Entry(key: string, value: V)

  type OMap<V> = seq<Entry<V>>

  /** Object.keys */
  function Keys<V>(m: OMap<V>): (ks: seq<string>)
    ensures |ks| == |m| && forall i :: 0 <= i < |m| ==> ks[i] == m[i].key
  {
    seq(|m|, i requires 0 <= i < |m| => m[i].key)
  }

  /** Object.values */
  function Values<V>(m: OMap<V>): (vs: seq<V>)
    ensures |vs| == |m| && forall i :: 0 <= i < |m| ==> vs[i] == m[i].value
  {
    seq(|m|, i requires 0 <= i < |m| => m[i].value)
  }

  /** No key occurs twice. */
  predicate UniqueKeys<V>(m: OMap<V>)
  {
    |m| == 0 || (m[0].key !in Keys(m[1..]) && UniqueKeys(m[1..]))
  }

  /** m[k], None for an absent key. */
  function Get<V>(m: OMap<V>, k: string): (r: Option<V>)
    ensures r.None? <==> k !in Keys(m)
  {
    if |m| == 0 then None
    else if m[0].key == k then Some(m[0].value)
    else
      var r := Get(m[1..], k);
      assert Keys(m) == [m[0].key] + Keys(m[1..]);
      r
  }

  /** `m[k] || d`: the value under `k`, or the default when `k` is absent. */
  function GetOr<V>(m: OMap<V>, k: string, d: V): (r: V)
    ensures k in Keys(m) ==> Get(m, k) == Some(r)
    ensures k !in Keys(m) ==> r == d
  {
    match Get(m, k)
    case Some(v) => v
    case None => d
  }

  lemma {:induction false} GetFound<V>(m: OMap<V>, k: string)
    requires Get(m, k).Some?
    ensures Entry(k, Get(m, k).value) in m
  {
    if m[0].key != k { GetFound(m[1..], k); }
  }

  /** With unique keys, every entry is what Get finds for its key. */
  lemma {:induction false} GetEntry<V>(m: OMap<V>, i: int)
    requires UniqueKeys(m) && 0 <= i < |m|
    ensures Get(m, m[i].key) == Some(m[i].value)
  {
    if i > 0 {
      GetEntry(m[1..], i - 1);
      assert m[1..][i - 1] == m[i];
      assert m[i].key in Keys(m[1..]);
    }
  }

  lemma GetCons<V>(e: Entry<V>, rest: OMap<V>)
    ensures forall k :: Get([e] + rest, k) == if e.key == k then Some(e.value) else Get(rest, k)
  {
    assert ([e] + rest)[1..] == rest;
  }

  /** `{ ...m, [k]: v }` */
  function Put<V>(m: OMap<V>, k: string, v: V): (r: OMap<V>)
    ensures Get(r, k) == Some(v)
    ensures forall k' :: k' != k ==> Get(r, k') == Get(m, k')
    ensures Keys(r) == if k in Keys(m) then Keys(m) else Keys(m) + [k]
    ensures UniqueKeys(m) ==> UniqueKeys(r)
  {
    if |m| == 0 then [Entry(k, v)]
    else if m[0].key == k then
      PutPrimeira(m, k, v);
      [Entry(k, v)] + m[1..]
    else
      var rest := Put(m[1..], k, v);
      PutDepoisGet(m, k, v, rest);
      PutDepoisKeys(m, k, rest);
      [m[0]] + rest
  }

  /** Put's step when the first entry holds the key: it is replaced in place. */
  lemma PutPrimeira<V>(m: OMap<V>, k: string, v: V)
    requires |m| > 0 && m[0].key == k
    ensures var r := [Entry(k, v)] + m[1..];
            Get(r, k) == Some(v)
            && (forall k' :: k' != k ==> Get(r, k') == Get(m, k'))
            && Keys(r) == Keys(m)
            && (UniqueKeys(m) ==> UniqueKeys(r))
  {
    var r := [Entry(k, v)] + m[1..];
    assert Keys(r) == Keys(m);
    assert r[1..] == m[1..];
    GetCons(Entry(k, v), m[1..]);
    GetCons(m[0], m[1..]);
    assert m == [m[0]] + m[1..];
  }

  /** Put's step past a first entry with another key: the lookups, given what Put does
      to the rest. */
  lemma PutDepoisGet<V>(m: OMap<V>, k: string, v: V, rest: OMap<V>)
    requires |m| > 0 && m[0].key != k
    requires Get(rest, k) == Some(v)
    requires forall k' :: k' != k ==> Get(rest, k') == Get(m[1..], k')
    ensures Get([m[0]] + rest, k) == Some(v)
    ensures forall k' :: k' != k ==> Get([m[0]] + rest, k') == Get(m, k')
  {
    GetCons(m[0], rest);
    GetCons(m[0], m[1..]);
    assert m == [m[0]] + m[1..];
  }

  /** Put's step past a first entry with another key: the keys, given what Put does to
      the rest. */
  lemma PutDepoisKeys<V>(m: OMap<V>, k: string, rest: OMap<V>)
    requires |m| > 0 && m[0].key != k
    requires Keys(rest) == if k in Keys(m[1..]) then Keys(m[1..]) else Keys(m[1..]) + [k]
    requires UniqueKeys(m[1..]) ==> UniqueKeys(rest)
    ensures Keys([m[0]] + rest) == if k in Keys(m) then Keys(m) else Keys(m) + [k]
    ensures UniqueKeys(m) ==> UniqueKeys([m[0]] + rest)
  {
    var r := [m[0]] + rest;
    assert m == [m[0]] + m[1..];
    KeysCons(m[0], m[1..]);
    KeysCons(m[0], rest);
    assert r[1..] == rest;
    if k !in Keys(m[1..]) {
      AppendAssoc([m[0].key], Keys(m[1..]), [k]);
    }
  }

  lemma KeysCons<V>(e: Entry<V>, rest: OMap<V>)
    ensures Keys([e] + rest) == [e.key] + Keys(rest)
  {
  }

  /** `const n = { ...m }; delete n[k]` */
  function Delete<V>(m: OMap<V>, k: string): (r: OMap<V>)
    ensures Get(r, k).None?
    ensures forall k' :: k' != k ==> Get(r, k') == Get(m, k')
    ensures Keys(r) == Without(Keys(m), [k])
    ensures k !in Keys(m) ==> r == m
    ensures UniqueKeys(m) ==> UniqueKeys(r)
  {
    if |m| == 0 then []
    else
      var rest := Delete(m[1..], k);
      DeletePassoGet(m, k, rest);
      DeletePassoKeys(m, k, rest);
      if m[0].key == k then rest else [m[0]] + rest
  }

  /** Delete's step over the first entry: the lookups, given what Delete does to the rest. */
  lemma DeletePassoGet<V>(m: OMap<V>, k: string, rest: OMap<V>)
    requires |m| > 0
    requires Get(rest, k).None?
    requires forall k' :: k' != k ==> Get(rest, k') == Get(m[1..], k')
    ensures var r := if m[0].key == k then rest else [m[0]] + rest;
            Get(r, k).None? && forall k' :: k' != k ==> Get(r, k') == Get(m, k')
  {
    assert m == [m[0]] + m[1..];
    GetCons(m[0], m[1..]);
    GetCons(m[0], rest);
  }

  /** Delete's step over the first entry: the keys, given what Delete does to the rest. */
  lemma DeletePassoKeys<V>(m: OMap<V>, k: string, rest: OMap<V>)
    requires |m| > 0
    requires Keys(rest) == Without(Keys(m[1..]), [k])
    requires k !in Keys(m[1..]) ==> rest == m[1..]
    requires UniqueKeys(m[1..]) ==> UniqueKeys(rest)
    ensures var r := if m[0].key == k then rest else [m[0]] + rest;
            Keys(r) == Without(Keys(m), [k])
            && (k !in Keys(m) ==> r == m)
            && (UniqueKeys(m) ==> UniqueKeys(r))
  {
    assert m == [m[0]] + m[1..];
    KeysCons(m[0], m[1..]);
    assert Keys(m)[1..] == Keys(m[1..]);
    if m[0].key == k {
      assert Without(Keys(m), [k]) == Keys(rest);
    } else {
      KeysCons(m[0], rest);
      assert ([m[0]] + rest)[1..] == rest;
      assert Without(Keys(m), [k]) == [m[0].key] + Keys(rest);
      if UniqueKeys(m) {
        assert m[0].key !in Keys(rest);
      }
    }
  }

  /** Keeping only some entries, in order, keeps the keys unique. */
  lemma {:induction false} SubseqUniqueKeys<V>(a: OMap<V>, b: OMap<V>)
    requires IsSubseq(a, b) && UniqueKeys(b)
    ensures UniqueKeys(a)
    decreases |b|
  {
    if |a| > 0 {
      if a[0] == b[0] {
        SubseqUniqueKeys(a[1..], b[1..]);
        SubseqMembers(a[1..], b[1..]);
        forall k | k in Keys(a[1..]) ensures k in Keys(b[1..]) {
          var i :| 0 <= i < |a[1..]| && Keys(a[1..])[i] == k;
          assert a[1..][i] in b[1..];
          var j :| 0 <= j < |b[1..]| && b[1..][j] == a[1..][i];
          assert Keys(b[1..])[j] == k;
        }
      } else {
        SubseqUniqueKeys(a, b[1..]);
      }
    }
  }
}

=== FILE: setup_wizard.dfy ===
/** The three-step setup: choose a course, then one of its curriculum matrices, then
    the current semester. The wizard drives a three-step Stepper with its own
    validation and reacts to its callbacks: entering step 1 forgets the matrix and
    the semester, entering step 2 forgets the semester, and finishing hands the three
    choices to onComplete. A selection the source leaves null is "" (or 0 for the
    semester). */
module SetupWizard {
  import opened Base
  import opened OrderedMap
  import opened Catalog
  import opened Cursos
  import opened Stepper

  /** The choices onComplete receives. */
  datatype Escolha = Escolha(curso: string, matriz: string, semestre: int)

  const TOTAL_PASSOS: nat := 3

  /** validateStep: a step fails only when the choice it asks for is missing. */
  function ValidateStep(step: int, curso: string, matriz: string, semestre: int): (ok: bool)
    ensures !ok <==> (step == 1 && curso == "") || (step == 2 && matriz == "") || (step == 3 && semestre == 0)
  {
    if step == 1 && curso == "" then false
    else if step == 2 && matriz == "" then false
    else if step == 3 && semestre == 0 then false
    else true
  }

  /** The values the course dropdown offers: the ids of the implemented courses. */
  function OpcoesDeCurso(cs: seq<Curso>): (r: seq<string>)
    ensures forall id :: id in r <==> exists c :: c in cs && c.implementado && c.id == id
  {
    var imp := Implementados(cs);
    var r := seq(|imp|, i requires 0 <= i < |imp| => imp[i].id);
    assert forall i :: 0 <= i < |imp| ==> imp[i].id in r by {
      forall i | 0 <= i < |imp| ensures imp[i].id in r {
        assert r[i] == imp[i].id;
      }
    }
    r
  }

  /** The values the matrix dropdown offers: the ids of the course's matrices, none
      without a course. */
  function OpcoesDeMatriz(tabela: OMap<seq<Matriz>>, curso: string): (r: seq<string>)
    ensures curso == "" ==> r == []
    ensures curso != "" ==> forall id :: id in r <==> exists m :: m in MatrizesDe(tabela, curso) && m.id == id
  {
    if curso == "" then []
    else
      var ms := MatrizesDe(tabela, curso);
      var r := seq(|ms|, i requires 0 <= i < |ms| => ms[i].id);
      assert forall i :: 0 <= i < |ms| ==> ms[i].id in r by {
        forall i | 0 <= i < |ms| ensures ms[i].id in r {
          assert r[i] == ms[i].id;
        }
      }
      r
  }

  /** semestresOptions: 1, 2, ..., totalSemestres of the selected course, none without one. */
  function SemestresOptions(info: Option<Curso>): (r: seq<int>)
    requires info.Some? ==> info.value.totalSemestres >= 0
    ensures info.None? ==> r == []
    ensures info.Some? ==> |r| == info.value.totalSemestres
    ensures forall i :: 0 <= i < |r| ==> r[i] == i + 1
    ensures info.Some? ==> forall n :: n in r <==> 1 <= n <= info.value.totalSemestres
  {
    if info.None? then []
    else
      var r := seq(info.value.totalSemestres, i => i + 1);
      assert forall n :: 1 <= n <= info.value.totalSemestres ==> n in r by {
        forall n | 1 <= n <= info.value.totalSemestres ensures n in r {
          assert r[n - 1] == n;
        }
      }
      r
  }

  /** No course of the list has a negative number of semesters. */
  ghost predicate TotaisNaoNegativos(cs: seq<Curso>)
  {
    forall c :: c in cs ==> c.totalSemestres >= 0
  }

  lemma CursosNaoNegativos(cs: seq<Curso>)
    requires cs == CURSOS
    ensures TotaisNaoNegativos(cs)
  {
  }

  /** The semester dropdown's values for a course id. */
  function OpcoesDeSemestre(cs: seq<Curso>, curso: string): (r: seq<int>)
    requires TotaisNaoNegativos(cs)
    ensures curso == "" ==> r == []
    ensures forall n :: n in r ==> n >= 1
  {
    if curso == "" then [] else SemestresOptions(CursoPorId(cs, curso))
  }

  /** The semester dropdown offers nothing for an unknown course, and 1, 2, ...,
      totalSemestres, in order, for a known one. */
  lemma OpcoesDeSemestreExato(cs: seq<Curso>, curso: string)
    requires TotaisNaoNegativos(cs)
    ensures CursoPorId(cs, curso).None? ==> OpcoesDeSemestre(cs, curso) == []
    ensures curso != "" && CursoPorId(cs, curso).Some? ==>
              var r := OpcoesDeSemestre(cs, curso);
              |r| == CursoPorId(cs, curso).value.totalSemestres
              && forall i :: 0 <= i < |r| ==> r[i] == i + 1
  {
  }

  /** A complete set of choices, each taken from what its dropdown offered. */
  ghost predicate EscolhaValida(cs: seq<Curso>, tabela: OMap<seq<Matriz>>, e: Escolha)
    requires TotaisNaoNegativos(cs)
  {
    e.curso in OpcoesDeCurso(cs) && e.matriz in OpcoesDeMatriz(tabela, e.curso)
    && e.semestre in OpcoesDeSemestre(cs, e.curso)
  }

  /** Choices are only ever set from the dropdowns' options, a step past the first
      has its course, a step past the second its matrix, a completed wizard its
      semester; going back to a step has forgotten the later choices; every choice
      handed to onComplete was complete and offered. */
  ghost predicate Estado(cs: seq<Curso>, tabela: OMap<seq<Matriz>>, passo: int, curso: string,
                         matriz: string, semestre: int, concluidas: seq<Escolha>)
  {
    TotaisNaoNegativos(cs)
    && 1 <= passo <= TOTAL_PASSOS + 1
    && (curso != "" ==> curso in OpcoesDeCurso(cs))
    && (matriz != "" ==> matriz in OpcoesDeMatriz(tabela, curso))
    && (semestre != 0 ==> semestre in OpcoesDeSemestre(cs, curso))
    && (passo >= 2 ==> curso != "")
    && (passo >= 3 ==> matriz != "")
    && (passo == 4 ==> semestre != 0)
    && (passo == 1 ==> matriz == "" && semestre == 0)
    && (passo == 2 ==> semestre == 0)
    && (forall e :: e in concluidas ==> EscolhaValida(cs, tabela, e))
  }

  /** Finishing the last step with a semester keeps the invariant: the wizard is
      completed and the complete choice is handed on. */
  lemma EstadoConcluido(cs: seq<Curso>, tabela: OMap<seq<Matriz>>, curso: string, matriz: string,
                        semestre: int, concluidas: seq<Escolha>)
    requires Estado(cs, tabela, TOTAL_PASSOS, curso, matriz, semestre, concluidas) && semestre != 0
    ensures Estado(cs, tabela, TOTAL_PASSOS + 1, curso, matriz, semestre,
                   concluidas + [Escolha(curso, matriz, semestre)])
  {
    assert EscolhaValida(cs, tabela, Escolha(curso, matriz, semestre));
  }

  class Assistente {
    /** The Stepper's currentStep; 4 is "completed". */
    var passo: int
    var curso: string
    var matriz: string
    var semestre: int
    var dropdownError: bool
    /** The arguments of every onComplete call so far. */
    var concluidas: seq<Escolha>
    /** The course list and the matrix table of the course catalogue. */
    const cursos: seq<Curso>
    const matrizesPorCurso: OMap<seq<Matriz>>

    /** The wizard's invariant, stated on its fields. */
    ghost predicate Valid()
      reads this
    {
      Estado(cursos, matrizesPorCurso, passo, curso, matriz, semestre, concluidas)
    }

    constructor ()
      ensures Valid() && cursos == CURSOS && matrizesPorCurso == MATRIZES_POR_CURSO
      ensures passo == 1 && curso == "" && matriz == "" && semestre == 0 && concluidas == []
    {
      passo, curso, matriz, semestre := 1, "", "", 0;
      dropdownError := false;
      concluidas := [];
      cursos := CURSOS;
      matrizesPorCurso := MATRIZES_POR_CURSO;
      CursosNaoNegativos(CURSOS);
    }

    method SelecionarCurso(id: string)
      requires Valid() && passo == 1 && id in OpcoesDeCurso(cursos)
      modifies this
      ensures Valid()
      ensures curso == id && passo == old(passo) && matriz == old(matriz) && semestre == old(semestre)
      ensures concluidas == old(concluidas)
    {
      curso := id;
    }

    method SelecionarMatriz(id: string)
      requires Valid() && passo == 2 && id in OpcoesDeMatriz(matrizesPorCurso, curso)
      modifies this
      ensures Valid()
      ensures matriz == id && passo == old(passo) && curso == old(curso) && semestre == old(semestre)
      ensures concluidas == old(concluidas)
    {
      matriz := id;
    }

    method SelecionarSemestre(n: int)
      requires Valid() && passo == 3 && n in OpcoesDeSemestre(cursos, curso)
      modifies this
      ensures Valid()
      ensures semestre == n && passo == old(passo) && curso == old(curso) && matriz == old(matriz)
      ensures concluidas == old(concluidas)
    {
      semestre := n;
    }

    /** handleStepChange */
    method HandleStepChange(step: int)
      modifies this
      ensures passo == old(passo) && curso == old(curso) && !dropdownError
      ensures matriz == (if step == 1 then "" else old(matriz))
      ensures semestre == (if step == 1 || step == 2 then 0 else old(semestre))
      ensures concluidas == old(concluidas)
    {
      dropdownError := false;
      if step == 1 {
        matriz := "";
        semestre := 0;
      } else if step == 2 {
        semestre := 0;
      }
    }

    /** handleFinalStepCompleted: onComplete fires only with all three choices made. */
    method HandleFinalStepCompleted()
      modifies this
      ensures passo == old(passo) && curso == old(curso) && matriz == old(matriz) && semestre == old(semestre)
      ensures dropdownError == old(dropdownError)
      ensures concluidas == if curso != "" && matriz != "" && semestre != 0
                            then old(concluidas) + [Escolha(curso, matriz, semestre)]
                            else old(concluidas)
    {
      if curso != "" && matriz != "" && semestre != 0 {
        concluidas := concluidas + [Escolha(curso, matriz, semestre)];
      }
    }

    /** updateStep(n) with the wizard's callbacks. */
    method UpdateStep(n: int)
      modifies this
      ensures passo == n && curso == old(curso)
      ensures n > TOTAL_PASSOS ==>
                matriz == old(matriz) && semestre == old(semestre)
                && dropdownError == old(dropdownError)
                && concluidas == if curso != "" && matriz != "" && semestre != 0
                                 then old(concluidas) + [Escolha(curso, matriz, semestre)]
                                 else old(concluidas)
      ensures n <= TOTAL_PASSOS ==>
                !dropdownError && concluidas == old(concluidas)
                && matriz == (if n == 1 then "" else old(matriz))
                && semestre == (if n == 1 || n == 2 then 0 else old(semestre))
    {
      passo := n;
      if n > TOTAL_PASSOS {
        HandleFinalStepCompleted();
      } else {
        HandleStepChange(n);
      }
    }

    /** The Back button. */
    method Voltar()
      requires Valid()
      modifies this
      ensures Valid()
      ensures passo == PassoApos(EfeitoVoltar(old(passo)), old(passo))
      ensures curso == old(curso) && concluidas == old(concluidas)
    {
      match EfeitoVoltar(passo)
      case Atualiza(n) => UpdateStep(n);
      case _ =>
    }

    /** The Next button, shown while the wizard is not completed. */
    method Avancar()
      requires Valid() && passo <= TOTAL_PASSOS
      modifies this
      ensures Valid()
      ensures passo == PassoApos(EfeitoAvancar(old(passo), TOTAL_PASSOS,
                                               ValidateStep(old(passo), old(curso), old(matriz), old(semestre))),
                                 old(passo))
      ensures passo <= TOTAL_PASSOS
      ensures dropdownError <==> !ValidateStep(old(passo), old(curso), old(matriz), old(semestre))
      ensures curso == old(curso) && concluidas == old(concluidas)
    {
      var ok := ValidateStep(passo, curso, matriz, semestre);
      dropdownError := false;
      match EfeitoAvancar(passo, TOTAL_PASSOS, ok)
      case Erro(_) => dropdownError := true;
      case Atualiza(n) =>
        assert ok && n == passo + 1 && n <= TOTAL_PASSOS;
        UpdateStep(n);
      case Nada =>
    }

    /** The Finalizar button, shown on the last step. */
    method Concluir()
      requires Valid() && passo == TOTAL_PASSOS
      modifies this
      ensures Valid()
      ensures semestre == 0 ==> passo == old(passo) && dropdownError && concluidas == old(concluidas)
      ensures semestre != 0 ==>
                passo == TOTAL_PASSOS + 1
                && concluidas == old(concluidas) + [Escolha(curso, matriz, semestre)]
      ensures curso == old(curso) && matriz == old(matriz) && semestre == old(semestre)
    {
      var ok := ValidateStep(passo, curso, matriz, semestre);
      dropdownError := false;
      match EfeitoConcluir(passo, TOTAL_PASSOS, ok)
      case Erro(_) => dropdownError := true;
      case Atualiza(n) =>
        EstadoConcluido(cursos, matrizesPorCurso, curso, matriz, semestre, concluidas);
        UpdateStep(n);
      case Nada =>
    }

    /** A click on the indicator of step `step` (indicators are never disabled here). */
    method ClicarIndicador(step: int)
      requires Valid() && 1 <= step <= TOTAL_PASSOS
      modifies this
      ensures Valid()
      ensures passo == PassoApos(EfeitoIndicador(step, old(passo), false), old(passo))
      ensures passo <= old(passo) && curso == old(curso) && concluidas == old(concluidas)
    {
      match EfeitoIndicador(step, passo, false)
      case Atualiza(n) => UpdateStep(n);
      case _ =>
    }
  }
}

=== FILE: sorting.dfy ===
/** Array.prototype.sort with a comparator, as a stable insertion sort over a
    "comes no later than" relation derived from the comparator (cmp(a, b) <= 0). */
module Sorting {

  ghost predicate Total<T(!new)>(le: (T, T) -> bool)
  {
    forall a, b :: le(a, b) || le(b, a)
  }

  ghost predicate Transitive<T(!new)>(le: (T, T) -> bool)
  {
    forall a, b, c :: le(a, b) && le(b, c) ==> le(a, c)
  }

  /** Every element comes no later than its successor. */
  predicate SortedBy<T>(s: seq<T>, le: (T, T) -> bool)
  {
    forall i :: 0 < i < |s| ==> le(s[i - 1], s[i])
  }

  /** Every element comes no later than every element after it. */
  ghost predicate SortedPairwise<T>(s: seq<T>, le: (T, T) -> bool)
  {
    forall i, j :: 0 <= i < j < |s| ==> le(s[i], s[j])
  }

  /** Puts `x` before the first element it comes no later than. */
  function Insert<T(!new)>(x: T, s: seq<T>, le: (T, T) -> bool): (r: seq<T>)
    ensures |r| == |s| + 1
    ensures multiset(r) == multiset(s) + multiset{x}
    ensures r[0] == x || (|s| > 0 && r[0] == s[0])
    ensures Total(le) && SortedBy(s, le) ==> SortedBy(r, le)
  {
    if |s| == 0 then [x]
    else if le(x, s[0]) then [x] + s
    else
      var rest := Insert(x, s[1..], le);
      assert s == [s[0]] + s[1..];
      [s[0]] + rest
  }

  function SortBy<T(!new)>(s: seq<T>, le: (T, T) -> bool): (r: seq<T>)
    ensures |r| == |s|
    ensures multiset(r) == multiset(s)
    ensures Total(le) ==> SortedBy(r, le)
  {
    if |s| == 0 then []
    else
      assert s == [s[0]] + s[1..];
      Insert(s[0], SortBy(s[1..], le), le)
  }

  /** `a` and `b` are tied: each comes no later than the other. */
  predicate Empate<T>(le: (T, T) -> bool, a: T, b: T)
  {
    le(a, b) && le(b, a)
  }

  /** The elements of `s` tied with `x`, in their order in `s`. */
  function Empatados<T>(s: seq<T>, x: T, le: (T, T) -> bool): (r: seq<T>)
    ensures |r| <= |s|
  {
    if |s| == 0 then [] else (if Empate(le, s[0], x) then [s[0]] else []) + Empatados(s[1..], x, le)
  }

  lemma {:induction false} EmpatadosConcat<T>(a: seq<T>, b: seq<T>, x: T, le: (T, T) -> bool)
    ensures Empatados(a + b, x, le) == Empatados(a, x, le) + Empatados(b, x, le)
  {
    if |a| > 0 {
      EmpatadosConcat(a[1..], b, x, le);
      var h := if Empate(le, a[0], x) then [a[0]] else [];
      assert (a + b)[0] == a[0] && (a + b)[1..] == a[1..] + b;
      assert Empatados(a + b, x, le) == h + Empatados(a[1..] + b, x, le);
      assert Empatados(a, x, le) == h + Empatados(a[1..], x, le);
    } else {
      assert a + b == b;
    }
  }

  /** Under a transitive relation, an element tied with `x` comes no later than any
      other element tied with `x`. */
  lemma EmpatadosAntes<T(!new)>(y: T, le: (T, T) -> bool, x: T)
    requires Transitive(le)
    ensures Empate(le, y, x) ==> forall z :: Empate(le, z, x) ==> le(y, z)
  {
  }

  /** An element not tied with `x` can be put in front without changing the ties. */
  lemma EmpatadosTroca<T>(z: T, r: seq<T>, t: seq<T>, ey: seq<T>, x: T, le: (T, T) -> bool)
    requires Empatados(r, x, le) == ey + Empatados(t, x, le)
    requires ey == [] || !Empate(le, z, x)
    ensures Empatados([z] + r, x, le) == ey + Empatados([z] + t, x, le)
  {
    EmpatadosConcat([z], r, x, le);
    EmpatadosConcat([z], t, x, le);
    var ez := Empatados([z], x, le);
    if ey == [] {
      assert Empatados(r, x, le) == Empatados(t, x, le);
    } else {
      assert ez == [];
      assert Empatados([z] + r, x, le) == Empatados(r, x, le);
      assert Empatados([z] + t, x, le) == Empatados(t, x, le);
    }
  }

  lemma {:induction false} InsertEstavelPasso<T(!new)>(y: T, s: seq<T>, le: (T, T) -> bool, x: T)
    requires Empate(le, y, x) ==> forall z :: Empate(le, z, x) ==> le(y, z)
    ensures Empatados(Insert(y, s, le), x, le)
            == (if Empate(le, y, x) then [y] else []) + Empatados(s, x, le)
  {
    var ey := if Empate(le, y, x) then [y] else [];
    assert Empatados([y], x, le) == ey;
    if |s| == 0 {
      assert Insert(y, s, le) == [y];
      assert Empatados(s, x, le) == [];
    } else if le(y, s[0]) {
      assert Insert(y, s, le) == [y] + s;
      EmpatadosConcat([y], s, x, le);
    } else {
      var rest := Insert(y, s[1..], le);
      assert Insert(y, s, le) == [s[0]] + rest;
      InsertEstavelPasso(y, s[1..], le, x);
      assert s == [s[0]] + s[1..];
      EmpatadosTroca(s[0], rest, s[1..], ey, x, le);
    }
  }

  /** Inserting `y` puts it ahead of every element tied with it, so among the elements
      tied with any `x` it comes first. */
  lemma InsertEstavel<T(!new)>(y: T, s: seq<T>, le: (T, T) -> bool, x: T)
    requires Transitive(le)
    ensures Empatados(Insert(y, s, le), x, le)
            == (if Empate(le, y, x) then [y] else []) + Empatados(s, x, le)
  {
    EmpatadosAntes(y, le, x);
    InsertEstavelPasso(y, s, le, x);
  }

  /** The sort is stable: the elements tied with any `x` keep their input order. */
  lemma {:induction false} SortByEstavel<T(!new)>(s: seq<T>, le: (T, T) -> bool)
    requires Transitive(le)
    ensures forall x :: Empatados(SortBy(s, le), x, le) == Empatados(s, x, le)
  {
    if |s| > 0 {
      SortByEstavel(s[1..], le);
      forall x ensures Empatados(SortBy(s, le), x, le) == Empatados(s, x, le) {
        InsertEstavel(s[0], SortBy(s[1..], le), le, x);
      }
    }
  }

  lemma {:induction false} SortedByIsPairwise<T(!new)>(s: seq<T>, le: (T, T) -> bool)
    requires Transitive(le) && SortedBy(s, le)
    ensures SortedPairwise(s, le)
  {
    if |s| > 1 {
      SortedByIsPairwise(s[1..], le);
      forall j | 1 <= j < |s| ensures le(s[0], s[j]) {
        if j > 1 { assert le(s[1..][0], s[1..][j - 1]); }
      }
    }
  }
}

=== FILE: stepper.dfy ===
/** The step-by-step container: a current step among `totalSteps` steps, moved by the
    Back and Next buttons, by a Complete on the last step and by clicks on the step
    indicators. Next and Complete first ask a validation callback; the step number
    totalSteps + 1 means "completed". The callbacks the component invokes
    (onStepChange, onFinalStepCompleted, onValidationError) are recorded in order. */
module Stepper {

  /** A callback invocation. */
  datatype Aviso = MudouPara(passo: int) | Concluiu | ErroDeValidacao(passo: int)

  /** What a handler does: nothing, updateStep(passo), or report a validation error. */
  datatype Efeito = Nada | Atualiza(passo: int) | Erro(passo: int)

  /** The callback updateStep(n) invokes. */
  function AvisoDe(n: int, totalSteps: int): (a: Aviso)
    ensures a == Concluiu <==> n > totalSteps
    ensures a != Concluiu ==> a == MudouPara(n)
  {
    if n > totalSteps then Concluiu else MudouPara(n)
  }

  /** handleBack */
  function EfeitoVoltar(atual: int): (e: Efeito)
    ensures e.Atualiza? <==> atual > 1
    ensures e.Atualiza? ==> e.passo == atual - 1 && e.passo >= 1
    ensures !e.Erro?
  {
    if atual > 1 then Atualiza(atual - 1) else Nada
  }

  /** handleNext, given what validateStep(currentStep) answered. */
  function EfeitoAvancar(atual: int, totalSteps: int, valido: bool): (e: Efeito)
    ensures !valido ==> e == Erro(atual)
    ensures valido && atual == totalSteps ==> e == Nada
    ensures valido && atual != totalSteps ==> e == Atualiza(atual + 1)
  {
    if !valido then Erro(atual)
    else if atual != totalSteps then Atualiza(atual + 1)
    else Nada
  }

  /** handleComplete, given what validateStep(currentStep) answered. */
  function EfeitoConcluir(atual: int, totalSteps: int, valido: bool): (e: Efeito)
    ensures !valido ==> e == Erro(atual)
    ensures valido ==> e == Atualiza(totalSteps + 1) && AvisoDe(e.passo, totalSteps) == Concluiu
  {
    if !valido then Erro(atual) else Atualiza(totalSteps + 1)
  }

  /** A click on the indicator of `passo`: the indicator's own guard, then onClickStep's. */
  function EfeitoIndicador(passo: int, atual: int, desativado: bool): (e: Efeito)
    ensures e.Atualiza? <==> passo < atual && !desativado
    ensures e.Atualiza? ==> e.passo == passo
    ensures !e.Erro?
  {
    if passo != atual && !desativado && passo < atual then
      if passo < atual then Atualiza(passo) else Nada
    else Nada
  }

  /** The footer's main button: Complete on the last step, Next elsewhere. */
  function EfeitoBotao(atual: int, totalSteps: int, valido: bool): (e: Efeito)
  {
    if atual == totalSteps then EfeitoConcluir(atual, totalSteps, valido)
    else EfeitoAvancar(atual, totalSteps, valido)
  }

  /** The step after an effect. */
  function PassoApos(e: Efeito, atual: int): int
  {
    if e.Atualiza? then e.passo else atual
  }

  datatype Status = Ativo | Inativo | Completo

  /** The indicator status of `passo` while `atual` is current. */
  function StatusDoIndicador(passo: int, atual: int): (s: Status)
    ensures s == Ativo <==> passo == atual
    ensures s == Inativo <==> atual < passo
    ensures s == Completo <==> passo < atual
  {
    if atual == passo then Ativo else if atual < passo then Inativo else Completo
  }

  /** While the stepper shows a step (1 <= atual <= totalSteps) its buttons and
      indicators keep it within 1..totalSteps + 1, and only a Complete leaves the
      steps. */
  lemma EfeitosNoIntervalo(atual: int, totalSteps: int, valido: bool, passo: int, desativado: bool)
    requires 1 <= atual <= totalSteps
    ensures 1 <= PassoApos(EfeitoVoltar(atual), atual) <= totalSteps
    ensures 1 <= PassoApos(EfeitoAvancar(atual, totalSteps, valido), atual) <= totalSteps
    ensures 1 <= passo ==> 1 <= PassoApos(EfeitoIndicador(passo, atual, desativado), atual) <= totalSteps
    ensures PassoApos(EfeitoConcluir(atual, totalSteps, valido), atual)
            == if valido then totalSteps + 1 else atual
  {
  }

  /** Pressed `k` times with validation passing, the footer button goes from step
      `atual` to step atual + k; pressed once more on the last step it completes. */
  function PressionarVezes(atual: int, totalSteps: int, k: nat): int
    decreases k
  {
    if k == 0 then atual
    else
      var e := EfeitoBotao(atual, totalSteps, true);
      PressionarVezes(PassoApos(e, atual), totalSteps, k - 1)
  }

  lemma {:induction false} PressionarAteConcluir(atual: int, totalSteps: int, k: nat)
    requires 1 <= atual <= totalSteps
    requires k <= totalSteps - atual + 1
    ensures PressionarVezes(atual, totalSteps, k)
            == if k == totalSteps - atual + 1 then totalSteps + 1 else atual + k
    decreases k
  {
    if k > 0 {
      if atual == totalSteps {
        assert PassoApos(EfeitoBotao(atual, totalSteps, true), atual) == totalSteps + 1;
        assert PressionarVezes(totalSteps + 1, totalSteps, 0) == totalSteps + 1;
      } else {
        PressionarAteConcluir(atual + 1, totalSteps, k - 1);
      }
    }
  }

  class Stepper {
    var currentStep: int
    const totalSteps: nat
    /** The callbacks invoked so far, oldest first. */
    var avisos: seq<Aviso>

    /** The stepper shows a step or is completed. */
    ghost predicate Valid()
      reads this
    {
      1 <= currentStep <= totalSteps + 1
    }

    predicate IsCompleted()
      reads this
    {
      currentStep > totalSteps
    }

    predicate IsLastStep()
      reads this
    {
      currentStep == totalSteps
    }

    constructor (initialStep: int, totalSteps: nat)
      ensures this.totalSteps == totalSteps && currentStep == initialStep && avisos == []
    {
      this.totalSteps := totalSteps;
      currentStep := initialStep;
      avisos := [];
    }

    method UpdateStep(newStep: int)
      modifies this
      ensures currentStep == newStep
      ensures avisos == old(avisos) + [AvisoDe(newStep, totalSteps)]
    {
      currentStep := newStep;
      if newStep > totalSteps {
        avisos := avisos + [Concluiu];
      } else {
        avisos := avisos + [MudouPara(newStep)];
      }
    }

    /** Carries out an effect of one of the handlers. */
    method Aplicar(e: Efeito)
      modifies this
      ensures currentStep == PassoApos(e, old(currentStep))
      ensures avisos == old(avisos) + match e
        case Nada => []
        case Atualiza(n) => [AvisoDe(n, totalSteps)]
        case Erro(n) => [ErroDeValidacao(n)]
    {
      match e
      case Nada =>
      case Atualiza(n) => UpdateStep(n);
      case Erro(n) => avisos := avisos + [ErroDeValidacao(n)];
    }

    method HandleBack()
      modifies this
      ensures currentStep == (if old(currentStep) > 1 then old(currentStep) - 1 else old(currentStep))
      ensures old(currentStep) >= 1 ==> currentStep >= 1
      ensures old(currentStep) > 1 ==> avisos == old(avisos) + [AvisoDe(currentStep, totalSteps)]
      ensures old(Valid()) && old(currentStep) > 1 ==> avisos == old(avisos) + [MudouPara(currentStep)]
      ensures old(currentStep) <= 1 ==> avisos == old(avisos)
      ensures old(Valid()) && totalSteps > 0 ==> Valid()
    {
      Aplicar(EfeitoVoltar(currentStep));
    }

    /** handleNext, with validateStep given as a function of the step. */
    method HandleNext(validateStep: int -> bool)
      modifies this
      ensures !validateStep(old(currentStep)) ==>
                currentStep == old(currentStep) && avisos == old(avisos) + [ErroDeValidacao(old(currentStep))]
      ensures validateStep(old(currentStep)) && old(IsLastStep()) ==>
                currentStep == old(currentStep) && avisos == old(avisos)
      ensures validateStep(old(currentStep)) && !old(IsLastStep()) ==>
                currentStep == old(currentStep) + 1
                && avisos == old(avisos) + [AvisoDe(currentStep, totalSteps)]
      ensures old(Valid()) && !old(IsCompleted()) ==> Valid() && !IsCompleted()
    {
      var e := EfeitoAvancar(currentStep, totalSteps, validateStep(currentStep));
      Aplicar(e);
    }

    method HandleComplete(validateStep: int -> bool)
      modifies this
      ensures !validateStep(old(currentStep)) ==>
                currentStep == old(currentStep) && avisos == old(avisos) + [ErroDeValidacao(old(currentStep))]
      ensures validateStep(old(currentStep)) ==>
                currentStep == totalSteps + 1 && IsCompleted() && avisos == old(avisos) + [Concluiu]
    {
      var e := EfeitoConcluir(currentStep, totalSteps, validateStep(currentStep));
      Aplicar(e);
    }

    /** A click on the indicator of step `passo`. */
    method ClickIndicator(passo: int, disableStepIndicators: bool)
      modifies this
      ensures passo < old(currentStep) && !disableStepIndicators ==>
                currentStep == passo && avisos == old(avisos) + [AvisoDe(passo, totalSteps)]
      ensures !(passo < old(currentStep) && !disableStepIndicators) ==>
                currentStep == old(currentStep) && avisos == old(avisos)
      ensures currentStep <= old(currentStep)
    {
      Aplicar(EfeitoIndicador(passo, currentStep, disableStepIndicators));
    }
  }
}

=== FILE: text.dfy ===
/** Strings as the JavaScript source treats them: trimming, case mapping,
    Number(...) of a string, String(...) of an integer, splitting, substring search
    and the order used in place of localeCompare. */
module Text {
  import opened Base

  predicate IsDigit(c: char) { '0' <= c <= '9' }

  /** The characters String.prototype.trim removes and `\s` matches: the ECMAScript
      white space (tab, vertical tab, form feed, space, no-break space, the byte order
      mark and the other space separators) and the line terminators. */
  predicate IsSpace(c: char) {
    c == ' ' || c == '\t' || c == '\n' || c == '\r' || c == '\U{000B}' || c == '\U{000C}'
    || c == '\U{00A0}' || c == '\U{FEFF}' || c == '\U{1680}' || '\U{2000}' <= c <= '\U{200A}'
    || c == '\U{2028}' || c == '\U{2029}' || c == '\U{202F}' || c == '\U{205F}' || c == '\U{3000}'
  }

  predicate AllDigits(s: string) { forall i :: 0 <= i < |s| ==> IsDigit(s[i]) }

  predicate NoSpaceAtEnds(s: string) { |s| == 0 || (!IsSpace(s[0]) && !IsSpace(s[|s| - 1])) }

  /** The index of the first character that is not whitespace (|s| when there is none). */
  function Inicio(s: string): (n: nat)
    ensures n <= |s|
  {
    if |s| > 0 && IsSpace(s[0]) then 1 + Inicio(s[1..]) else 0
  }

  /** The length of `s` without its trailing whitespace. */
  function Fim(s: string): (n: nat)
    ensures n <= |s|
  {
    if |s| > 0 && IsSpace(s[|s| - 1]) then Fim(s[..|s| - 1]) else |s|
  }

  /** `t` occurs in `s` starting at index `i`. */
  predicate OccursAt(s: string, t: string, i: int)
  {
    0 <= i && i + |t| <= |s| && s[i..i + |t|] == t
  }

  /** String.prototype.trim. */
  function Trim(s: string): (r: string)
    ensures |r| <= |s|
  {
    var i := Inicio(s);
    var j := Fim(s);
    if j <= i then "" else s[i..j]
  }

  /** Only whitespace precedes Inicio, and the character there is not whitespace. */
  lemma {:induction false} InicioEspacos(s: string)
    ensures forall k :: 0 <= k < Inicio(s) ==> IsSpace(s[k])
    ensures Inicio(s) < |s| ==> !IsSpace(s[Inicio(s)])
  {
    if |s| > 0 && IsSpace(s[0]) {
      InicioEspacos(s[1..]);
      forall k | 1 <= k < Inicio(s) ensures IsSpace(s[k]) {
        assert s[k] == s[1..][k - 1];
      }
    }
  }

  /** Only whitespace follows Fim, and the character before it is not whitespace. */
  lemma {:induction false} FimEspacos(s: string)
    ensures forall k :: Fim(s) <= k < |s| ==> IsSpace(s[k])
    ensures Fim(s) > 0 ==> !IsSpace(s[Fim(s) - 1])
  {
    if |s| > 0 && IsSpace(s[|s| - 1]) {
      FimEspacos(s[..|s| - 1]);
      forall k | Fim(s) <= k < |s| - 1 ensures IsSpace(s[k]) {
        assert s[k] == s[..|s| - 1][k];
      }
    }
  }

  /** The trimmed string is the infix of `s` that starts at its first non-whitespace
      character, and trim removes whitespace only. */
  lemma TrimInfixo(s: string)
    ensures OccursAt(s, Trim(s), Inicio(s))
    ensures forall k :: 0 <= k < Inicio(s) ==> IsSpace(s[k])
    ensures forall k :: Inicio(s) + |Trim(s)| <= k < |s| ==> IsSpace(s[k])
  {
    InicioEspacos(s);
    FimEspacos(s);
  }

  /** The trimmed string neither starts nor ends with whitespace. */
  lemma TrimSemEspacos(s: string)
    ensures NoSpaceAtEnds(Trim(s))
  {
    InicioEspacos(s);
    FimEspacos(s);
  }

  /** Every non-whitespace character survives trimming. */
  lemma TrimMantem(s: string, i: int)
    requires 0 <= i < |s| && !IsSpace(s[i])
    ensures s[i] in Trim(s)
  {
    InicioEspacos(s);
    FimEspacos(s);
    assert Trim(s)[i - Inicio(s)] == s[i];
  }

  /** trim leaves a string without surrounding whitespace unchanged. */
  lemma TrimNoSpace(s: string)
    requires NoSpaceAtEnds(s)
    ensures Trim(s) == s
  {
    if |s| > 0 {
      assert Inicio(s) == 0 && Fim(s) == |s|;
    }
  }

  /** toLowerCase on ASCII and on the Latin-1 capitals (U+00C0..U+00DE except U+00D7). */
  function ToLowerChar(c: char): (r: char)
    ensures 'A' <= c <= 'Z' ==> r as int == c as int + 32
    ensures !('A' <= c <= 'Z') && !('\U{00C0}' <= c <= '\U{00DE}') ==> r == c
  {
    if 'A' <= c <= 'Z' then (c as int + 32) as char
    else if '\U{00C0}' <= c <= '\U{00DE}' && c != '\U{00D7}' then (c as int + 32) as char
    else c
  }

  function ToLower(s: string): (r: string)
    ensures |r| == |s| && forall i :: 0 <= i < |s| ==> r[i] == ToLowerChar(s[i])
  {
    seq(|s|, i requires 0 <= i < |s| => ToLowerChar(s[i]))
  }

  /** toUpperCase restricted to ASCII letters. */
  function ToUpperChar(c: char): (r: char)
    ensures 'a' <= c <= 'z' ==> r as int == c as int - 32
    ensures !('a' <= c <= 'z') ==> r == c
  {
    if 'a' <= c <= 'z' then (c as int - 32) as char else c
  }

  function ToUpper(s: string): (r: string)
    ensures |r| == |s| && forall i :: 0 <= i < |s| ==> r[i] == ToUpperChar(s[i])
  {
    seq(|s|, i requires 0 <= i < |s| => ToUpperChar(s[i]))
  }

  function DigitValue(c: char): (d: nat)
    requires IsDigit(c)
    ensures d < 10
  {
    c as int - '0' as int
  }

  function DigitChar(d: nat): (c: char)
    requires d < 10
    ensures IsDigit(c) && DigitValue(c) == d
  {
    ('0' as int + d) as char
  }

  /** The decimal value of a string of digits. */
  function DigitsValue(s: string): nat
    requires AllDigits(s)
  {
    if |s| == 0 then 0 else DigitsValue(s[..|s| - 1]) * 10 + DigitValue(s[|s| - 1])
  }

  /** A leading zero does not change the value of a digit string. */
  lemma {:induction false} DigitsValueZeroInicial(s: string)
    requires AllDigits(s)
    ensures AllDigits("0" + s) && DigitsValue("0" + s) == DigitsValue(s)
    decreases |s|
  {
    if |s| > 0 {
      DigitsValueZeroInicial(s[..|s| - 1]);
      assert ("0" + s)[..|"0" + s| - 1] == "0" + s[..|s| - 1];
    }
  }

  /** The value of `t` read digit by digit, None as soon as a character is not a digit. */
  function Digitos(t: string): Option<nat>
  {
    if |t| == 0 then Some(0)
    else
      match Digitos(t[..|t| - 1])
      case None => None
      case Some(v) => if IsDigit(t[|t| - 1]) then Some(v * 10 + DigitValue(t[|t| - 1])) else None
  }

  /** Digitos reads exactly the digit strings, as their decimal value. */
  lemma {:induction false} DigitosSpec(t: string)
    ensures Digitos(t).Some? <==> AllDigits(t)
    ensures AllDigits(t) ==> Digitos(t) == Some(DigitsValue(t))
  {
    if |t| > 0 {
      DigitosSpec(t[..|t| - 1]);
      if AllDigits(t[..|t| - 1]) && IsDigit(t[|t| - 1]) {
        forall i | 0 <= i < |t| ensures IsDigit(t[i]) {
          if i < |t| - 1 { assert t[i] == t[..|t| - 1][i]; }
        }
      }
      if AllDigits(t) {
        assert forall i :: 0 <= i < |t| - 1 ==> t[..|t| - 1][i] == t[i];
      }
    }
  }

  /** JavaScript's Number(s) on the strings the model reads: surrounding whitespace
      is ignored and the rest read by NumeroAparado. */
  function NumberOfString(s: string): Option<int>
  {
    NumeroAparado(Trim(s))
  }

  /** Number() of a string with nothing to trim: the empty string is 0, an optional
      sign may precede the digits; anything else is NaN (None). */
  function NumeroAparado(t: string): Option<int>
  {
    if |t| == 0 then Some(0)
    else if t[0] == '-' || t[0] == '+' then
      if |t| == 1 then None
      else
        match Digitos(t[1..])
        case None => None
        case Some(v) => Some(if t[0] == '-' then -(v as int) else v as int)
    else Digitos(t)
  }

  /** A string of digits reads as its decimal value; the empty one as 0. */
  lemma NumeroAparadoDigitos(t: string)
    requires AllDigits(t)
    ensures NumeroAparado(t) == Some(if |t| == 0 then 0 else DigitsValue(t))
  {
    DigitosSpec(t);
    if |t| > 0 {
      assert IsDigit(t[0]);
    }
  }

  /** A string of digits, once trimmed, reads as its decimal value; blank reads as 0. */
  lemma NumberOfStringDigitos(s: string)
    requires AllDigits(Trim(s))
    ensures NumberOfString(s) == Some(if |Trim(s)| == 0 then 0 else DigitsValue(Trim(s)))
  {
    NumeroAparadoDigitos(Trim(s));
  }

  /** A minus sign before digits, with nothing to trim, reads as the negated value. */
  lemma NumberOfStringNegativo(s: string)
    requires NoSpaceAtEnds(s) && |s| > 1 && s[0] == '-' && AllDigits(s[1..])
    ensures NumberOfString(s) == Some(0 - DigitsValue(s[1..]))
  {
    TrimNoSpace(s);
    DigitosSpec(s[1..]);
  }

  /** String(n) for a natural number. */
  function NatToString(n: nat): string
  {
    if n < 10 then [DigitChar(n)] else NatToString(n / 10) + [DigitChar(n % 10)]
  }

  /** String(n) is the shortest decimal numeral of n: digits only, reading back as n,
      with no leading zero. */
  lemma {:induction false} NatToStringSpec(n: nat)
    ensures |NatToString(n)| >= 1 && AllDigits(NatToString(n)) && DigitsValue(NatToString(n)) == n
    ensures n >= 10 ==> NatToString(n)[0] != '0'
    ensures NoSpaceAtEnds(NatToString(n))
  {
    if n >= 10 {
      NatToStringSpec(n / 10);
      var p := NatToString(n / 10);
      var r := NatToString(n);
      assert r == p + [DigitChar(n % 10)];
      assert r[..|r| - 1] == p;
    }
  }

  /** String(i) for an integer. */
  function IntToString(i: int): string
  {
    if i < 0 then "-" + NatToString(-i) else NatToString(i)
  }

  lemma IntToStringSpec(i: int)
    ensures |IntToString(i)| >= 1 && NoSpaceAtEnds(IntToString(i))
    ensures i >= 0 ==> AllDigits(IntToString(i)) && DigitsValue(IntToString(i)) == i
    ensures i < 0 ==> IntToString(i)[0] == '-' && IntToString(i)[1..] == NatToString(-i)
                      && AllDigits(IntToString(i)[1..]) && DigitsValue(IntToString(i)[1..]) == -i
  {
    if i < 0 {
      NatToStringSpec(-i);
      assert IntToString(i)[1..] == NatToString(-i);
    } else {
      NatToStringSpec(i);
    }
  }

  /** Number(String(i)) == i. */
  lemma {:induction false} NumberOfIntToString(i: int)
    ensures NumberOfString(IntToString(i)) == Some(i)
  {
    IntToStringSpec(i);
    var r := IntToString(i);
    if i >= 0 {
      TrimNoSpace(r);
      NumberOfStringDigitos(r);
    } else {
      NatToStringSpec(-i);
      NumberOfStringNegativo(r);
    }
  }

  /** String.prototype.padStart(2, '0'). */
  function PadStart2(s: string): (r: string)
    ensures |r| == if |s| >= 2 then |s| else 2
    ensures r[|r| - |s|..] == s
    ensures forall i :: 0 <= i < |r| - |s| ==> r[i] == '0'
  {
    if |s| >= 2 then s else if |s| == 1 then "0" + s else "00"
  }

  /** s.split(c) for each c in `seps`: the pieces between separator characters. */
  function Split(s: string, seps: set<char>): (r: seq<string>)
    ensures |r| >= 1
    ensures forall k, i :: 0 <= k < |r| && 0 <= i < |r[k]| ==> r[k][i] !in seps
  {
    if |s| == 0 then [""]
    else
      var rest := Split(s[1..], seps);
      if s[0] in seps then [""] + rest
      else [[s[0]] + rest[0]] + rest[1..]
  }

  /** A string without separators is one piece. */
  lemma {:induction false} SplitSemSeparador(s: string, seps: set<char>)
    requires forall i :: 0 <= i < |s| ==> s[i] !in seps
    ensures Split(s, seps) == [s]
  {
    if |s| > 0 {
      SplitSemSeparador(s[1..], seps);
      assert [s[0]] + s[1..] == s;
    }
  }

  /** Splitting at the first separator: the piece before it, then the pieces after. */
  lemma {:induction false} SplitPrimeiro(a: string, c: char, b: string, seps: set<char>)
    requires c in seps && forall i :: 0 <= i < |a| ==> a[i] !in seps
    ensures Split(a + [c] + b, seps) == [a] + Split(b, seps)
  {
    if |a| == 0 {
      assert a + [c] + b == [c] + b;
      assert ([c] + b)[1..] == b;
    } else {
      SplitPrimeiro(a[1..], c, b, seps);
      assert (a + [c] + b)[1..] == a[1..] + [c] + b;
      assert [a[0]] + a[1..] == a;
    }
  }

  /** An occurrence inside an occurrence is an occurrence. */
  lemma OcorreDentro(s: string, t: string, u: string, i: int, j: int)
    requires OccursAt(s, t, i) && OccursAt(t, u, j)
    ensures OccursAt(s, u, i + j)
  {
    forall k | 0 <= k < |u| ensures s[i + j + k] == u[k] {
      assert u[k] == t[j + k] == s[i + j + k];
    }
  }

  /** Every piece of a split is text of `s` as written, the first one at its start. */
  lemma {:induction false} SplitContido(s: string, seps: set<char>)
    ensures OccursAt(s, Split(s, seps)[0], 0)
    ensures forall k :: 0 <= k < |Split(s, seps)| ==> Contains(s, Split(s, seps)[k])
    decreases |s|
  {
    var r := Split(s, seps);
    if |s| == 0 {
      assert OccursAt(s, r[0], 0);
    } else {
      SplitContido(s[1..], seps);
      var rest := Split(s[1..], seps);
      assert OccursAt(s, r[0], 0) by {
        if s[0] !in seps { assert s[..|r[0]|] == [s[0]] + s[1..][..|rest[0]|]; }
      }
      forall k | 0 <= k < |r| ensures Contains(s, r[k]) {
        if k == 0 {
          assert OccursAt(s, r[k], 0);
        } else {
          var k' := if s[0] in seps then k - 1 else k;
          assert r[k] == rest[k'];
          var i :| OccursAt(s[1..], rest[k'], i);
          OcorreDentro(s, s[1..], rest[k'], 1, i);
        }
      }
    }
  }

  /** The trimmed pieces of texts of `s` are texts of `s`. */
  lemma {:induction false} TrimNonEmptyContido(xs: seq<string>, s: string)
    requires forall k :: 0 <= k < |xs| ==> Contains(s, xs[k])
    ensures forall k :: 0 <= k < |TrimNonEmpty(xs)| ==> Contains(s, TrimNonEmpty(xs)[k])
  {
    if |xs| > 0 {
      TrimNonEmptyContido(xs[1..], s);
      var t := Trim(xs[0]);
      assert Contains(s, t) by {
        assert Contains(s, xs[0]);
        var i :| OccursAt(s, xs[0], i);
        TrimInfixo(xs[0]);
        OcorreDentro(s, xs[0], t, i, Inicio(xs[0]));
      }
    }
  }

  /** Trimming introduces no character: pieces free of `seps` stay free of them. */
  lemma {:induction false} TrimNonEmptySem(xs: seq<string>, seps: set<char>)
    requires forall k, i :: 0 <= k < |xs| && 0 <= i < |xs[k]| ==> xs[k][i] !in seps
    ensures forall k, i :: 0 <= k < |TrimNonEmpty(xs)| && 0 <= i < |TrimNonEmpty(xs)[k]|
                           ==> TrimNonEmpty(xs)[k][i] !in seps
  {
    if |xs| > 0 {
      TrimNonEmptySem(xs[1..], seps);
      var t := Trim(xs[0]);
      TrimInfixo(xs[0]);
      assert forall i :: 0 <= i < |t| ==> t[i] == xs[0][Inicio(xs[0]) + i];
    }
  }

  function Join(xs: seq<string>, sep: string): string
  {
    if |xs| == 0 then "" else if |xs| == 1 then xs[0] else xs[0] + sep + Join(xs[1..], sep)
  }

  /** Trims every piece and drops the empty ones (`.map(x => x.trim()).filter(Boolean)`). */
  function TrimNonEmpty(xs: seq<string>): (r: seq<string>)
    ensures forall k :: 0 <= k < |r| ==> |r[k]| > 0 && NoSpaceAtEnds(r[k])
    ensures |r| <= |xs|
  {
    if |xs| == 0 then []
    else
      var t := Trim(xs[0]);
      TrimSemEspacos(xs[0]);
      if |t| == 0 then TrimNonEmpty(xs[1..]) else [t] + TrimNonEmpty(xs[1..])
  }

  /** String.prototype.includes. */
  function Contains(s: string, t: string): (b: bool)
    ensures b <==> exists i :: OccursAt(s, t, i)
  {
    if |t| <= |s| && s[..|t|] == t then
      assert OccursAt(s, t, 0);
      true
    else if |s| == 0 then false
    else
      var b := Contains(s[1..], t);
      assert forall i :: OccursAt(s[1..], t, i) <==> OccursAt(s, t, i + 1);
      assert !OccursAt(s, t, 0);
      assert forall i :: OccursAt(s, t, i) ==> i >= 1 && OccursAt(s[1..], t, i - 1);
      b
  }

  /** Lexicographic order by character code, the model's stand-in for localeCompare. */
  predicate LexLe(a: string, b: string)
  {
    if |a| == 0 then true
    else if |b| == 0 then false
    else if a[0] != b[0] then a[0] < b[0]
    else LexLe(a[1..], b[1..])
  }

  lemma {:induction false} LexLeTotal(a: string, b: string)
    ensures LexLe(a, b) || LexLe(b, a)
  {
    if |a| > 0 && |b| > 0 && a[0] == b[0] { LexLeTotal(a[1..], b[1..]); }
  }

  lemma {:induction false} LexLeAntisymmetric(a: string, b: string)
    requires LexLe(a, b) && LexLe(b, a)
    ensures a == b
  {
    if |a| > 0 && |b| > 0 {
      LexLeAntisymmetric(a[1..], b[1..]);
      assert a == [a[0]] + a[1..];
      assert b == [b[0]] + b[1..];
    }
  }

  /** Comparing texts whose first parts have the same length: the first parts decide
      unless they are equal, then the rest does. */
  lemma {:induction false} LexLeConcat(x1: string, x2: string, y1: string, y2: string)
    requires |x1| == |y1|
    ensures LexLe(x1 + x2, y1 + y2) <==> (x1 != y1 && LexLe(x1, y1)) || (x1 == y1 && LexLe(x2, y2))
  {
    if |x1| > 0 {
      assert (x1 + x2)[0] == x1[0] && (y1 + y2)[0] == y1[0];
      if x1[0] == y1[0] {
        LexLeConcat(x1[1..], x2, y1[1..], y2);
        assert (x1 + x2)[1..] == x1[1..] + x2 && (y1 + y2)[1..] == y1[1..] + y2;
        assert x1 == y1 <==> x1[1..] == y1[1..] by {
          assert x1 == [x1[0]] + x1[1..] && y1 == [y1[0]] + y1[1..];
        }
      }
    } else {
      assert x1 + x2 == x2 && y1 + y2 == y2;
    }
  }

  /** On digit strings of one length, numeric order is text order, and equal values
      are equal strings. */
  lemma {:induction false} DigitsLex(x: string, y: string)
    requires AllDigits(x) && AllDigits(y) && |x| == |y|
    ensures DigitsValue(x) <= DigitsValue(y) <==> LexLe(x, y)
    ensures DigitsValue(x) == DigitsValue(y) <==> x == y
    decreases |x|
  {
    if |x| > 0 {
      var n := |x| - 1;
      var x1, y1 := x[..n], y[..n];
      assert AllDigits(x1) && AllDigits(y1);
      DigitsLex(x1, y1);
      assert x == x1 + [x[n]] && y == y1 + [y[n]];
      LexLeConcat(x1, [x[n]], y1, [y[n]]);
      assert LexLe([x[n]], [y[n]]) <==> x[n] <= y[n];
      assert DigitValue(x[n]) <= DigitValue(y[n]) <==> x[n] <= y[n];
    }
  }

  lemma {:induction false} LexLeTransitive(a: string, b: string, c: string)
    requires LexLe(a, b) && LexLe(b, c)
    ensures LexLe(a, c)
  {
    if |a| > 0 && |b| > 0 && |c| > 0 && a[0] == b[0] && b[0] == c[0] {
      LexLeTransitive(a[1..], b[1..], c[1..]);
    }
  }
}
